=== FILE: README.md ===
# OpenLEO oleomux core, modelled in Dafny

This project models the pure codecs at the heart of the OpenLEO CAN tools.
These tools are a message manager that converts between DBC, YAML and C, a
frame viewer, and adapter drivers. The modelled parts are:

- **The bit-position codec** (module `BitCodec`, `bitcodec.dfy`). It covers:
  - `endian_translate`;
  - the `"B.b"` / `"B.b-B.b"` tokens of `yml_bits_encode` and
    `yml_bits_decode`, in the OLEO and CANT modes;
  - the bit cursor that walks down a byte and wraps to bit 7 of the next one.
- **The C generator** (module `CGen`, `cgen.dfy`). It covers:
  - `bitmask`;
  - the per-signal line `export_parser_c` writes;
  - the field type `export_to_struct` chooses;
  - the header, source and structure files as lists of lines;
  - the lines of the generated `yml/307.c` and `yml/307_messages.h` as
    concrete vectors.
- **The comment codec** (module `Comments`, `comments.dfy`):
  `yml_comment_encode`, `yml_comment_decode` and `get_comment`. Python's
  insertion-ordered dictionaries are modelled by `PyDict` (`pydict.dfy`).
- **The message map** (module `Database`, `messagemap.dfy`). It covers:
  - `to_hex`;
  - the sort by frame id in `check_message_structure`;
  - the merges of `import_from_yaml` and `import_from_dbc`, where existing ids
    win;
  - the bit tokens written by the YAML export and read back by the import;
  - the signal filters of the exports.
- **Frame value extraction** (module `Frames`, `frames.dfy`). It covers:
  - `can_to_bin`, `can_to_int` and `can_to_str`;
  - the 8/16-bit sign correction of `can_to_formatted`;
  - `byte2ascii`, `e_balance` and `e_navi`.
- **The adapter codecs** (modules `Crc` and `Adapter`, `crc.dfy` and
  `adapter.dfy`). They cover:
  - the Dallas/Maxim CRC-8 `crc8` (reflected, polynomial 0x8C);
  - the 19-byte packet check of the serial reading loop;
  - `SerialHandlerNew.get_message` and `adapter_configure`;
  - the line parsers `SerialHandler._parse` and `ArdLogHandler.get_message`.
- **Decoded-message formatting** (module `Format`, `format.dfy`). It covers
  the cantools helpers `_format_signals`, the single-line and multi-line
  message layouts, `format_message`, `format_message_by_frame_id` and
  `format_multiplexed_name`.

Shared text helpers are in `Text` (`text.dfy`). They cover decimal and hex
rendering and parsing, `str.split`, binary values of `'0'`/`'1'` strings, and
ASCII `lower()`. The `Option`/`Result` types are in `Wrappers`
(`wrappers.dfy`), and byte/`bv8` conversions are in `Octets` (`octets.dfy`).

Modelling conventions:
- A Python exception that escapes to the caller is `Raise(kind)`.
- A `False` or `None` return is an `Option`, or a dedicated datatype case.
- Frames are sequences of bytes, and bit strings are strings over `'0'`/`'1'`.
- Floats (`scale`, `offset`) appear only as their rendered text, together with
  the three flags the generator tests.

Encoding a flat comment and then decoding the result does not give the
string back. A plain string goes to `comment_fr` and three empty defaults
follow it, so decoding gives `"comment_fr:…;name_en:;comment_en:;src:"`.
`Comments.DecodeEncodePlain` states this.

The exports and the C generator take a `fixed` flag. With `fixed` false they
do what the code does, including the defects listed under "## Findings":
- the counting signal filter;
- the unclosed parenthesis of a zero-shift line;
- the missing 8-bit structure field.

With `fixed` true they apply the evident corrections.

## Model

| member | source | states |
|---|---|---|
| BitCodec.CeilDiv | oleomgr.py:67 | `math.ceil(a / b)`: the least multiple count that reaches `a` |
| BitCodec.Step | oleomgr.py:96-99 | one cursor step moves one bit further in MSB-first order and stays in a byte, or moves to the next byte |
| BitCodec.Advance | oleomgr.py:95-100 | `n` steps advance the MSB-first linear index by exactly `n` and never move back a byte |
| BitCodec.LinearInjective | oleomgr.py:95-100 | two in-byte cursors with the same linear index are the same cursor |
| BitCodec.StartCursor | oleomgr.py:82-83 | the start cursor lies in a byte numbered from 1 |
| BitCodec.StartCursorByte | oleomgr.py:82 | the start byte is `start div 8 + 1` |
| BitCodec.EndianTranslateSameByte | oleomgr.py:62-70 | the translated index is in the same byte, with the bit mirrored (`7 - start mod 8`); it is the start cursor's linear index |
| BitCodec.EndianTranslateInvolution | oleomgr.py:62-70 | translating twice gives back the original start |
| BitCodec.EncodeBits | oleomgr.py:73-105 | a token exists exactly for the OLEO and CANT modes; a 1-bit signal gives `"B.b"` with byte `start div 8 + 1` and bit `start mod 8` (mirrored in CANT mode); longer signals give a range |
| BitCodec.EncodeRangeEnd | oleomgr.py:91-105 | the end of a range token lies `length - 1` MSB-first steps after the start: its linear index is `endian_translate(start) + length - 1` |
| BitCodec.CountTo | oleomgr.py:135-148 | the walk's count never falls below the positions already visited |
| BitCodec.WalkResult | oleomgr.py:129-150 | decoding numeric range parts never raises, and a found length is at least 1 |
| BitCodec.DecodeBits | oleomgr.py:108-163 | every CANT range token decodes to `False`; a found length is at least 1; a token without `-` has length 1 |
| BitCodec.DecodeRangeOfNumbers | oleomgr.py:129-150 | a range written in decimal decodes to the walk over its numbers |
| BitCodec.DecodeRangeToken | oleomgr.py:116-121 | a non-CANT range token splits into its four decimal parts and decodes as those parts |
| BitCodec.CountToSound | oleomgr.py:139-148 | when the walk stops at the end cursor after `n` positions, the end is `n - 1` steps from the start and (for `n > 1`) in bytes 1..8 |
| BitCodec.CountToComplete | oleomgr.py:139-150 | an end cursor `k` steps away that stays within byte 8 is found after exactly `k` more positions |
| BitCodec.CountToUnreachable | oleomgr.py:139-148 | an end cursor behind the start, or with a bit outside 0..7, is never reached: the decode gives `False` |
| BitCodec.ReversedRangeRejected | oleomgr.py:139-148 | a reversed range such as `"1.3-1.5"`, or an end bit above 7, decodes to `False` |
| BitCodec.OleoRangeDecode | oleomgr.py:116-150 | an OLEO range token from a cursor to `k` steps later decodes to the cursor's first bit and length `k + 1` |
| BitCodec.WalkResultComplete | oleomgr.py:133-150 | decoding numbers `k` steps apart gives the first bit and length `k + 1` |
| BitCodec.WalkResultSound | oleomgr.py:133-150 | a decoded range's first bit is `(startByte - 1)*8 + startBit`, and its end is `length - 1` steps from its start, within byte 8 |
| BitCodec.DecodeRangeMeaning | oleomgr.py:116-150 | every successfully decoded range token describes a span: a start cursor, and an end `length - 1` steps later within byte 8 |
| BitCodec.OleoSingleBitRoundTrip | oleomgr.py:85-161 | a 1-bit OLEO token decodes back to `(start, 1)` |
| BitCodec.OleoRoundTrip | oleomgr.py:73-163 | OLEO mode: decoding the encoding of `(start, length)` gives `(start, length)` whenever the end byte is at most 8 |
| BitCodec.CantSingleBitRoundTrip | oleomgr.py:85-161 | a 1-bit CANT token decodes back to `(start, 1)` |
| BitCodec.CantRangeRoundTripFails | oleomgr.py:116-127 | as written, the CANT encoding of any signal longer than one bit decodes to `False` |
| BitCodec.CantRangeExample | oleomgr.py:102-127 | the 2-bit signal at bit 0 encodes to `"1.7-2.0"`, which decodes to `False` |
| BitCodec.MirroredWalk | oleomgr.py:122-150 | the corrected CANT walk mirrors both bit labels; labels above 7 give `False` |
| BitCodec.DecodeBitsFixed | oleomgr.py:108-163 | the corrected decode agrees with the original for OLEO tokens and for single bits |
| BitCodec.DecodeRangeFixedToken | oleomgr.py:116-150 | the corrected range decode on a token is the decode of its four decimal parts |
| BitCodec.DecodeRangeFixedOfNumbers | oleomgr.py:122-150 | a corrected CANT range decodes as the walk over the mirrored bits |
| BitCodec.CantLabelsFixed | oleomgr.py:104-150 | corrected CANT decoding of two encoded cursor labels walks between those cursors |
| BitCodec.CantRangeDecodeFixed | oleomgr.py:122-150 | a corrected CANT token from a cursor to `k` steps later decodes to the first bit and length `k + 1` |
| BitCodec.CantRoundTripFixed | oleomgr.py:73-163 | with the corrected decode, CANT mode round-trips `(start, length)` whenever the end byte is at most 8 |
| CGen.MaskDigits | oleomgr.py:53-57 | the `n` mask characters are binary, and character `i` is `'1'` exactly when `bit <= i <= end` |
| CGen.Bitmask | oleomgr.py:46-59 | `"0b"` then `width` characters, which are `'1'` exactly at positions `bit .. bit + length - 1` |
| CGen.MaskDigitsValue | oleomgr.py:53-57 | the mask's binary value is a run of `hi - lo + 1` ones followed by `n - 1 - hi` zeros |
| CGen.BitmaskValue | oleomgr.py:46-59 | an 8-bit mask for `length` bits at `p` has the value `(2^length - 1) * 2^(8 - (p + length))` |
| CGen.ShiftTerms | oleomgr.py:646-649 | while more than 8 bits remain there is one `data[i] << k` term per byte, with `i` rising from the start byte and `k = bits_left - 8` falling by 8 each time |
| CGen.AssembleTerms | oleomgr.py:642-650 | the assembled read is the shift terms followed by `msg->data[byte_end]` |
| CGen.LastShift | oleomgr.py:646-650 | the last shift amount is between 1 and 8 |
| CGen.SpanOf | oleomgr.py:635-639 | the start byte is `start div 8`; the bit in the byte is the mirrored start bit; the end byte is the byte of the signal's last bit |
| CGen.SpanAt | oleomgr.py:635-639 | with translated start `t`, the span is bytes `t div 8 .. (t + length - 1) div 8` at bit `t mod 8` |
| CGen.AssembleBalance | oleomgr.py:642-650 | the assembled read has balanced parentheses |
| CGen.MaskSuffixBalance | oleomgr.py:652-657 | the mask suffix closes one parenthesis, except a mask with no shift, which closes none |
| CGen.ScaleOffsetBalance | oleomgr.py:658-666 | the scale suffix closes one parenthesis; the offset suffix is balanced |
| CGen.CLineBalance | oleomgr.py:652-667 | as written, the C line is balanced except for a masked signal with a zero shift, which leaves one `(` open |
| CGen.CLineFixedBalance | oleomgr.py:652-667 | the corrected C line always has balanced parentheses |
| CGen.CLineFixedAgrees | oleomgr.py:652-667 | the written and the corrected statement are equal except for a masked signal ending on its byte, where the corrected one has a `)` after the mask |
| CGen.ParserCLine | oleomgr.py:626-667 | a statement assigns the field from the `(((` and the byte terms of the signal's span and ends in `;`; as written it leaves one `(` open exactly for a masked signal ending on its byte; corrected it is balanced |
| CGen.MaskSuffixFixedAgrees | oleomgr.py:652-657 | the corrected mask suffix differs from the original only by the missing `)` when the shift is zero |
| CGen.FieldWidthOf | oleomgr.py:567-583 | as written, a field exists exactly for lengths below 8 or in 9..32, and its type is wide enough |
| CGen.FieldWidthFixed | oleomgr.py:567-583 | corrected: every length up to 32 gets a field |
| CGen.FieldWidthFixedNarrowest | oleomgr.py:567-583 | the corrected type is wide enough and no wider than any type that fits |
| CGen.FieldWidthAgrees | oleomgr.py:567-583 | the two choices agree on every length but 8, where only the corrected one gives a field |
| CGen.FieldLine | oleomgr.py:567-583 | a signal gets a field line exactly when its width gets a type |
| CGen.FieldLinesCount | oleomgr.py:554-583 | with the corrected choice, every signal of at most 32 bits has a field; as written, a signal of exactly 8 bits makes the field list shorter than the signal list |
| CGen.ParserCLines | oleomgr.py:626-667 | one statement per emitted signal, each ending in `;`; as written a statement leaves one `(` open exactly for a masked signal ending on its byte, and every corrected one is balanced |
| CGen.MessageSignals | oleomgr.py:554-561 | without an include list all signals are emitted; it raises, always with `TypeError`, exactly when the entry is `1` and the message has a signal; as written, a list emits the signals before the first unlisted position |
| CGen.StructFile | oleomgr.py:547-586 | the structure file raises exactly when some listed message's include entry makes the filter raise, and then with `TypeError`; otherwise it is the messages' blocks one after another |
| CGen.ParserDefinitions | oleomgr.py:616-671 | the parser source raises exactly when some listed message's include entry makes the filter raise, and then with `TypeError`; otherwise it is the messages' parser definitions one after another |
| CGen.ExportParser | oleomgr.py:599-679 | raises exactly when some listed entry makes the filter raise, and never without an include list; the header is two include lines and then the prototype of each listed message, in order; the source is its include line, an empty line and the definitions |
| CGen.ExportStruct | oleomgr.py:536-596 | raises exactly when some listed entry makes the filter raise, and never without an include list; otherwise it is the structure blocks of the listed messages |
| CGen.ParserSignature | oleomgr.py:621-623 | a parser's prototype ends with its argument, typed by the message's structure name: `<prefix><lower name>* ptr)` |
| CGen.FlattenBlock | oleomgr.py:547-586 | block `i` of a file sits, unchanged, right after the lines of the blocks before it |
| CGen.StructFileLayout | oleomgr.py:547-586 | each listed message's block, at the offset of the blocks before it: `typedef struct <prefix><lower name>{`, the field lines of its written signals, `} <prefix><lower name>; ` and an empty line |
| CGen.ParserDefinitionsLayout | oleomgr.py:616-671 | each listed message's parser, at the offset of the parsers before it: its prototype and ` {`, an empty line, one statement per written signal, `}` and an empty line |
| CGen.ExportFilesAgree | oleomgr.py:547-623 | when the parser files are written, the structure file is too; every prototype in the header is defined in the source, and every structure type its `ptr` argument names is a `typedef struct` of the structure file |
| CGen.NumProf1Line | yml/307.c:5 | `NUM_PROF_1` (start 7, 2 bits) reads `msg->data[0]` with mask ` & 0b11000000) >> 6`, and the whole statement is `ptr->NUM_PROF_1 = (((msg->data[0]) & 0b11000000) >> 6);` behind the tab |
| CGen.NumMemCLine | yml/307.c:8 | `NUM_MEM_C` (start 3, 4 bits) has a zero shift: the original suffix ` & 0b00001111` leaves a parenthesis open, and the corrected one closes it |
| CGen.NumMemCStatement | yml/307.c:8 | the whole `NUM_MEM_C` statement is `ptr->NUM_MEM_C = (((msg->data[0]) & 0b00001111);` behind the tab, one `)` short |
| CGen.VitmLine | yml/307.c:38 | `VITM` (16 bits) reads `msg->data[0] << 8 \| msg->data[1]` without a mask, scaled by `0.125`; the whole statement is `ptr->VITM = (((msg->data[0] << 8 \| msg->data[1]))) * 0.125;` behind the tab |
| CGen.KmTotalLine | yml/307.c:54 | `KM_TOTAL` (24 bits) reads `msg->data[2] << 16 \| msg->data[3] << 8 \| msg->data[4]`; the whole statement is `ptr->KM_TOTAL = (((msg->data[2] << 16 \| msg->data[3] << 8 \| msg->data[4]))) * 0.1;` behind the tab |
| CGen.TExtLine | yml/307.c:55 | `T_EXT` (8 bits, scale 0.5, offset -40) ends `)) * 0.5 - 40`; the whole statement is `ptr->T_EXT = (((msg->data[5]))) * 0.5 - 40;` behind the tab |
| CGen.ConsoField | yml/307_messages.h:33-39 | as written, the 8-bit `CONSO` gets no structure field, though it gets a C line; the corrected choice gives it an 8-bit field |
| Comments.SetDefault | oleomgr.py:204-211 | a missing key is appended with `""`; a present key leaves the map unchanged |
| Comments.FillDefaults | oleomgr.py:204-211 | every default key is present afterwards, and every key already present remains |
| Comments.FillDefaultsGet | oleomgr.py:175-182 | a present key keeps its value; a missing default key reads `""`; any other missing key stays missing |
| Comments.FillDefaultsComplete | oleomgr.py:175-182 | a map that already has the four default keys is unchanged |
| Comments.ParsePairs | oleomgr.py:191-195 | assigning parsed pairs keeps the keys distinct |
| Comments.Encode | oleomgr.py:166-213 | the result always holds `name_en`, `comment_en`, `comment_fr` and `src`; a given `src` wins for a map and for no comment |
| Comments.EncodePlainText | oleomgr.py:199-213 | a string without `;` lands whole in `comment_fr`, and the other defaults are `""` |
| Comments.EncodePlainTextOrder | oleomgr.py:199-213 | for a plain string the map is exactly `comment_fr`, `name_en`, `comment_en`, `src`, in that order |
| Comments.Decode | oleomgr.py:215-224 | strings and `None` come back unchanged; a map becomes its `key:value` pairs joined by `;` |
| Comments.TerminatedJoin | oleomgr.py:222-224 | the loop's `;`-terminated text, less its last character, is the `;`-join of the pairs |
| Comments.ParsePairsOfTexts | oleomgr.py:191-195 | parsing the pair texts of a map with distinct, separator-free keys and values rebuilds that map |
| Comments.SplitPairTexts | oleomgr.py:192-224 | splitting a decoded map at `;` gives its pair texts back |
| Comments.EncodeDecode | oleomgr.py:166-224 | encoding the decoding of a map with at least two distinct, separator-free entries gives that map with the defaults filled in |
| Comments.EncodeDecodeExact | oleomgr.py:166-224 | when such a map already holds the four default keys, encoding its decoding restores it exactly |
| Comments.EncodeDecodeSingle | oleomgr.py:191-224 | a one-entry map decodes to text without `;`, which encodes into `comment_fr` as `key:value` |
| Comments.DecodeEncodePlain | oleomgr.py:199-224 | decoding the encoding of a plain string does not give the string back |
| Comments.GetComment | oleomgr.py:245-252 | for a map, the stored text under `lang` or `""`; for a plain string without `;`, the string under `comment_fr` and `""` under any other key; for no comment, `""` |
| Crc.Crc8 | source_handler.py:213-221 | the eight rounds equal eight shift-and-reduce steps applied to `crc xor extract` |
| Crc.LoopIsStandard | source_handler.py:213-221 | the loop as written (testing `(crc ^ extract) & 1`, shifting both) computes the standard reflected CRC-8 step |
| Crc.RoundsXor | source_handler.py:215-220 | the loop only ever depends on `crc xor extract` |
| Crc.Crc8Xor | source_handler.py:214-221 | `crc8(crc, b) == crc8(crc ^ b, 0)` |
| Crc.Crc8Injective | source_handler.py:213-221 | equal results imply equal `crc xor b` |
| Crc.DistinctBytes | source_handler.py:213-221 | from one register, two different bytes give two different results |
| Crc.FoldSeparates | source_handler.py:235-238 | two different registers stay different over any byte sequence |
| Crc.FoldDetects | source_handler.py:235-241 | changing one byte of a packet changes its folded CRC |
| Crc.Crc8CheckValue | source_handler.py:213-221 | the CRC of `"123456789"` from 0 is `0xA1`, the catalogue check value of CRC-8/MAXIM |
| Adapter.Receive | source_handler.py:235-249 | a 19-byte packet is queued at the end of the FIFO exactly when the CRC of bytes 0..17 is byte 18; otherwise the FIFO is unchanged and a resync is requested |
| Adapter.OneByteApart | source_handler.py:235-241 | two packets that differ in one byte have different folded CRCs |
| Adapter.CorruptedPacketDropped | source_handler.py:235-248 | an intact packet with any one of its first 18 bytes changed is dropped |
| Adapter.Word | source_handler.py:271 | a big-endian 32-bit word is below 2^32 |
| Adapter.WordOfBytes | source_handler.py:271-275 | reading back the four big-endian bytes of a value gives the value |
| Adapter.GetMessage | source_handler.py:261-284 | an empty FIFO gives `False`; otherwise the oldest packet leaves the FIFO; the frame has id = bytes 0..3 big-endian and data = the `inp[4]` bytes from index 5; a length byte above 14 raises `IndexError`; the logged row holds the timestamp from bytes 14..17; filtered-out ids are not logged |
| Adapter.Seal | source_handler.py:235-244 | a packet built from id, data and timestamp with its CRC appended passes the check |
| Adapter.SealFields | source_handler.py:271-275 | the sealed packet holds the id in bytes 0..3, the length in byte 4, the data from byte 5 and the timestamp in bytes 14..17 |
| Adapter.SealRoundTrip | source_handler.py:261-284 | a sealed packet is queued, and `get_message` returns its id and data and logs its timestamp, leaving the rest of the FIFO |
| Adapter.Configure | source_handler.py:182-200 | the speed is always remembered; the result is `True` exactly when connected at 125, 250 or 500, and then a command is sent |
| Adapter.ConfigureCommandSpeed | source_handler.py:189-194 | the command sent (`a`, `f`, `m`) names the speed set; the resync byte `s` names none |
| Adapter.ParseHexTokens | source_handler.py:350-355 | succeeds exactly when every token is hex, giving one value per token; otherwise `ValueError` |
| Adapter.ParseHexTokensOfHex | source_handler.py:354-355 | two-digit hex renderings parse back to the bytes |
| Adapter.ParseLine | source_handler.py:338-363 | `IndexError` exactly when the line has no space; otherwise the id is the text before the first space, unchanged, and the line succeeds exactly when the tokens after that space all parse as hex, giving those values, or raises their `ValueError` |
| Adapter.ParseLineRoundTrip | source_handler.py:338-363 | an id and its hex bytes, joined by spaces, parse back to that id and those bytes |
| Adapter.ParseLineNoData | source_handler.py:350-355 | a line ending in its first space raises `ValueError`, from the empty hex token |
| Adapter.ArdLogNext | source_handler.py:381-412 | end of input gives `-1` with the layout kept; the layout, once decided, never changes; a frame's id is the column at the layout offset |
| Adapter.LogColumns | source_handler.py:407-412 | `IndexError` when the row has no id column; otherwise the id is the column at the offset, and the bytes are the hex parse of the columns after it, failing exactly when that parse fails |
| Adapter.LayoutOf | source_handler.py:390-405 | the detected offset counts the timestamp and bus columns found |
| Adapter.ArdLogRoundTrip | source_handler.py:390-412 | a row with an optional timestamp and bus (each longer than four characters) is detected with the right layout and yields its id and bytes |
| Database.ToHex | oleomgr.py:42-43 | upper-case hex digits, at least three of them, and exactly three below 0x1000 |
| Database.ToHexRoundTrip | oleomgr.py:42-43 | `int("0x" + to_hex(v), 16) == v` |
| Database.Insert | oleomgr.py:331 | inserting into a sorted map keeps it sorted and adds exactly that entry |
| Database.SortById | oleomgr.py:331 | the result is sorted by frame id and a permutation of the input |
| Database.SortKeepsKeys | oleomgr.py:331 | sorting keeps exactly the ids present |
| Database.SortByIdStrict | oleomgr.py:331 | a map with distinct ids sorts strictly |
| Database.SortKeepsGet | oleomgr.py:331 | sorting keeps each id's message |
| Database.Merge | oleomgr.py:520-527 | added plus ignored is the number offered; the existing entries stay in front, unchanged |
| Database.MergeGet | oleomgr.py:520-525 | after the merge, an existing id keeps its message and a new id gets the first message offered with it |
| Database.MergeDistinct | oleomgr.py:520-525 | merging keeps the ids distinct |
| Database.ImportTree | oleomgr.py:517-533 | `False` exactly when both maps are empty; otherwise the result is sorted and counts every offered message |
| Database.ImportDbc | oleomgr.py:273-277 | the merged map is sorted and never shorter than the existing one; which message each id holds is stated by `Database.ImportDbcGet` |
| Database.ImportDbcGet | oleomgr.py:273-275 | an id is present afterwards exactly when it was before or was loaded; existing ids win |
| Database.ImportBits | oleomgr.py:476-481 | at most one entry per token |
| Database.ImportBitsIsKeep | oleomgr.py:476-481 | the import is the decode-then-collect loop over the decoded tokens |
| Database.KeepRaises | oleomgr.py:476-481 | the loop raises exactly when some decoded token is an exception |
| Database.KeepOrder | oleomgr.py:476-481 | a successful loop holds one entry per placement and none per `None`, each placement at its position among the placements |
| Database.ImportBitsKeeps | oleomgr.py:476-481 | the import raises exactly when one token's decoding raises; otherwise it holds one entry per token that decodes to a placement, in token order, and none for a token that decodes to `None` |
| Database.ExportImportBits | oleomgr.py:408-481 | the YAML import reads back the start and length of every exported signal that fits in 8 bytes |
| Database.CountingFilter | oleomgr.py:392-401 | as written, the export filter keeps at most the signals it is given |
| Database.CountingFilterPrefix | oleomgr.py:392-401 | as written, the export filter keeps a prefix: the signals before the first position missing from the list |
| Database.FiltersAgreeOnPrefix | oleomgr.py:392-401 | when the listed positions are exactly the first few, the export filter and the DBC filter agree |
| Database.FiltersDisagree | oleomgr.py:392-401 | listing only position 1 exports nothing through the export filter, but that signal through the DBC filter |
| Database.PositionFilter | oleomgr.py:305-312 | the DBC filter (and the corrected export filter) keeps at most the signals it is given |
| Database.PositionFilterSelects | oleomgr.py:305-312 | it keeps exactly the signals at the listed positions, in their original order |
| Database.PositionFilterPrefix | oleomgr.py:305-312 | listing exactly the first `k` positions keeps the first `k` signals |
| Database.YamlSignals | oleomgr.py:392-401 | an entry `1` exports all signals; as written a list exports the longest prefix whose positions are all listed; corrected, it exports the signals at the listed positions, in order |
| Database.CodeSignals | oleomgr.py:554-561 | no list emits all signals; an entry `1` raises `TypeError` exactly when there is a signal; as written a list emits the longest listed prefix, corrected the signals at the listed positions |
| Database.DbcSignals | oleomgr.py:304-312 | the DBC filter counts every signal: an entry `1` keeps all signals; a list keeps exactly those at the listed positions, in order |
| Database.ListedMessages | oleomgr.py:547-550 | only messages whose id the include list names are visited |
| Frames.Bits | oleomux.py:1675 | `"{0:08b}"`: exactly `n` binary digits |
| Frames.BitsValue | oleomux.py:1675 | the digits read back as the byte modulo 2^n |
| Frames.CanToBin | oleomux.py:1672-1678 | 8 binary digits per byte |
| Frames.CanToBinAppend | oleomux.py:1672-1678 | the digits of a concatenation are the concatenation of the digits |
| Frames.CanToBinByte | oleomux.py:1672-1678 | characters `8i .. 8i+7` are byte `i`, most significant bit first |
| Frames.CanToBinValue | oleomux.py:1672-1678 | the whole digit string reads as the frame's big-endian value |
| Frames.Format08b | oleomux.py:1675 | `"{0:08b}"` of any non-negative value: binary digits that read back as the value, eight of them for a byte and the value's bit length otherwise |
| Frames.CanToBinWide | oleomux.py:1672-1678 | `can_to_bin` on unbounded values: binary digits, at least eight per value |
| Frames.CanToBinWideBytes | oleomux.py:1672-1678 | on bytes, the unbounded conversion is `Frames.CanToBin` |
| Frames.CanToBinWideLength | oleomux.py:1672-1678 | the string has exactly eight digits per value exactly when every value is below 256 |
| Frames.CanToInt | oleomux.py:1247-1259 | `UnboundLocalError` escapes exactly when `length <= 0`, from the handler's `str(x)`; running past the end gives 0 for the whole value; a value is below 2^length; an in-range non-binary window gives `None` |
| Frames.CanToIntDigits | oleomux.py:1247-1256 | an in-range binary window reads as its binary value |
| Frames.CanToIntInByte | oleomux.py:1247-1256 | on a frame, a signal within one byte reads that byte shifted right past the lower bits, modulo 2^length |
| Frames.SignCorrect | oleomux.py:1395-1405 | signed 8-bit values wrap into [-128, 127] and signed 16-bit values into [-32768, 32767], congruent to the raw value; other widths and unsigned values are unchanged; a missing raw value raises |
| Frames.SignCorrectTwosComplement | oleomux.py:1398-1405 | a value stored in two's complement in 8 or 16 bits reads back as itself |
| Frames.RawValue | oleomux.py:1395-1405 | the pre-scaling integer fails exactly when `can_to_int` raises (`UnboundLocalError`) or gives `None` (`TypeError` in the sign test); for unsigned signals it is `can_to_int`'s value |
| Frames.ByteToAscii | oleomux.py:1318-1326 | `""`, or the single character with that code, printable exactly when 32..126 |
| Frames.Printable | oleomux.py:1284-1288 | every kept character is printable, and none is added |
| Frames.PrintableAll | oleomux.py:1284-1288 | printable bytes are all kept, in order |
| Frames.BytesOfBigEndian | oleomux.py:1279-1281 | `to_bytes(n, 'big')` inverts the big-endian value |
| Frames.BigEndianBound | oleomux.py:1279-1281 | the big-endian value of `n` bytes is below 2^(8n) |
| Frames.CanToStr | oleomux.py:1263-1288 | the text is printable; failures are `ValueError` (an empty or non-binary window) or `OverflowError` (too wide for `length/8` bytes) |
| Frames.CanToStrOfFrame | oleomux.py:1263-1288 | reading whole bytes of a frame gives their printable characters |
| Frames.CanToStrValue | oleomux.py:1274-1288 | a binary window reads as the printable characters of its bytes |
| Frames.Lookup | oleomux.py:1447-1450 | a found value is paired with the key in the table; a miss means no row has the key |
| Frames.EBalance | oleomux.py:1439-1450 | raises `IndexError` exactly when the window runs past the digits |
| Frames.BalanceTableFormula | oleomux.py:1440-1443 | row `i` of the table is the 7-bit pattern of `54 + i` with step `i - 9` |
| Frames.BalanceKeysDistinct | oleomux.py:1440-1443 | the table's patterns are distinct |
| Frames.LookupFirst | oleomux.py:1447-1448 | a key that occurs only once in the table is found with its own value |
| Frames.EBalanceSteps | oleomux.py:1439-1450 | a 7-bit pattern of value `v` in 54..72 gives `v - 63` |
| Frames.EBalanceOutside | oleomux.py:1439-1450 | any other 7-bit value gives `"0"` |
| Frames.NonZero | oleomux.py:1463-1466 | the zero bytes are removed, and every other byte is kept as often as it occurs |
| Frames.Window | oleomux.py:1477-1485 | the bytes at positions `lo .. hi-1` that exist, in order |
| Frames.NaviStep | oleomux.py:1471-1493 | a leading 0x20..0x28 only appends, at most one character per further byte; 0x07 sets `"CALCULATING ROUTE"`; 0x10 and 0x04 restart with at most 5 or 6 printable characters; any other byte leaves the buffer unchanged |
| Frames.NaviRestart | oleomux.py:1475-1490 | 0x10, 0x04 and 0x07 discard the buffer; a restart whose bytes are printable shows exactly the bytes from position 3 (0x10) or 2 (0x04) on |
| Frames.ENavi | oleomux.py:1452-1493 | the only failures are `ValueError`, `OverflowError` and `IndexError` |
| Frames.ENaviOfFrame | oleomux.py:1458-1493 | on the digits of an 8-byte frame with a non-zero byte, the update is the step on its non-zero bytes |
| Frames.ENaviBlankFrame | oleomux.py:1458-1471 | an all-zero frame raises `IndexError` at `msg[0]` |
| Format.Entry | cantools/subparsers/__utils__.py:20-29 | `"name: value"`, with a unit suffix exactly when the unit is set and the value is neither a named value nor a string |
| Format.FormatSignals | cantools/subparsers/__utils__.py:11-33 | one entry per message signal present in the decoded values: all when all are present, none when none are |
| Format.FormatSignalsAppend | cantools/subparsers/__utils__.py:14-31 | the entries follow the message's signal order |
| Format.FormatSignalsComplete | cantools/subparsers/__utils__.py:11-33 | when every signal is decoded, entry `i` is the entry of signal `i` |
| Format.FormatSignalsIgnoresOthers | cantools/subparsers/__utils__.py:14-18 | decoded values for names that are not message signals change nothing |
| Format.SingleLine | cantools/subparsers/__utils__.py:36-38 | `" " + name + "("`, the entries joined by `", "`, then `")"` |
| Format.SingleLineEntries | cantools/subparsers/__utils__.py:36-38 | the text between the parentheses splits at `,` back into the entries, each after the first behind a space |
| Format.MultiLine | cantools/subparsers/__utils__.py:41-48 | starts with a newline and ends with `"\n)"`, with no trailing newline |
| Format.MultiLineIsJoin | cantools/subparsers/__utils__.py:4-48 | the text is the lines `""`, `name + "("`, each entry indented by four spaces and followed by `,` except the last, and `")"`, joined by newlines |
| Format.MultiLineLines | cantools/subparsers/__utils__.py:4-48 | for newline-free names and entries, splitting at newlines gives exactly those lines |
| Format.FormatMessage | cantools/subparsers/__utils__.py:123-134 | a decoding failure shows as its text behind a space; on one line the text is ` name(` … `)`, `()` without entries, and cutting it at the commas gives the entries back; on several lines, cutting at the newlines gives the empty line, `name(`, the indented entries and `)` |
| Format.FormatByFrameId | cantools/subparsers/__utils__.py:87-107 | an unknown id gives the unknown-frame text; a container gives its listing exactly when containers are decoded, and otherwise the container text; any other frame is formatted |
| Format.UnknownFrameReadBack | cantools/subparsers/__utils__.py:93-96 | `" Unknown frame id {d} (0x{x})"`: the fifth word reads back as the id in decimal, and the sixth, inside its parentheses, as the id in hex |
| Format.ContainerReadBack | cantools/subparsers/__utils__.py:98-105 | `" Frame 0x{x} is a container message"`: the third word reads back as the id |
| Format.MuxParts | cantools/subparsers/__utils__.py:147-154 | exactly one part per multiplexer signal, in order: its decoded value, else its initial value, else `0`; none without multiplexers |
| Format.Multiplexers | cantools/subparsers/__utils__.py:147-148 | the multiplexer signals, in the message's order |
| Format.MuxName | cantools/subparsers/__utils__.py:136-156 | starts with the message name, and is just the name without multiplexers |
| Format.MuxNameSplit | cantools/subparsers/__utils__.py:145-156 | cut at `_`, the name gives back its parts, separated by empty pieces |
| Format.MuxNameUnique | cantools/subparsers/__utils__.py:139-156 | different multiplexer values give different names (for parts without `_`) |
| PyDict.Get | oleomgr.py:249-250 | a key is found exactly when present, and a found value is paired with the key |
| PyDict.Assign | oleomgr.py:195 | dict assignment keeps the key order, appending a new key at the end, and stores the value |
| PyDict.AssignGet | oleomgr.py:195 | after assignment, the key reads the new value and every other key is unchanged |
| Text.ParseDecimalOfNatToString | oleomgr.py:129-132 | `int(str(n)) == n` |
| Text.ParseHexOfFormatHex | oleomgr.py:42-43 | zero-padded hex renderings, with or without `0x`, parse back to the number |
| Text.Split | oleomgr.py:118-120 | `str.split(c)`: the pieces contain no `c`, joined with `c` they give the input, and there is one piece exactly when `c` is absent |
| Text.SplitOfJoin | oleomgr.py:192 | splitting a join of `c`-free pieces gives the pieces back |
| Text.SplitOnce | source_handler.py:343 | `split(c, maxsplit=1)`: one piece exactly when `c` is absent; otherwise the text before the first `c` and the rest |
| Text.Lower | oleomgr.py:552 | ASCII `lower()`: same length, no upper-case letters, other characters unchanged |

## Left out

- The Tkinter user interface, the reading thread, events and locks are left out, because they are widget wiring and concurrency. `SerialHandlerNew.serial_thread_loop` is kept only as the per-packet check, `Adapter.Receive`.
- Serial, socketcan and file I/O are left out. This covers the CSV log writers, `_read_until_newline` and its `strip()`, and YAML dumping and file writing in the exports. Those exports are modelled as the lists of lines or values they produce.
- The cantools library (`load_file`, `dump_file`, the `Message`/`Signal` constructors, `message.decode`, `get_message_by_frame_id`) is not part of this model. Decoded values and the looked-up message are inputs.
- `format_container_message` is left out: containers are decoded by cantools. `Format.FormatByFrameId` returns `ContainerListing` where it would be called.
- Floats are left out: `scale * raw + offset`, `round(…, 2)` and the float-keyed choice lookup of `can_to_formatted`. In the C generator, scale and offset appear only as their rendered text and the `scale != 1`, `offset != 0` and `offset < 0` tests.
- `e_torque` is left out, because it returns nothing.
- `py_can.py` and `socketcan.py` are left out. They open hardware at import time, and their `crc8` duplicates the modelled one.
- `SerialHandler.adapter_configure` is left out, because it always returns `False`.
- Console output is left out, because it is printed, not written. This covers the `#define` lines `export_to_struct` prints and the debug print of each signal's name, length, start and bit in byte in `export_parser_c` (oleomgr.py:640).
- Python's `int()` accepts surrounding whitespace, a sign and underscores. These forms are not modelled: decimal and hex parsing take plain digit strings, with an optional `0x` prefix for hex.
- Python's `str.lower()` is modelled for ASCII letters only.
- `Frames.ENavi`: the buffer kept between calls is a string, not a list of characters. The join at `oleomux.py:1492` makes the two equivalent. The buffer starts empty via `hasattr`, which is the caller's initial argument.
- `Adapter.ArdLogNext`: the sleep, the prints and the bus-mismatch warning are left out. A row of an untimestamped log whose id is longer than four characters is detected as timestamped, as in the code. `Adapter.ArdLogRoundTrip` therefore requires short ids when there is no bus column.
- `Adapter.GetMessage`: the CSV writer is modelled as "a log is open or writing raises `AttributeError`". The row's content is returned, not written.
- `CGen.AssembleTerms`: the C text `a << k | b` is modelled as text only; its value as a C expression is not modelled.
- `Format.MuxNameUnique` is stated only for parts without `_`. With underscores in values, distinct parts can join to the same name.
- `Comments.Encode`: `yml_comment_encode` fills the defaults into the caller's dict and returns that same dict (oleomgr.py:169-184), so the message's or signal's stored comment gains `src` and the empty defaults. The model returns the new dict as a value and does not model that in-place update.
- `Database.ImportBits` states only that the import has at most one entry per token; `Database.ImportBitsKeeps` gives the entries and their order, and `Database.ExportImportBits` gives the round trip.
- `Frames.CanToBin` takes bytes. `SerialHandler._parse` and `ArdLogHandler.get_message` pass `int(x, 16)` of each field (source_handler.py:355, 411; oleomux.py:1707), which can be 256 or more. That case is `Frames.CanToBinWide`: such a value takes more than eight digits, shifts every later value, and the frame lemmas do not apply. A negative field such as `-1` renders with a sign and is not modelled.

## Findings

| source | as written | input that shows it | evidently intended | confidence | as-written member | corrected member |
|---|---|---|---|---|---|---|
| oleomgr.py:122-127 | in CANT mode, `7 - start_bit` is applied to the split string, so the `TypeError` is caught and every range token decodes to `False` | `yml_bits_decode("1.7-2.0", MODE_CANT)`, the encoding of the 2-bit signal at bit 0 | mirror both bit labels after `int()`, so CANT tokens round-trip like OLEO ones | high (not executed) | BitCodec.CantRangeRoundTripFails | BitCodec.CantRoundTripFixed |
| oleomgr.py:567-583 | the length tests are `< 8`, `> 8 and <= 16` and `> 16 and <= 32`, so an 8-bit signal gets no structure field | `CONSO` (8 bits) in yml/307.c:41 has no field in yml/307_messages.h:33-39 | `<= 8` for the 8-bit type | high (not executed) | CGen.FieldWidthAgrees | CGen.FieldWidthFixedNarrowest |
| oleomgr.py:652-657 | a masked signal whose shift is zero gets no `) >> n`, so one of the three opened parentheses is never closed | `NUM_MEM_C` (start 3, 4 bits) gives `(((msg->data[0]) & 0b00001111);` at yml/307.c:8 | close the parenthesis whether or not a shift follows | high (not executed) | CGen.CLineBalance | CGen.CLineFixedBalance |
| oleomgr.py:392-401 | the export filter advances `signal_offset` only after a signal is kept, so it keeps the signals before the first unlisted position | include list `{id: [1]}` exports no signal, where `export_to_dbc` exports the second one | advance the counter for every signal, as `export_to_dbc` does at oleomgr.py:306-312 | medium (not executed) | Database.FiltersDisagree | Database.PositionFilterSelects |

=== FILE: adapter.dfy ===
/** The serial adapters of `source_handler.py`: the CRC-8 that guards the
  19-byte packets of the newer Arduino firmware, the packet FIFO and its
  decoding, the CAN speed commands, and the two text-line readers (the
  older Arduino firmware's lines and the logger's space-separated CSV).
*/
module Adapter {
  import opened Wrappers
  import opened Text
  import opened Frames
  import opened Octets
  import opened Crc

  // ------------------------------------------------------------- packets

  /** A packet of the newer firmware: id (4 bytes), data length, 9 data
      bytes, timestamp (4 bytes), CRC. */
  const PacketSize: nat := 19

  /** The reading thread keeps a packet exactly when the CRC of its first
      18 bytes is its last byte. */
  predicate Intact(packet: seq<Byte>)
    requires |packet| == PacketSize
  {
    Fold(0, AsBits(packet[..PacketSize - 1])) as nat == packet[PacketSize - 1]
  }

  /** The FIFO after one packet: kept at the end, or dropped with a resync
      request (`'s'` written to the adapter). */
  datatype Received = Received(fifo: seq<seq<Byte>>, resync: bool)

  function Receive(fifo: seq<seq<Byte>>, packet: seq<Byte>): (r: Received)
    requires |packet| == PacketSize
    ensures r.resync <==> !Intact(packet)
    ensures |r.fifo| == |fifo| + (if r.resync then 0 else 1) && r.fifo[..|fifo|] == fifo
    ensures !r.resync ==> r.fifo[|fifo|] == packet
    ensures Queued(fifo) ==> Queued(r.fifo)
  {
    if Intact(packet) then
      assert (fifo + [packet])[..|fifo|] == fifo;
      Received(fifo + [packet], false)
    else
      Received(fifo, true)
  }

  /** What the FIFO holds: whole packets that passed the check. */
  predicate Queued(fifo: seq<seq<Byte>>) {
    forall i :: 0 <= i < |fifo| ==> |fifo[i]| == PacketSize && Intact(fifo[i])
  }

  /** Changing one of the first 18 bytes of an intact packet gets it
      dropped. */
  lemma CorruptedPacketDropped(fifo: seq<seq<Byte>>, packet: seq<Byte>, k: nat, v: Byte)
    requires |packet| == PacketSize && Intact(packet)
    requires k < PacketSize - 1 && v != packet[k]
    ensures Receive(fifo, packet[k := v]).resync
  {
    var bad := packet[k := v];
    var p, q := packet[..PacketSize - 1], bad[..PacketSize - 1];
    assert q == p[k := v];
    OneByteApart(p, k, v);
    assert Fold(0, AsBits(p)) != Fold(0, AsBits(q));
  }

  /** Bytes that differ in one place differ there, and only there, as
      bit-vectors too, so the CRC tells them apart. */
  lemma OneByteApart(p: seq<Byte>, k: nat, v: Byte)
    requires k < |p| && v != p[k]
    ensures Fold(0, AsBits(p)) != Fold(0, AsBits(p[k := v]))
  {
    var a, b := AsBits(p), AsBits(p[k := v]);
    assert a[k] as nat != b[k] as nat;
    FoldDetects(0, a, b, k);
  }

  // ------------------------------------------------------------ get_message

  /** `inp[i] << 24 | inp[i+1] << 16 | inp[i+2] << 8 | inp[i+3]`; the
      shifted bytes do not overlap, so the ors add up. */
  function Word(inp: seq<Byte>, i: nat): (w: nat)
    requires i + 4 <= |inp|
    ensures w < 0x1_0000_0000
  {
    inp[i] as nat * 0x100_0000 + inp[i + 1] as nat * 0x1_0000 + inp[i + 2] as nat * 0x100 + inp[i + 3]
  }

  /** A frame as `get_message` returns it: id and data bytes. */
  datatype Frame = Frame(id: nat, data: seq<Byte>)

  /** The row `get_message` logs: timestamp, id, data length, data. */
  datatype LogRow = LogRow(timestamp: nat, id: nat, count: nat, data: seq<Byte>)

  /** What one call leaves: its result (`None` for the `False` of an empty
      FIFO), the row it logged, and the FIFO. */
  datatype Popped = Popped(outcome: Result<Option<Frame>>, logged: Option<LogRow>, fifo: seq<seq<Byte>>)

  /** `SerialHandlerNew.get_message`: take the oldest packet and decode it.
      The packet leaves the FIFO before decoding, so it is gone even when
      decoding raises: a length byte above 14 reads past the packet.  A
      frame whose id is outside a set filter is returned without logging;
      any other is logged, which fails when no log could be opened. */
  function GetMessage(fifo: seq<seq<Byte>>, filter: Option<seq<nat>>, logOpen: bool): (r: Popped)
    requires forall i :: 0 <= i < |fifo| ==> |fifo[i]| == PacketSize
    ensures r.outcome == Ok(None) <==> fifo == []
    ensures r.fifo == if fifo == [] then [] else fifo[1..]
    ensures fifo != [] ==> (r.outcome == Raise(IndexError) <==> fifo[0][4] > PacketSize - 5)
    ensures r.outcome.Raise? ==> r.logged.None? && r.outcome.error in {IndexError, AttributeError}
    ensures fifo != [] && fifo[0][4] <= PacketSize - 5 ==>
              var logs := filter.None? || Word(fifo[0], 0) in filter.value;
              (r.logged.Some? <==> logs && logOpen) && (r.outcome == Raise(AttributeError) <==> logs && !logOpen)
    ensures r.outcome.Ok? && r.outcome.value.Some? ==>
              var f := r.outcome.value.value;
              Word(fifo[0], 0) == f.id && |f.data| == fifo[0][4] &&
              forall j :: 0 <= j < |f.data| ==> f.data[j] == fifo[0][5 + j]
    ensures r.logged.Some? ==>
              (r.outcome.Ok? && r.outcome.value.Some? &&
               r.logged.value == LogRow(Word(fifo[0], 14), r.outcome.value.value.id, fifo[0][4], r.outcome.value.value.data))
  {
    if fifo == [] then Popped(Ok(None), None, fifo)
    else
      var inp := fifo[0];
      var rest := fifo[1..];
      var id := Word(inp, 0);
      if 5 + inp[4] > |inp| then Popped(Raise(IndexError), None, rest)
      else
        var data := inp[5 .. 5 + inp[4]];
        var timestamp := Word(inp, 14);
        if filter.Some? && id !in filter.value then Popped(Ok(Some(Frame(id, data))), None, rest)
        else if !logOpen then Popped(Raise(AttributeError), None, rest)
        else Popped(Ok(Some(Frame(id, data))), Some(LogRow(timestamp, id, inp[4], data)), rest)
  }

  /** The packet the adapter sends for a frame: id, length, data padded
      to nine bytes, timestamp, and the CRC of all that. */
  function Seal(id: nat, data: seq<Byte>, timestamp: nat): (p: seq<Byte>)
    requires id < 0x1_0000_0000 && |data| <= 9 && timestamp < 0x1_0000_0000
    ensures |p| == PacketSize && Intact(p)
  {
    var body := PacketBody(id, data, timestamp);
    Sealed(body);
    body + [Fold(0, AsBits(body)) as nat]
  }

  /** The eighteen bytes the CRC covers. */
  function PacketBody(id: nat, data: seq<Byte>, timestamp: nat): (body: seq<Byte>)
    requires id < 0x1_0000_0000 && |data| <= 9 && timestamp < 0x1_0000_0000
    ensures |body| == PacketSize - 1
  {
    var pad: seq<Byte> := seq(9 - |data|, _ => 0);
    BytesOf(id, 4) + [|data|] + data + pad + BytesOf(timestamp, 4)
  }

  /** A body followed by its CRC is intact. */
  lemma Sealed(body: seq<Byte>)
    requires |body| == PacketSize - 1
    ensures var p := body + [Fold(0, AsBits(body)) as nat];
            |p| == PacketSize && p[..PacketSize - 1] == body && Intact(p)
  {
    var p := body + [Fold(0, AsBits(body)) as nat];
    assert p[..PacketSize - 1] == body;
  }

  /** Four bytes written big-endian read back as the same word. */
  lemma WordOfBytes(v: nat, inp: seq<Byte>, i: nat)
    requires v < 0x1_0000_0000 && i + 4 <= |inp| && inp[i .. i + 4] == BytesOf(v, 4)
    ensures Word(inp, i) == v
  {
    var b := BytesOf(v, 4);
    assert inp[i] == b[0] && inp[i + 1] == b[1] && inp[i + 2] == b[2] && inp[i + 3] == b[3];
    var q1, q2, q3 := v / 256, v / 256 / 256, v / 256 / 256 / 256;
    assert b == BytesOf(q1, 3) + [v % 256];
    assert BytesOf(q1, 3) == BytesOf(q2, 2) + [q1 % 256];
    assert BytesOf(q2, 2) == BytesOf(q3, 1) + [q2 % 256];
    assert BytesOf(q3, 1) == [q3 % 256];
  }

  /** A sealed packet passes the check, and `get_message` gives back the
      frame it was sealed from and logs its timestamp. */
  lemma SealRoundTrip(fifo: seq<seq<Byte>>, id: nat, data: seq<Byte>, timestamp: nat)
    requires id < 0x1_0000_0000 && |data| <= 9 && timestamp < 0x1_0000_0000
    requires forall i :: 0 <= i < |fifo| ==> |fifo[i]| == PacketSize
    ensures !Receive([], Seal(id, data, timestamp)).resync
    ensures GetMessage([Seal(id, data, timestamp)] + fifo, None, true)
            == Popped(Ok(Some(Frame(id, data))), Some(LogRow(timestamp, id, |data|, data)), fifo)
  {
    var p := Seal(id, data, timestamp);
    SealFields(id, data, timestamp);
    WordOfBytes(id, p, 0);
    WordOfBytes(timestamp, p, 14);
    assert ([p] + fifo)[0] == p && ([p] + fifo)[1..] == fifo;
  }

  /** Where the fields of a sealed packet sit. */
  lemma SealFields(id: nat, data: seq<Byte>, timestamp: nat)
    requires id < 0x1_0000_0000 && |data| <= 9 && timestamp < 0x1_0000_0000
    ensures var p := Seal(id, data, timestamp);
            p[0..4] == BytesOf(id, 4) && p[4] == |data| && p[5 .. 5 + |data|] == data &&
            p[14..18] == BytesOf(timestamp, 4)
  {
    var body := PacketBody(id, data, timestamp);
    Sealed(body);
    BodyFields(id, data, timestamp);
    var p := Seal(id, data, timestamp);
    assert p[..PacketSize - 1] == body;
    assert p[0..4] == body[0..4] && p[14..18] == body[14..18] && p[5 .. 5 + |data|] == body[5 .. 5 + |data|];
  }

  lemma BodyFields(id: nat, data: seq<Byte>, timestamp: nat)
    requires id < 0x1_0000_0000 && |data| <= 9 && timestamp < 0x1_0000_0000
    ensures var body := PacketBody(id, data, timestamp);
            body[0..4] == BytesOf(id, 4) && body[4] == |data| && body[5 .. 5 + |data|] == data &&
            body[14..18] == BytesOf(timestamp, 4)
  {
    var n := |data|;
    var pad: seq<Byte> := seq(9 - n, _ => 0);
    var body := PacketBody(id, data, timestamp);
    assert body == BytesOf(id, 4) + [n] + data + pad + BytesOf(timestamp, 4);
    assert body[0..4] == BytesOf(id, 4);
    assert body[14..18] == BytesOf(timestamp, 4);
    assert body[5 .. 5 + n] == data;
  }

  // ----------------------------------------------------- adapter_configure

  /** What `adapter_configure` leaves: its result, the remembered speed
      and the command byte written to the adapter. */
  datatype Configured = Configured(result: bool, canSpeed: int, command: Option<char>)

  /** `SerialHandlerNew.adapter_configure`: the speed is remembered in any
      case; a connected adapter is sent `'a'`, `'f'` or `'m'` for 125, 250
      or 500 kbit/s; any other speed, or no connection, returns `False`. */
  function Configure(connected: bool, rate: int): (r: Configured)
    ensures r.canSpeed == rate
    ensures r.result <==> r.command.Some?
    ensures r.result <==> connected && rate in {125, 250, 500}
  {
    if !connected then Configured(false, rate, None)
    else if rate == 125 then Configured(true, rate, Some('a'))
    else if rate == 250 then Configured(true, rate, Some('f'))
    else if rate == 500 then Configured(true, rate, Some('m'))
    else Configured(false, rate, None)
  }

  /** The speed each command byte selects. */
  function CommandSpeed(c: char): (r: Option<int>)
  {
    if c == 'a' then Some(125) else if c == 'f' then Some(250) else if c == 'm' then Some(500) else None
  }

  /** Each command sent selects the speed asked for, so distinct speeds get
      distinct commands, and the resync byte `'s'` selects none. */
  lemma ConfigureCommandSpeed(rate: int)
    ensures Configure(true, rate).command.Some? ==> CommandSpeed(Configure(true, rate).command.value) == Some(rate)
    ensures CommandSpeed('s') == None
  {
  }

  // ------------------------------------------------------ SerialHandler._parse

  /** `int(x, 16)` on every token, stopping at the first that fails. */
  function ParseHexTokens(tokens: seq<string>): (r: Result<seq<nat>>)
    ensures r.Ok? <==> forall i :: 0 <= i < |tokens| ==> ParseHex(tokens[i]).Some?
    ensures r.Raise? ==> r.error == ValueError
    ensures r.Ok? ==> |r.value| == |tokens| && forall i :: 0 <= i < |tokens| ==> Some(r.value[i]) == ParseHex(tokens[i])
    decreases |tokens|
  {
    if tokens == [] then Ok([])
    else
      match ParseHex(tokens[0])
      case None => Raise(ValueError)
      case Some(v) =>
        match ParseHexTokens(tokens[1..])
        case Raise(e) => Raise(e)
        case Ok(vs) => Ok([v] + vs)
  }

  /** `SerialHandler._parse`: the text before the first space is the id,
      unchanged; the rest, split at single spaces, are the data bytes in
      hexadecimal.  A line without a space has no data part. */
  function ParseLine(line: string): (r: Result<(string, seq<nat>)>)
    ensures r == Raise(IndexError) <==> ' ' !in line
    ensures r.Raise? ==> r.error in {IndexError, ValueError}
    ensures r.Ok? ==> ' ' !in r.value.0 && |r.value.0| < |line| && line[..|r.value.0| + 1] == r.value.0 + " "
    ensures ' ' in line ==>
              var k := FirstIndex(line, ' ');
              var data := ParseHexTokens(Split(line[k + 1..], ' '));
              && (r.Ok? <==> data.Ok?)
              && (r.Ok? ==> r.value == (line[..k], data.value))
              && (r.Raise? ==> r == Raise(data.error))
  {
    var frame := SplitOnce(line, ' ');
    if |frame| < 2 then Raise(IndexError)
    else
      assert line[..|frame[0]| + 1] == frame[0] + " ";
      var bytes :- ParseHexTokens(Split(frame[1], ' '));
      Ok((frame[0], bytes))
  }

  /** Bytes as the adapter prints them: two upper-case hex digits each. */
  function HexTokens(bytes: seq<nat>): (r: seq<string>)
    ensures |r| == |bytes|
    ensures forall i :: 0 <= i < |r| ==> |r[i]| >= 2 && AllHexDigits(r[i])
    ensures forall i :: 0 <= i < |r| ==> ParseHex(r[i]) == Some(bytes[i])
  {
    HexTokensReadBack(bytes);
    seq(|bytes|, i requires 0 <= i < |bytes| => FormatHex(bytes[i], 2, true))
  }

  lemma HexTokensReadBack(bytes: seq<nat>)
    ensures forall i :: 0 <= i < |bytes| ==> ParseHex(FormatHex(bytes[i], 2, true)) == Some(bytes[i])
  {
    forall i | 0 <= i < |bytes|
      ensures ParseHex(FormatHex(bytes[i], 2, true)) == Some(bytes[i])
    {
      ParseHexOfFormatHex(bytes[i], 2, true);
    }
  }

  /** A line of the older adapter: id, a space, the bytes. */
  function FormatLine(id: string, bytes: seq<nat>): string
  {
    id + " " + Join(HexTokens(bytes), " ")
  }

  /** Hex tokens read back as the bytes they print. */
  lemma {:induction false} ParseHexTokensOfHex(bytes: seq<nat>)
    ensures ParseHexTokens(HexTokens(bytes)) == Ok(bytes)
    decreases |bytes|
  {
    if bytes != [] {
      var t := HexTokens(bytes);
      assert t[1..] == HexTokens(bytes[1..]);
      ParseHexOfFormatHex(bytes[0], 2, true);
      assert ParseHex(t[0]) == Some(bytes[0]);
      ParseHexTokensOfHex(bytes[1..]);
      assert ParseHexTokens(t) == Ok([bytes[0]] + bytes[1..]);
      assert bytes == [bytes[0]] + bytes[1..];
    }
  }

  /** Printed bytes hold no space. */
  lemma HexTokensNoSpace(bytes: seq<nat>)
    ensures forall k :: 0 <= k < |bytes| ==> ' ' !in HexTokens(bytes)[k]
  {
    forall k | 0 <= k < |bytes|
      ensures ' ' !in HexTokens(bytes)[k]
    {
      assert AllHexDigits(HexTokens(bytes)[k]);
    }
  }

  /** `_parse` reads back a printed line: the id when it holds no space,
      and at least one byte. */
  lemma ParseLineRoundTrip(id: string, bytes: seq<nat>)
    requires ' ' !in id && |bytes| >= 1
    ensures ParseLine(FormatLine(id, bytes)) == Ok((id, bytes))
  {
    var rest := Join(HexTokens(bytes), " ");
    var line := FormatLine(id, bytes);
    assert line == id + [' '] + rest;
    FirstIndexOfJoin(id, ' ', rest);
    assert line[..|id|] == id && line[|id| + 1..] == rest;
    HexTokensNoSpace(bytes);
    SplitOfJoin(HexTokens(bytes), ' ');
    ParseHexTokensOfHex(bytes);
  }

  /** A line ending in its separating space has an empty data token, which
      `int(…, 16)` rejects. */
  lemma ParseLineNoData(id: string)
    requires ' ' !in id
    ensures ParseLine(id + " ") == Raise(ValueError)
  {
    var line := id + " ";
    FirstIndexOfJoin(id, ' ', "");
    assert line == id + [' '] + "";
    assert line[|id| + 1..] == "";
  }

  // ----------------------------------------------- ArdLogHandler.get_message

  /** What the logger reader has learnt of the file's columns: whether
      lines start with a timestamp and a bus name, and the column of the
      id.  Nothing is known before the first line. */
  datatype LogLayout = LogLayout(timestamped: Option<bool>, bussed: Option<bool>, offset: nat)

  const Undetected: LogLayout := LogLayout(None, None, 0)

  /** The id column is the number of leading columns found. */
  predicate Consistent(f: LogLayout) {
    && f.offset == (if f.timestamped == Some(true) then 1 else 0) + (if f.bussed == Some(true) then 1 else 0)
    && (f.bussed.Some? ==> f.timestamped == Some(true))
  }

  /** One line's result: end of input (`-1`), or the id text and bytes. */
  datatype LogOutcome = EndOfLog | LogFrame(id: string, data: seq<nat>)

  datatype LogStep = LogStep(outcome: Result<LogOutcome>, layout: LogLayout)

  /** `ArdLogHandler.get_message` on the next CSV row (`None` once the file
      is exhausted).  The first row decides the layout: a first column
      longer than four characters is a timestamp, and then a second one
      longer than four is a bus name.  A row too short for what is looked
      at raises, keeping what was learnt before the failing index. */
  function ArdLogNext(f: LogLayout, line: Option<seq<string>>): (r: LogStep)
    ensures line.None? ==> r == LogStep(Ok(EndOfLog), f)
    ensures f.timestamped.Some? ==> r.layout == f
    ensures Consistent(f) ==> Consistent(r.layout)
    ensures r.outcome.Raise? ==> r.outcome.error in {IndexError, ValueError}
    ensures line.Some? && r.outcome.Ok? ==>
              r.layout.timestamped.Some? && r.layout.offset < |line.value| &&
              r.outcome.value.LogFrame? && r.outcome.value.id == line.value[r.layout.offset]
  {
    match line
    case None => LogStep(Ok(EndOfLog), f)
    case Some(cols) =>
      if f.timestamped.Some? then LogColumns(f, cols)
      else if |cols| == 0 then LogStep(Raise(IndexError), f)
      else if |cols[0]| > 4 then
        if |cols| < 2 then LogStep(Raise(IndexError), LogLayout(Some(true), f.bussed, f.offset + 1))
        else if |cols[1]| > 4 then LogColumns(LogLayout(Some(true), Some(true), f.offset + 2), cols)
        else LogColumns(LogLayout(Some(true), Some(false), f.offset + 1), cols)
      else LogColumns(LogLayout(Some(false), f.bussed, f.offset), cols)
  }

  /** The id at the layout's column, and the hex bytes after it. */
  function LogColumns(f: LogLayout, cols: seq<string>): (r: LogStep)
    ensures r.layout == f
    ensures r.outcome.Ok? ==> f.offset < |cols| && r.outcome.value.LogFrame? && r.outcome.value.id == cols[f.offset]
    ensures r.outcome.Raise? ==> r.outcome.error in {IndexError, ValueError}
    ensures f.offset >= |cols| ==> r.outcome == Raise(IndexError)
    ensures f.offset < |cols| ==>
              var data := ParseHexTokens(cols[f.offset + 1..]);
              && (r.outcome.Ok? <==> data.Ok?)
              && (r.outcome.Ok? ==> r.outcome.value.data == data.value)
  {
    if f.offset >= |cols| then LogStep(Raise(IndexError), f)
    else
      match ParseHexTokens(cols[f.offset + 1..])
      case Raise(e) => LogStep(Raise(e), f)
      case Ok(bytes) => LogStep(Ok(LogFrame(cols[f.offset], bytes)), f)
  }

  /** A row as a logger writes it: optional timestamp, optional bus name,
      id, bytes in hex. */
  function LogRowColumns(stamp: Option<string>, bus: Option<string>, id: string, bytes: seq<nat>): seq<string>
  {
    (if stamp.Some? then [stamp.value] else []) + (if bus.Some? then [bus.value] else []) + [id] + HexTokens(bytes)
  }

  /** The layout such rows have. */
  function LayoutOf(stamp: Option<string>, bus: Option<string>): (f: LogLayout)
    ensures Consistent(f)
  {
    if stamp.None? then LogLayout(Some(false), None, 0)
    else if bus.None? then LogLayout(Some(true), Some(false), 1)
    else LogLayout(Some(true), Some(true), 2)
  }

  /** Rows a logger writes are read back, the first one fixing the layout,
      provided the first row can be told apart: a timestamp and a bus name
      longer than four characters, and an id no longer than four where it
      could be taken for one of them. */
  lemma ArdLogRoundTrip(f: LogLayout, stamp: Option<string>, bus: Option<string>, id: string, bytes: seq<nat>)
    requires f == Undetected || f == LayoutOf(stamp, bus)
    requires bus.Some? ==> stamp.Some?
    requires stamp.Some? ==> |stamp.value| > 4
    requires bus.Some? ==> |bus.value| > 4
    requires bus.None? ==> |id| <= 4
    ensures ArdLogNext(f, Some(LogRowColumns(stamp, bus, id, bytes)))
            == LogStep(Ok(LogFrame(id, bytes)), LayoutOf(stamp, bus))
  {
    var cols := LogRowColumns(stamp, bus, id, bytes);
    var g := LayoutOf(stamp, bus);
    assert cols[g.offset] == id;
    assert cols[g.offset + 1..] == HexTokens(bytes);
    ParseHexTokensOfHex(bytes);
  }
}

=== FILE: bitcodec.dfy ===
/** The bit-position codec of `oleomgr.py`.

  A signal is stored as a `start` bit and a `length`.  `start` uses the
  project's own numbering: byte `start / 8` (0-based) and, inside it, bit
  `start % 8`, where bit 7 is the most significant bit.  A signal occupies
  `length` consecutive bits in MSB-first transmission order: from bit `b` of a
  byte down to bit 0, then on to bit 7 of the next byte.

  For people (and the YAML files) the same range is written `"B.b"` for one
  bit or `"B.b-B.b"` for a range, with 1-based bytes.  In OLEO mode `b` is the
  bit number above; in CANT mode it is mirrored to `7 - b`.
*/
module BitCodec {
  import opened Wrappers
  import opened Text

  const MODE_OLEO: int := 1
  const MODE_CANT: int := 2

  /** Python's `math.ceil(a / b)` for a non-negative `a` and positive `b`. */
  function CeilDiv(a: nat, b: nat): (q: nat)
    requires b > 0
    ensures q * b >= a && (q == 0 || (q - 1) * b < a)
  {
    (a + b - 1) / b
  }

  // ------------------------------------------------------------- the cursor

  /** The walk's cursor: a 1-based byte and a bit number within the byte. */
  datatype Cursor = Cursor(byte: int, bit: nat)

  predicate InByte(c: Cursor) {
    c.bit <= 7
  }

  /** Index of the cursor's bit when the frame is read MSB first, byte by
      byte: bit 7 of byte 1 is index 0, bit 0 of byte 1 is index 7. */
  function Linear(c: Cursor): int {
    (c.byte - 1) * 8 + (7 - c.bit)
  }

  /** One step of the walk: down one bit, or on to bit 7 of the next byte. */
  function Step(c: Cursor): (d: Cursor)
    ensures InByte(c) ==> InByte(d) && Linear(d) == Linear(c) + 1
    ensures d.byte == c.byte || d.byte == c.byte + 1
  {
    if c.bit == 0 then Cursor(c.byte + 1, 7) else Cursor(c.byte, c.bit - 1)
  }

  /** `n` steps of the walk. */
  function Advance(c: Cursor, n: nat): (d: Cursor)
    ensures InByte(c) ==> InByte(d) && Linear(d) == Linear(c) + n
    ensures c.byte <= d.byte
    decreases n
  {
    if n == 0 then c else Advance(Step(c), n - 1)
  }

  /** Two in-byte cursors are equal exactly when their linear indices are. */
  lemma LinearInjective(c: Cursor, d: Cursor)
    requires InByte(c) && InByte(d) && Linear(c) == Linear(d)
    ensures c == d
  {
    assert (c.byte - d.byte) * 8 == c.bit - d.bit;
  }

  // -------------------------------------------------------- endian_translate

  /** The cursor at a signal's `start` bit. */
  function StartCursor(start: nat): (c: Cursor)
    ensures InByte(c) && c.byte >= 1
  {
    Cursor(CeilDiv(start + 1, 8), start % 8)
  }

  /** `endian_translate`: the MSB-first linear index of a `start` bit. */
  function EndianTranslate(start: nat): (r: nat)
  {
    var startByte := CeilDiv(start + 1, 8);
    var startBit := start % 8;
    (startByte - 1) * 8 + (7 - startBit)
  }

  lemma StartCursorByte(start: nat)
    ensures StartCursor(start).byte == start / 8 + 1
  {
  }

  /** The translation stays in the same byte and mirrors the bit in it. */
  lemma EndianTranslateSameByte(start: nat)
    ensures EndianTranslate(start) / 8 == start / 8
    ensures EndianTranslate(start) % 8 == 7 - start % 8
    ensures EndianTranslate(start) == Linear(StartCursor(start))
  {
    StartCursorByte(start);
    var q := start / 8;
    assert EndianTranslate(start) == q * 8 + (7 - start % 8);
  }

  /** Translating twice gives back the original bit. */
  lemma EndianTranslateInvolution(start: nat)
    ensures EndianTranslate(EndianTranslate(start)) == start
  {
    EndianTranslateSameByte(start);
    EndianTranslateSameByte(EndianTranslate(start));
    var r := EndianTranslate(start);
    assert r == (r / 8) * 8 + r % 8;
    assert start == (start / 8) * 8 + start % 8;
  }

  // ------------------------------------------------------------------ encode

  /** The bit number as written in a token of the given mode. */
  function BitLabel(bit: nat, mode: int): int
  {
    if mode == MODE_CANT then 7 - bit else bit
  }

  /** Two numbers written `"x.y"`. */
  function Dotted(x: nat, y: nat): (s: string)
    ensures '-' !in s
  {
    NatToStringNoSeparator(x, '-');
    NatToStringNoSeparator(y, '-');
    NatToString(x) + "." + NatToString(y)
  }

  /** `"B.b"` for a cursor whose byte is at least 1 and whose bit is in 0..7. */
  function Label(c: Cursor, mode: int): (s: string)
    requires c.byte >= 1 && InByte(c)
    ensures '-' !in s
  {
    Dotted(c.byte, BitLabel(c.bit, mode))
  }

  /** The cursor on the last bit of a signal, reached by walking
      `length - 1` steps (no steps for `length <= 1`) from its start. */
  function EndCursor(start: nat, length: int): (e: Cursor)
    ensures InByte(e) && e.byte >= 1
  {
    Advance(StartCursor(start), if length > 1 then length - 1 else 0)
  }

  /** `yml_bits_encode`: `None` when the mode is neither OLEO nor CANT (the
      Python function then falls off its end). */
  function EncodeBits(start: nat, length: int, mode: int): (r: Option<string>)
    ensures r.Some? <==> mode == MODE_OLEO || mode == MODE_CANT
    ensures r.Some? && length == 1 ==>
              r.value == NatToString(start / 8 + 1) + "."
                         + NatToString(if mode == MODE_CANT then 7 - start % 8 else start % 8)
    ensures r.Some? && length != 1 ==> '-' in r.value
  {
    StartCursorByte(start);
    var s := StartCursor(start);
    if mode != MODE_OLEO && mode != MODE_CANT then None
    else if length == 1 then Some(Label(s, mode))
    else
      var token := Label(s, mode) + "-" + Label(EndCursor(start, length), mode);
      assert token[|Label(s, mode)|] == '-';
      Some(token)
  }

  /** A multi-bit token names, after the dash, the cursor that lies exactly
      `length - 1` MSB-first steps after the start. */
  lemma EncodeRangeEnd(start: nat, length: int, mode: int)
    requires mode == MODE_OLEO || mode == MODE_CANT
    requires length >= 2
    ensures var e := EndCursor(start, length);
            && Linear(e) == EndianTranslate(start) + length - 1
            && EncodeBits(start, length, mode)
               == Some(Label(StartCursor(start), mode) + "-" + Label(e, mode))
  {
    EndianTranslateSameByte(start);
  }

  // ------------------------------------------------------------------ decode

  /** The decoder's walk: from `c`, count the cursors visited until `e` is
      met; give up (`None`) as soon as a step takes the byte beyond 8. */
  function CountTo(c: Cursor, e: Cursor, visited: nat): (r: Option<nat>)
    ensures r.Some? ==> r.value >= visited
    decreases if c.byte <= 8 then 9 - c.byte else 0, c.bit
  {
    if c == e then Some(visited)
    else
      var d := Step(c);
      if d.byte > 8 then None else CountTo(d, e, visited + 1)
  }

  /** What the range branch returns once its four numbers are known. */
  function WalkResult(startByte: nat, startBit: nat, endByte: nat, endBit: nat): (r: Result<Option<(int, nat)>>)
    ensures r.Ok? && (r.value.Some? ==> r.value.value.1 >= 1)
  {
    var n := CountTo(Cursor(startByte, startBit), Cursor(endByte, endBit), 1);
    var first: int := (startByte as int - 1) * 8 + startBit;
    if n.None? then Ok(None) else Ok(Some((first, n.value)))
  }

  /** The range branch of `yml_bits_decode`, after the two endpoints have
      been split into their byte and bit texts. */
  function DecodeRange(startByteText: string, startBitText: string,
                       endByteText: string, endBitText: string): (r: Result<Option<(int, nat)>>)
    ensures r.Ok? && r.value.Some? ==> r.value.value.1 >= 1
  {
    var startByte, endByte := ParseDecimal(startByteText), ParseDecimal(endByteText);
    var startBit, endBit := ParseDecimal(startBitText), ParseDecimal(endBitText);
    if startByte.None? || endByte.None? || startBit.None? || endBit.None? then Raise(ValueError)
    else
      WalkResult(startByte.value, startBit.value, endByte.value, endBit.value)
  }

  /** `yml_bits_decode`: `Ok(Some((start, length)))`, `Ok(None)` where the
      Python function returns `False`, or the exception it lets escape
      (a token without a dash that does not split into two numbers, or a
      range whose numbers are not decimal). */
  function DecodeBits(token: string, mode: int): (r: Result<Option<(int, nat)>>)
    ensures mode == MODE_CANT && '-' in token ==> r == Ok(None)
    ensures r.Ok? && r.value.Some? ==> r.value.value.1 >= 1
    ensures r.Ok? && r.value.Some? && '-' !in token ==> r.value.value.1 == 1
  {
    if '-' in token then
      var ends := Split(token, '-');
      if |ends| != 2 then Ok(None)
      else
        var s := Split(ends[0], '.');
        var e := Split(ends[1], '.');
        if |s| != 2 || |e| != 2 then Ok(None)
        // `7 - start_bit` on a string raises TypeError, caught by the handler
        else if mode == MODE_CANT then Ok(None)
        else DecodeRange(s[0], s[1], e[0], e[1])
    else
      var s := Split(token, '.');
      if |s| != 2 then Raise(ValueError)
      else
        var startByte, startBit := ParseDecimal(s[0]), ParseDecimal(s[1]);
        if startByte.None? || startBit.None? then Raise(ValueError)
        else
          var bit: int := if mode == MODE_CANT then 7 - startBit.value as int else startBit.value;
          var first: int := (startByte.value as int - 1) * 8 + bit;
          Ok(Some((first, 1)))
  }

  /** The range branch on four numbers written in decimal. */
  lemma DecodeRangeOfNumbers(startByte: nat, startBit: nat, endByte: nat, endBit: nat)
    ensures DecodeRange(NatToString(startByte), NatToString(startBit),
                        NatToString(endByte), NatToString(endBit))
            == WalkResult(startByte, startBit, endByte, endBit)
  {
    ParseDecimalOfNatToString(startByte);
    ParseDecimalOfNatToString(startBit);
    ParseDecimalOfNatToString(endByte);
    ParseDecimalOfNatToString(endBit);
  }

  /** How a token built from four numbers splits at its dash and dots. */
  lemma RangeTokenParts(startByte: nat, startBit: nat, endByte: nat, endBit: nat)
    ensures var a, b := Dotted(startByte, startBit), Dotted(endByte, endBit);
            && '-' in a + "-" + b
            && Split(a + "-" + b, '-') == [a, b]
            && Split(a, '.') == [NatToString(startByte), NatToString(startBit)]
            && Split(b, '.') == [NatToString(endByte), NatToString(endBit)]
  {
    NatToStringNoSeparator(startByte, '.');
    NatToStringNoSeparator(startBit, '.');
    NatToStringNoSeparator(endByte, '.');
    NatToStringNoSeparator(endBit, '.');
    var a := Dotted(startByte, startBit);
    var b := Dotted(endByte, endBit);
    SplitTwo(NatToString(startByte), NatToString(startBit), '.');
    SplitTwo(NatToString(endByte), NatToString(endBit), '.');
    SplitTwo(a, b, '-');
    assert (a + "-" + b)[|a|] == '-';
  }

  /** A token built from four numbers is decoded by the range branch. */
  lemma DecodeRangeToken(startByte: nat, startBit: nat, endByte: nat, endBit: nat, mode: int)
    requires mode != MODE_CANT
    ensures var token := Dotted(startByte, startBit) + "-" + Dotted(endByte, endBit);
            && '-' in token
            && DecodeBits(token, mode)
               == DecodeRange(NatToString(startByte), NatToString(startBit),
                              NatToString(endByte), NatToString(endBit))
  {
    RangeTokenParts(startByte, startBit, endByte, endBit);
  }

  // ------------------------------------------------------- the walk's facts

  /** What the decoder's count means: the end cursor lies `n - visited`
      steps after the start, and (for a real walk) it is not beyond byte 8. */
  lemma {:induction false} CountToSound(c: Cursor, e: Cursor, visited: nat)
    requires CountTo(c, e, visited).Some?
    ensures var n := CountTo(c, e, visited).value;
            Advance(c, n - visited) == e && (n == visited || e.byte <= 8)
    decreases if c.byte <= 8 then 9 - c.byte else 0, c.bit, 1
  {
    if c == e {
      assert CountTo(c, e, visited) == Some(visited);
    } else {
      CountToSoundStep(c, e, visited);
    }
  }

  /** The step case: the walk moved on from `c` before meeting `e`. */
  lemma {:induction false} CountToSoundStep(c: Cursor, e: Cursor, visited: nat)
    requires CountTo(c, e, visited).Some? && c != e
    ensures var n := CountTo(c, e, visited).value;
            Advance(c, n - visited) == e && e.byte <= 8
    decreases if c.byte <= 8 then 9 - c.byte else 0, c.bit, 0
  {
    var d := Step(c);
    var n := CountTo(c, e, visited).value;
    assert d.byte <= 8 && CountTo(d, e, visited + 1) == Some(n);
    CountToSound(d, e, visited + 1);
    var k: nat := n - (visited + 1);
    assert Advance(d, k) == e;
    AdvanceStep(c, k + 1);
    assert k + 1 == n - visited;
  }

  /** The first of `m` steps. */
  lemma AdvanceStep(c: Cursor, m: nat)
    requires m >= 1
    ensures Advance(c, m) == Advance(Step(c), m - 1)
  {
  }

  /** The decoder's walk finds an end cursor lying `k` steps ahead, as long as
      that cursor is within byte 8. */
  lemma {:induction false} CountToComplete(c: Cursor, k: nat, visited: nat)
    requires InByte(c)
    requires Advance(c, k).byte <= 8
    ensures CountTo(c, Advance(c, k), visited) == Some(visited + k)
    decreases k
  {
    var e := Advance(c, k);
    if k > 0 {
      assert c != e by {
        assert Linear(e) == Linear(c) + k;
      }
      var d := Step(c);
      assert Advance(c, k) == Advance(d, k - 1);
      assert d.byte <= e.byte;
      CountToComplete(d, k - 1, visited + 1);
    }
  }

  /** The walk only moves forward: an end cursor before the start, or one
      whose bit number is above 7, is never met and the decode gives up. */
  lemma {:induction false} CountToUnreachable(c: Cursor, e: Cursor, visited: nat)
    requires InByte(c)
    requires !InByte(e) || Linear(e) < Linear(c)
    ensures CountTo(c, e, visited) == None
    decreases if c.byte <= 8 then 9 - c.byte else 0, c.bit
  {
    assert c != e;
    var d := Step(c);
    if d.byte <= 8 {
      CountToUnreachable(d, e, visited + 1);
    }
  }

  // ------------------------------------------------------------ round trips

  /** How a label splits back into its two numbers. */
  lemma LabelParts(c: Cursor, mode: int)
    requires c.byte >= 1 && InByte(c)
    requires BitLabel(c.bit, mode) >= 0
    ensures Split(Label(c, mode), '.') == [NatToString(c.byte), NatToString(BitLabel(c.bit, mode))]
    ensures ParseDecimal(NatToString(c.byte)) == Some(c.byte)
    ensures ParseDecimal(NatToString(BitLabel(c.bit, mode))) == Some(BitLabel(c.bit, mode))
  {
    var a := NatToString(c.byte);
    var b := NatToString(BitLabel(c.bit, mode));
    NatToStringNoSeparator(c.byte, '.');
    NatToStringNoSeparator(BitLabel(c.bit, mode), '.');
    assert Join([a, b], ".") == Label(c, mode);
    SplitOfJoin([a, b], '.');
    ParseDecimalOfNatToString(c.byte);
    ParseDecimalOfNatToString(BitLabel(c.bit, mode));
  }

  /** An OLEO range token from an in-byte cursor to the cursor `k` steps
      later decodes to that cursor's bit and `k + 1` bits. */
  lemma OleoRangeDecode(s: Cursor, k: nat)
    requires s.byte >= 1 && InByte(s) && k >= 1
    requires Advance(s, k).byte <= 8
    ensures DecodeBits(Label(s, MODE_OLEO) + "-" + Label(Advance(s, k), MODE_OLEO), MODE_OLEO)
            == Ok(Some(((s.byte - 1) * 8 + s.bit, k + 1)))
  {
    var e := Advance(s, k);
    DecodeRangeToken(s.byte, s.bit, e.byte, e.bit, MODE_OLEO);
    DecodeRangeOfNumbers(s.byte, s.bit, e.byte, e.bit);
    WalkResultComplete(s, k);
  }

  lemma WalkResultComplete(s: Cursor, k: nat)
    requires s.byte >= 1 && InByte(s) && Advance(s, k).byte <= 8
    ensures var e := Advance(s, k);
            WalkResult(s.byte, s.bit, e.byte, e.bit) == Ok(Some(((s.byte - 1) * 8 + s.bit, k + 1)))
  {
    CountToComplete(s, k, 1);
    WalkResultOfCount(s, Advance(s, k), 1 + k);
  }

  lemma WalkResultOfCount(s: Cursor, e: Cursor, n: nat)
    requires s.byte >= 0 && e.byte >= 0 && CountTo(s, e, 1) == Some(n)
    ensures WalkResult(s.byte, s.bit, e.byte, e.bit) == Ok(Some(((s.byte as int - 1) * 8 + s.bit, n)))
  {
    assert Cursor(s.byte, s.bit) == s && Cursor(e.byte, e.bit) == e;
  }

  /** The start cursor's position, written back as a bit number. */
  lemma StartCursorFirst(start: nat)
    ensures (StartCursor(start).byte - 1) * 8 + StartCursor(start).bit == start
  {
    StartCursorByte(start);
    assert start == (start / 8) * 8 + start % 8;
  }

  lemma OleoSingleBitRoundTrip(start: nat)
    ensures DecodeBits(EncodeBits(start, 1, MODE_OLEO).value, MODE_OLEO) == Ok(Some((start as int, 1)))
  {
    var s := StartCursor(start);
    StartCursorFirst(start);
    LabelParts(s, MODE_OLEO);
    assert EncodeBits(start, 1, MODE_OLEO).value == Label(s, MODE_OLEO);
  }

  /** Encoding in OLEO mode and decoding again gives the signal back, for any
      signal that ends within byte 8. */
  lemma OleoRoundTrip(start: nat, length: nat)
    requires length >= 1
    requires EndCursor(start, length).byte <= 8
    ensures DecodeBits(EncodeBits(start, length, MODE_OLEO).value, MODE_OLEO)
            == Ok(Some((start as int, length)))
  {
    if length == 1 {
      OleoSingleBitRoundTrip(start);
    } else {
      var s, k := StartCursor(start), length - 1;
      var e := EndCursor(start, length);
      assert e == Advance(s, k);
      var token := Label(s, MODE_OLEO) + "-" + Label(e, MODE_OLEO);
      StartCursorFirst(start);
      EncodeRangeEnd(start, length, MODE_OLEO);
      assert EncodeBits(start, length, MODE_OLEO).value == token;
      OleoRangeDecode(s, k);
      var r := DecodeBits(token, MODE_OLEO);
      assert r == Ok(Some(((s.byte - 1) * 8 + s.bit, k + 1)));
      assert r.value.value.0 == start && r.value.value.1 == length;
      assert r == Ok(Some((start as int, length)));
    }
  }

  /** In CANT mode a single-bit token survives the round trip. */
  lemma CantSingleBitRoundTrip(start: nat)
    ensures DecodeBits(EncodeBits(start, 1, MODE_CANT).value, MODE_CANT) == Ok(Some((start as int, 1)))
  {
    var s := StartCursor(start);
    StartCursorByte(start);
    LabelParts(s, MODE_CANT);
  }

  /** A reversed range such as `"1.3-1.5"` is rejected: the walk runs off
      byte 8 without meeting its end.  So is an end bit above 7. */
  lemma ReversedRangeRejected(startByte: nat, startBit: nat, endByte: nat, endBit: nat, mode: int)
    requires mode != MODE_CANT && startBit <= 7
    requires Linear(Cursor(endByte, endBit)) < Linear(Cursor(startByte, startBit)) || endBit > 7
    ensures var token := Dotted(startByte, startBit) + "-" + Dotted(endByte, endBit);
            DecodeBits(token, mode) == Ok(None)
  {
    DecodeRangeToken(startByte, startBit, endByte, endBit, mode);
    DecodeRangeOfNumbers(startByte, startBit, endByte, endBit);
    CountToUnreachable(Cursor(startByte, startBit), Cursor(endByte, endBit), 1);
  }

  /** A successful range decode names a start and an end that lie exactly
      `length - 1` steps apart, with the end within byte 8. */
  lemma DecodeRangeMeaning(token: string, mode: int)
    requires '-' in token
    requires DecodeBits(token, mode).Ok? && DecodeBits(token, mode).value.Some?
    ensures var (first, length) := DecodeBits(token, mode).value.value;
            exists startByte: nat, startBit: nat, endByte: nat, endBit: nat ::
              Spans(first, length, Cursor(startByte, startBit), Cursor(endByte, endBit))
  {
    var ends := Split(token, '-');
    var s := Split(ends[0], '.');
    var e := Split(ends[1], '.');
    DecodeBitsRange(token, mode);
    DecodeRangeSpans(s[0], s[1], e[0], e[1]);
  }

  /** The range branch, once its texts are numbers, reports a walk. */
  lemma DecodeRangeSpans(startByteText: string, startBitText: string, endByteText: string, endBitText: string)
    requires DecodeRange(startByteText, startBitText, endByteText, endBitText).Ok?
    requires DecodeRange(startByteText, startBitText, endByteText, endBitText).value.Some?
    ensures var (first, length) := DecodeRange(startByteText, startBitText, endByteText, endBitText).value.value;
            exists startByte: nat, startBit: nat, endByte: nat, endBit: nat ::
              Spans(first, length, Cursor(startByte, startBit), Cursor(endByte, endBit))
  {
    var startByte, endByte := ParseDecimal(startByteText).value, ParseDecimal(endByteText).value;
    var startBit, endBit := ParseDecimal(startBitText).value, ParseDecimal(endBitText).value;
    var w := WalkResult(startByte, startBit, endByte, endBit);
    WalkResultSound(startByte, startBit, endByte, endBit);
    assert Spans(w.value.value.0, w.value.value.1, Cursor(startByte, startBit), Cursor(endByte, endBit));
  }

  /** `first` and `length` describe the walk from `s` to `e`: `first` is the
      position of `s`, `e` lies `length - 1` steps after it, and for more
      than one bit `e` is within byte 8. */
  predicate Spans(first: int, length: nat, s: Cursor, e: Cursor) {
    && length >= 1
    && first == (s.byte as int - 1) * 8 + s.bit
    && Advance(s, length - 1) == e
    && (length == 1 || e.byte <= 8)
  }

  /** A range token that decodes went through the range branch. */
  lemma DecodeBitsRange(token: string, mode: int)
    requires '-' in token
    requires DecodeBits(token, mode).Ok? && DecodeBits(token, mode).value.Some?
    ensures var ends := Split(token, '-');
            && |ends| == 2 && |Split(ends[0], '.')| == 2 && |Split(ends[1], '.')| == 2
            && DecodeBits(token, mode)
               == DecodeRange(Split(ends[0], '.')[0], Split(ends[0], '.')[1],
                              Split(ends[1], '.')[0], Split(ends[1], '.')[1])
  {
  }

  /** A walk that meets its end reports the start's position and the number
      of bits from start to end. */
  lemma WalkResultSound(startByte: nat, startBit: nat, endByte: nat, endBit: nat)
    requires WalkResult(startByte, startBit, endByte, endBit).value.Some?
    ensures var r := WalkResult(startByte, startBit, endByte, endBit);
            && r.value.value.0 == (startByte as int - 1) * 8 + startBit
            && Advance(Cursor(startByte, startBit), r.value.value.1 - 1) == Cursor(endByte, endBit)
            && (r.value.value.1 == 1 || endByte <= 8)
  {
    CountToSound(Cursor(startByte, startBit), Cursor(endByte, endBit), 1);
  }

  // ------------------------------------------- CANT range decoding, fixed

  /** The round trip fails for every multi-bit signal in CANT mode: the
      decoder applies `7 - x` to the bit texts before they are converted to
      numbers, and the resulting TypeError makes it return `False`. */
  lemma CantRangeRoundTripFails(start: nat, length: int)
    requires length != 1
    ensures DecodeBits(EncodeBits(start, length, MODE_CANT).value, MODE_CANT) == Ok(None)
  {
  }

  /** The two-bit signal at start 0 is written `"1.7-2.0"` in CANT mode and
      that token does not decode. */
  lemma CantRangeExample()
    ensures EncodeBits(0, 2, MODE_CANT) == Some("1.7-2.0")
    ensures DecodeBits("1.7-2.0", MODE_CANT) == Ok(None)
  {
    assert Advance(Cursor(1, 0), 1) == Cursor(2, 7);
    assert NatToString(1) == "1" && NatToString(7) == "7";
    assert NatToString(2) == "2" && NatToString(0) == "0";
    assert Label(Cursor(1, 0), MODE_CANT) == "1.7";
    assert Label(Cursor(2, 7), MODE_CANT) == "2.0";
    assert StartCursor(0) == Cursor(1, 0);
    EncodeRangeEnd(0, 2, MODE_CANT);
    assert "1.7" + "-" + "2.0" == "1.7-2.0";
  }

  /** The range branch as evidently intended: mirror the bit numbers after
      converting them.  A CANT bit label above 7 would mirror to a negative
      bit, which the walk never leaves, so the corrected decoder rejects it. */
  function DecodeRangeFixed(startByteText: string, startBitText: string,
                            endByteText: string, endBitText: string, mode: int): (r: Result<Option<(int, nat)>>)
    ensures r.Ok? && r.value.Some? ==> r.value.value.1 >= 1
  {
    var startByte, endByte := ParseDecimal(startByteText), ParseDecimal(endByteText);
    var startBit, endBit := ParseDecimal(startBitText), ParseDecimal(endBitText);
    if startByte.None? || endByte.None? || startBit.None? || endBit.None? then Raise(ValueError)
    else if mode != MODE_CANT then WalkResult(startByte.value, startBit.value, endByte.value, endBit.value)
    else MirroredWalk(startByte.value, startBit.value, endByte.value, endBit.value)
  }

  /** The walk on CANT bit labels, mirrored back to bit numbers first. */
  function MirroredWalk(startByte: nat, startLabel: nat, endByte: nat, endLabel: nat): (r: Result<Option<(int, nat)>>)
    ensures r.Ok? && (r.value.Some? ==> r.value.value.1 >= 1)
    ensures startLabel > 7 || endLabel > 7 ==> r == Ok(None)
  {
    if startLabel > 7 || endLabel > 7 then Ok(None)
    else WalkResult(startByte, 7 - startLabel, endByte, 7 - endLabel)
  }

  /** `yml_bits_decode` with the CANT conversion done on numbers. */
  function DecodeBitsFixed(token: string, mode: int): (r: Result<Option<(int, nat)>>)
    ensures mode != MODE_CANT ==> r == DecodeBits(token, mode)
    ensures '-' !in token ==> r == DecodeBits(token, mode)
  {
    if '-' in token then
      var ends := Split(token, '-');
      if |ends| != 2 then Ok(None)
      else
        var s := Split(ends[0], '.');
        var e := Split(ends[1], '.');
        if |s| != 2 || |e| != 2 then Ok(None)
        else DecodeRangeFixed(s[0], s[1], e[0], e[1], mode)
    else DecodeBits(token, mode)
  }

  /** The fixed decoder on a token built from four numbers. */
  lemma DecodeRangeFixedToken(startByte: nat, startBit: nat, endByte: nat, endBit: nat, mode: int)
    ensures var token := Dotted(startByte, startBit) + "-" + Dotted(endByte, endBit);
            DecodeBitsFixed(token, mode)
            == DecodeRangeFixed(NatToString(startByte), NatToString(startBit),
                                NatToString(endByte), NatToString(endBit), mode)
  {
    RangeTokenParts(startByte, startBit, endByte, endBit);
  }

  /** The fixed CANT range branch on four numbers written in decimal mirrors
      both bit labels back before walking. */
  lemma DecodeRangeFixedOfNumbers(startByte: nat, startLabel: nat, endByte: nat, endLabel: nat)
    requires startLabel <= 7 && endLabel <= 7
    ensures DecodeRangeFixed(NatToString(startByte), NatToString(startLabel),
                             NatToString(endByte), NatToString(endLabel), MODE_CANT)
            == WalkResult(startByte, 7 - startLabel, endByte, 7 - endLabel)
  {
    ParseDecimalOfNatToString(startByte);
    ParseDecimalOfNatToString(startLabel);
    ParseDecimalOfNatToString(endByte);
    ParseDecimalOfNatToString(endLabel);
    FixedRangeOfParsed(NatToString(startByte), NatToString(startLabel),
                       NatToString(endByte), NatToString(endLabel),
                       startByte, startLabel, endByte, endLabel);
  }

  lemma FixedRangeOfParsed(a: string, b: string, c: string, d: string,
                           startByte: nat, startLabel: nat, endByte: nat, endLabel: nat)
    requires ParseDecimal(a) == Some(startByte) && ParseDecimal(b) == Some(startLabel)
    requires ParseDecimal(c) == Some(endByte) && ParseDecimal(d) == Some(endLabel)
    requires startLabel <= 7 && endLabel <= 7
    ensures DecodeRangeFixed(a, b, c, d, MODE_CANT) == WalkResult(startByte, 7 - startLabel, endByte, 7 - endLabel)
  {
    assert DecodeRangeFixed(a, b, c, d, MODE_CANT) == MirroredWalk(startByte, startLabel, endByte, endLabel);
  }

  /** A CANT range token decodes, with the fix, to the walk between the
      bits its labels mirror. */
  lemma CantTokenFixed(startByte: nat, startLabel: nat, endByte: nat, endLabel: nat)
    requires startLabel <= 7 && endLabel <= 7
    ensures DecodeBitsFixed(Dotted(startByte, startLabel) + "-" + Dotted(endByte, endLabel), MODE_CANT)
            == WalkResult(startByte, 7 - startLabel, endByte, 7 - endLabel)
  {
    DecodeRangeFixedToken(startByte, startLabel, endByte, endLabel, MODE_CANT);
    DecodeRangeFixedOfNumbers(startByte, startLabel, endByte, endLabel);
  }

  /** The same for a token written from two cursors. */
  lemma CantLabelsFixed(s: Cursor, e: Cursor)
    requires s.byte >= 1 && InByte(s) && e.byte >= 1 && InByte(e)
    ensures DecodeBitsFixed(Label(s, MODE_CANT) + "-" + Label(e, MODE_CANT), MODE_CANT)
            == WalkResult(s.byte, s.bit, e.byte, e.bit)
  {
    var sl: nat, el: nat := 7 - s.bit, 7 - e.bit;
    assert Label(s, MODE_CANT) == Dotted(s.byte, sl);
    assert Label(e, MODE_CANT) == Dotted(e.byte, el);
    CantTokenFixed(s.byte, sl, e.byte, el);
    assert 7 - sl == s.bit && 7 - el == e.bit;
  }

  /** The fixed decoder reads a CANT range token from an in-byte cursor to
      the cursor `k` steps later as that cursor's bit and `k + 1` bits. */
  lemma CantRangeDecodeFixed(s: Cursor, k: nat)
    requires s.byte >= 1 && InByte(s) && k >= 1
    requires Advance(s, k).byte <= 8
    ensures DecodeBitsFixed(Label(s, MODE_CANT) + "-" + Label(Advance(s, k), MODE_CANT), MODE_CANT)
            == Ok(Some(((s.byte - 1) * 8 + s.bit, k + 1)))
  {
    CantLabelsFixed(s, Advance(s, k));
    WalkResultComplete(s, k);
  }

  /** With the fix, CANT tokens round-trip exactly as OLEO ones do. */
  lemma CantRoundTripFixed(start: nat, length: nat)
    requires length >= 1
    requires EndCursor(start, length).byte <= 8
    ensures DecodeBitsFixed(EncodeBits(start, length, MODE_CANT).value, MODE_CANT)
            == Ok(Some((start as int, length)))
  {
    if length == 1 {
      CantSingleBitRoundTrip(start);
    } else {
      var s, k := StartCursor(start), length - 1;
      var e := EndCursor(start, length);
      assert e == Advance(s, k);
      var token := Label(s, MODE_CANT) + "-" + Label(e, MODE_CANT);
      StartCursorFirst(start);
      EncodeRangeEnd(start, length, MODE_CANT);
      assert EncodeBits(start, length, MODE_CANT).value == token;
      CantRangeDecodeFixed(s, k);
      var r := DecodeBitsFixed(token, MODE_CANT);
      assert r == Ok(Some(((s.byte - 1) * 8 + s.bit, k + 1)));
      assert r.value.value.0 == start && r.value.value.1 == length;
      assert r == Ok(Some((start as int, length)));
    }
  }
}

=== FILE: cgen.dfy ===
/** The C code generator of `oleomgr.py`: the parser line `export_parser_c`
  writes for each signal, the binary mask it uses, and the field type
  `export_to_struct` chooses for the signal in the message structure.
*/
module CGen {
  import opened Wrappers
  import opened Text
  import opened BitCodec
  import opened PyDict
  import opened Database

  // ----------------------------------------------------------------- bitmask

  /** The digits of a mask over positions `0 .. n - 1`: `1` from `bit` to
      `end` inclusive, `0` elsewhere. */
  function MaskDigits(bit: int, end: int, n: nat): (s: string)
    ensures |s| == n && IsBits(s)
    ensures forall i :: 0 <= i < n ==> (s[i] == '1' <==> bit <= i <= end)
  {
    if n == 0 then ""
    else MaskDigits(bit, end, n - 1) + [if bit <= n - 1 <= end then '1' else '0']
  }

  /** `bitmask(bit, length, lng)`: a C binary literal whose `lng` digits are
      `1` exactly at the `length` positions from `bit` on (position 0 is
      written first). */
  function Bitmask(bit: int, length: int, width: nat): (s: string)
    ensures |s| == width + 2 && s[..2] == "0b"
    ensures forall i :: 2 <= i < width + 2 ==> (s[i] == '1' <==> bit <= i - 2 < bit + length)
    ensures IsBits(s[2..])
  {
    var s := "0b" + MaskDigits(bit, bit + (length - 1), width);
    assert s[2..] == MaskDigits(bit, bit + (length - 1), width);
    s
  }

  /** Where the run of ones ends does not matter past the last position. */
  lemma {:induction false} MaskDigitsSame(lo: int, hi: int, hi': int, n: nat)
    requires hi >= n - 1 && hi' >= n - 1
    ensures MaskDigits(lo, hi, n) == MaskDigits(lo, hi', n)
    decreases n
  {
    if n > 0 {
      MaskDigitsSame(lo, hi, hi', n - 1);
    }
  }

  lemma BinValueAppend(s: string, c: char)
    requires IsBits(s) && (c == '0' || c == '1')
    ensures IsBits(s + [c]) && BinValue(s + [c]) == 2 * BinValue(s) + (if c == '1' then 1 else 0)
  {
    assert (s + [c])[..|s|] == s;
  }

  /** Read as a binary number, the mask over positions `lo .. hi` of `n`
      digits falls short of `2^(n - lo)` by exactly `2^(n - 1 - hi)`: it is
      the difference of the two powers. */
  lemma {:induction false} MaskDigitsRun(lo: nat, hi: int, n: nat)
    requires lo <= hi + 1 && hi < n
    ensures BinValue(MaskDigits(lo, hi, n)) + Pow2(n - 1 - hi) == Pow2(n - lo)
    decreases n, 1
  {
    if lo == n {
      MaskRunEmpty(lo, hi, n);
    } else if hi < n - 1 {
      MaskRunZeroAfter(lo, hi, n);
    } else {
      MaskRunOneAfter(lo, n);
      assert n - 1 - hi == 0;
    }
  }

  /** An empty run reads as zero. */
  lemma MaskRunEmpty(lo: nat, hi: int, n: nat)
    requires lo <= hi + 1 && hi < n && lo == n
    ensures BinValue(MaskDigits(lo, hi, n)) + Pow2(n - 1 - hi) == Pow2(n - lo)
  {
    MaskDigitsZero(lo, hi, n);
    assert n - 1 - hi == 0 && n - lo == 0;
  }

  /** A position past the run appends a `0`: both sides double. */
  lemma {:induction false} MaskRunZeroAfter(lo: nat, hi: int, n: nat)
    requires lo <= hi + 1 && hi < n - 1
    ensures BinValue(MaskDigits(lo, hi, n)) + Pow2(n - 1 - hi) == Pow2(n - lo)
    decreases n, 0
  {
    var prev := MaskDigits(lo, hi, n - 1);
    var v := BinValue(prev);
    assert BinValue(MaskDigits(lo, hi, n)) == 2 * v by {
      assert MaskDigits(lo, hi, n) == prev + ['0'];
      BinValueAppend(prev, '0');
    }
    assert v + Pow2(n - 2 - hi) == Pow2(n - 1 - lo) by {
      MaskDigitsRun(lo, hi, n - 1);
    }
    assert Pow2(n - 1 - hi) == 2 * Pow2(n - 2 - hi);
    assert Pow2(n - lo) == 2 * Pow2(n - 1 - lo);
  }

  /** A run reaching the last position appends a `1`. */
  lemma {:induction false} MaskRunOneAfter(lo: nat, n: nat)
    requires lo < n
    ensures BinValue(MaskDigits(lo, n - 1, n)) + 1 == Pow2(n - lo)
    decreases n, 0
  {
    var prev := MaskDigits(lo, n - 1, n - 1);
    var v := BinValue(prev);
    assert BinValue(MaskDigits(lo, n - 1, n)) == 2 * v + 1 by {
      assert MaskDigits(lo, n - 1, n) == prev + ['1'];
      BinValueAppend(prev, '1');
    }
    assert v + 1 == Pow2(n - 1 - lo) by {
      MaskDigitsSame(lo, n - 1, n - 2, n - 1);
      MaskDigitsRun(lo, n - 2, n - 1);
      assert n - 1 - 1 - (n - 2) == 0;
    }
    assert Pow2(n - lo) == 2 * Pow2(n - 1 - lo);
  }

  /** The same value as a product: `hi - lo + 1` ones followed by
      `n - 1 - hi` zeros. */
  lemma MaskDigitsValue(lo: nat, hi: int, n: nat)
    requires lo <= hi + 1 && hi < n
    ensures BinValue(MaskDigits(lo, hi, n)) == (Pow2(hi - lo + 1) - 1) * Pow2(n - 1 - hi)
  {
    MaskDigitsRun(lo, hi, n);
    Pow2Add(hi - lo + 1, n - 1 - hi);
    ProductOfRun(BinValue(MaskDigits(lo, hi, n)), Pow2(hi - lo + 1), Pow2(n - 1 - hi), Pow2(n - lo));
  }

  lemma ProductOfRun(v: int, ones: int, zeros: int, all: int)
    requires v + zeros == all && all == ones * zeros
    ensures v == (ones - 1) * zeros
  {
  }

  lemma {:induction false} MaskDigitsZero(lo: int, hi: int, n: nat)
    requires lo >= n
    ensures BinValue(MaskDigits(lo, hi, n)) == 0
    decreases n
  {
    if n > 0 {
      BinValueAppend(MaskDigits(lo, hi, n - 1), '0');
      MaskDigitsZero(lo, hi, n - 1);
    }
  }

  /** The mask of a signal that fits in its byte is the signal's `length`
      ones shifted left by exactly the amount the generated line shifts the
      masked byte right. */
  lemma BitmaskValue(p: nat, length: nat)
    requires p + length <= 8
    ensures BinValue(Bitmask(p, length, 8)[2..]) == (Pow2(length) - 1) * Pow2(8 - (p + length))
  {
    MaskDigitsValue(p, p + length - 1, 8);
  }

  // ------------------------------------------------------------ the C line

  /** One `msg->data[i] << k | ` term of the assembled value. */
  function Term(index: int, shift: int): string
  {
    "msg->data[" + IntToString(index) + "] << " + IntToString(shift) + " | "
  }

  function Read(index: int): string
  {
    "msg->data[" + IntToString(index) + "]"
  }

  /** The `while (bits_left > 8)` loop that builds `data_assemble`. */
  function Assemble(byteThis: int, bitsLeft: int, byteEnd: int): string
    decreases bitsLeft
  {
    if bitsLeft > 8 then Term(byteThis, bitsLeft - 8) + Assemble(byteThis + 1, bitsLeft - 8, byteEnd)
    else Read(byteEnd)
  }

  /** The terms the loop emits, given independently: while more than 8 bits
      remain, one term per byte, with a shift that drops by 8 from
      `bitsLeft - 8`. */
  function ShiftTerms(byteStart: int, bitsLeft: int): (ts: seq<(int, int)>)
    ensures bitsLeft > 8 ==> |ts| == (bitsLeft - 1) / 8
    ensures bitsLeft <= 8 ==> ts == []
    ensures forall j :: 0 <= j < |ts| ==> ts[j] == (byteStart + j, bitsLeft - 8 * (j + 1))
  {
    var count := if bitsLeft > 8 then (bitsLeft - 1) / 8 else 0;
    seq(count, j requires 0 <= j < count => (byteStart + j, bitsLeft - 8 * (j + 1)))
  }

  function Terms(ts: seq<(int, int)>): string
  {
    if ts == [] then "" else Term(ts[0].0, ts[0].1) + Terms(ts[1..])
  }

  lemma ShiftTermsTail(byteStart: int, bitsLeft: int)
    requires bitsLeft > 8
    ensures var ts := ShiftTerms(byteStart, bitsLeft);
            ts != [] && ts[0] == (byteStart, bitsLeft - 8)
            && ts[1..] == ShiftTerms(byteStart + 1, bitsLeft - 8)
  {
    var ts := ShiftTerms(byteStart, bitsLeft);
    var rest := ShiftTerms(byteStart + 1, bitsLeft - 8);
    var q := (bitsLeft - 1) / 8;
    assert q >= 1;
    assert bitsLeft - 8 > 8 ==> (bitsLeft - 8 - 1) / 8 == q - 1;
    assert bitsLeft - 8 <= 8 ==> q == 1;
    assert |rest| == q - 1;
    assert forall j :: 0 <= j < q - 1 ==> ts[1..][j] == ts[j + 1];
  }

  /** The loop emits exactly the terms of `ShiftTerms`, then a read of the
      last byte. */
  lemma {:induction false} AssembleTerms(byteThis: int, bitsLeft: int, byteEnd: int)
    ensures Assemble(byteThis, bitsLeft, byteEnd) == Terms(ShiftTerms(byteThis, bitsLeft)) + Read(byteEnd)
    decreases bitsLeft
  {
    if bitsLeft > 8 {
      AssembleTerms(byteThis + 1, bitsLeft - 8, byteEnd);
      ShiftTermsTail(byteThis, bitsLeft);
    }
  }

  /** The last term's shift is between 1 and 8: every term is followed by at
      least one more byte and at most a full one. */
  lemma LastShift(byteStart: int, bitsLeft: int)
    requires bitsLeft > 8
    ensures var ts := ShiftTerms(byteStart, bitsLeft);
            1 <= ts[|ts| - 1].1 <= 8
  {
    var q := (bitsLeft - 1) / 8;
    var r := (bitsLeft - 1) % 8;
    assert bitsLeft - 1 == 8 * q + r;
    assert bitsLeft - 8 * ((q - 1) + 1) == r + 1;
  }

  /** What closes the masked value: nothing for whole bytes, else the mask
      and, when the signal does not end at bit 0 of its byte, the shift. */
  function MaskSuffix(p: int, length: int): string
  {
    if length == 8 || length == 16 || length == 24 || length == 32 then ")"
    else
      var shift := 8 - (p + length);
      " & " + Bitmask(p, length, 8) + (if shift != 0 then ") >> " + IntToString(shift) else "")
  }

  function ScaleSuffix(scale: Scale): string
  {
    match scale
    case UnitScale => ")"
    case ScaleText(t) => ") * " + t
  }

  function OffsetSuffix(offset: Offset): string
  {
    match offset
    case NoOffset => ""
    case PlusOffset(t) => " + " + t
    case MinusOffset(t) => " - " + t
  }

  /** Where a signal sits once translated: its first byte, its last byte and
      the position of its first bit in the first byte. */
  datatype Span = Span(byteStart: int, byteEnd: int, bitInByte: int)

  function SpanOf(s: Signal): (sp: Span)
    ensures sp.byteStart == s.start / 8
    ensures 0 <= sp.bitInByte < 8 && sp.bitInByte == 7 - s.start % 8
    ensures s.length >= 1 ==> sp.byteEnd == EndCursor(s.start, s.length).byte - 1
  {
    EndianTranslateSameByte(s.start);
    var e := EndCursor(s.start, s.length);
    assert s.length >= 1 ==> Linear(e) == EndianTranslate(s.start) + s.length - 1;
    assert Linear(e) / 8 == e.byte - 1;
    var start := EndianTranslate(s.start);
    var byteStart := start / 8;
    Span(byteStart, (start + s.length - 1) / 8, start - byteStart * 8)
  }

  /** The C statement `export_parser_c` writes for one signal. */
  function CLine(tab: string, s: Signal): string
  {
    var sp := SpanOf(s);
    tab + "ptr->" + s.name + " = (((" + Assemble(sp.byteStart, s.length, sp.byteEnd) + ")"
    + MaskSuffix(sp.bitInByte, s.length) + ScaleSuffix(s.scale) + OffsetSuffix(s.offset) + ";"
  }

  // ---------------------------------------------------------- parentheses

  function Count(s: string, c: char): nat
  {
    if s == [] then 0 else (if s[0] == c then 1 else 0) + Count(s[1..], c)
  }

  lemma {:induction false} CountAppend(a: string, b: string, c: char)
    ensures Count(a + b, c) == Count(a, c) + Count(b, c)
    decreases |a|
  {
    if a != [] {
      assert (a + b)[0] == a[0];
      assert (a + b)[1..] == a[1..] + b;
      CountAppend(a[1..], b, c);
    } else {
      assert a + b == b;
    }
  }

  lemma {:induction false} CountAbsent(s: string, c: char)
    requires c !in s
    ensures Count(s, c) == 0
    decreases |s|
  {
    if s != [] {
      CountAbsent(s[1..], c);
    }
  }

  /** Opening minus closing parentheses. */
  function Balance(s: string): int
  {
    Count(s, '(') - Count(s, ')')
  }

  lemma BalanceAppend(a: string, b: string)
    ensures Balance(a + b) == Balance(a) + Balance(b)
  {
    CountAppend(a, b, '(');
    CountAppend(a, b, ')');
  }

  predicate NoParens(s: string) {
    '(' !in s && ')' !in s
  }

  lemma NoParensBalance(s: string)
    requires NoParens(s)
    ensures Balance(s) == 0
  {
    CountAbsent(s, '(');
    CountAbsent(s, ')');
  }

  lemma NatToStringNoParens(n: nat)
    ensures NoParens(NatToString(n))
  {
    NatToStringNoSeparator(n, '(');
    NatToStringNoSeparator(n, ')');
  }

  lemma IntToStringNoParens(i: int)
    ensures NoParens(IntToString(i))
  {
    if i < 0 {
      NatToStringNoParens(-i);
    } else {
      NatToStringNoParens(i);
    }
  }

  lemma {:induction false} AssembleBalance(byteThis: int, bitsLeft: int, byteEnd: int)
    ensures Balance(Assemble(byteThis, bitsLeft, byteEnd)) == 0
    decreases bitsLeft
  {
    IntToStringNoParens(byteEnd);
    NoParensBalance(Read(byteEnd));
    if bitsLeft > 8 {
      IntToStringNoParens(byteThis);
      IntToStringNoParens(bitsLeft - 8);
      NoParensBalance(Term(byteThis, bitsLeft - 8));
      AssembleBalance(byteThis + 1, bitsLeft - 8, byteEnd);
      BalanceAppend(Term(byteThis, bitsLeft - 8), Assemble(byteThis + 1, bitsLeft - 8, byteEnd));
    }
  }

  /** The texts a signal contributes besides the generated ones hold no
      parentheses. */
  predicate PlainTexts(tab: string, s: Signal) {
    && NoParens(tab) && NoParens(s.name)
    && (s.scale.ScaleText? ==> NoParens(s.scale.text))
    && (s.offset.PlusOffset? ==> NoParens(s.offset.text))
    && (s.offset.MinusOffset? ==> NoParens(s.offset.absText))
  }

  /** A masked signal is one whose length is not a whole number of bytes. */
  predicate Masked(length: int) {
    length != 8 && length != 16 && length != 24 && length != 32
  }

  lemma MaskSuffixBalance(p: int, length: int)
    ensures Balance(MaskSuffix(p, length))
            == if Masked(length) && 8 - (p + length) == 0 then 0 else -1
  {
    if Masked(length) {
      var shift := 8 - (p + length);
      var mask := Bitmask(p, length, 8);
      assert NoParens(mask) by {
        assert forall i :: 2 <= i < |mask| ==> mask[i] == '0' || mask[i] == '1';
        assert mask[..2] == "0b";
        assert mask[0] == '0' && mask[1] == 'b';
      }
      NoParensBalance(" & " + mask);
      if shift != 0 {
        var tail := ") >> " + IntToString(shift);
        IntToStringNoParens(shift);
        NoParensBalance(IntToString(shift));
        BalanceAppend(") >> ", IntToString(shift));
        assert Balance(") >> ") == -1;
        BalanceAppend(" & " + mask, tail);
        assert MaskSuffix(p, length) == " & " + mask + tail;
      } else {
        assert " & " + mask + "" == " & " + mask;
      }
    }
  }

  lemma ScaleOffsetBalance(tab: string, s: Signal)
    requires PlainTexts(tab, s)
    ensures Balance(ScaleSuffix(s.scale)) == -1
    ensures Balance(OffsetSuffix(s.offset)) == 0
  {
    match s.scale {
      case UnitScale =>
        assert Count(")", '(') == 0 && Count(")", ')') == 1;
      case ScaleText(t) =>
        NoParensBalance(" * " + t);
        BalanceAppend(")", " * " + t);
        assert ") * " + t == ")" + (" * " + t);
        assert Count(")", '(') == 0 && Count(")", ')') == 1;
    }
    match s.offset {
      case NoOffset =>
      case PlusOffset(t) =>
        NoParensBalance(" + " + t);
      case MinusOffset(t) =>
        NoParensBalance(" - " + t);
    }
  }

  lemma OpenThree()
    ensures Balance("(((") == 3
  {
    assert "((("[1..] == "((";
    assert "(("[1..] == "(";
    assert "("[1..] == "";
  }

  /** Every generated line opens three parentheses.  It closes all three,
      except when the signal is masked and ends at bit 0 of its byte: then
      the shift is left out and its closing parenthesis with it. */
  lemma CLineBalance(tab: string, s: Signal)
    requires PlainTexts(tab, s)
    ensures var sp := SpanOf(s);
            Balance(CLine(tab, s)) == if Masked(s.length) && sp.bitInByte + s.length == 8 then 1 else 0
  {
    var sp := SpanOf(s);
    HeadBalance(tab, s.name);
    AssembleBalance(sp.byteStart, s.length, sp.byteEnd);
    MaskSuffixBalance(sp.bitInByte, s.length);
    ScaleOffsetBalance(tab, s);
    LineBalance(tab + "ptr->" + s.name + " = (((", Assemble(sp.byteStart, s.length, sp.byteEnd),
      MaskSuffix(sp.bitInByte, s.length), ScaleSuffix(s.scale), OffsetSuffix(s.offset));
  }

  /** The left-hand side of an assignment line opens three parentheses. */
  lemma HeadBalance(tab: string, name: string)
    requires NoParens(tab) && NoParens(name)
    ensures Balance(tab + "ptr->" + name + " = (((") == 3
  {
    var lhs := tab + "ptr->" + name + " = ";
    assert NoParens(lhs) by {
      assert NoParens("ptr->") && NoParens(" = ");
    }
    NoParensBalance(lhs);
    assert tab + "ptr->" + name + " = (((" == lhs + "(((";
    BalanceAppend(lhs, "(((");
    OpenThree();
  }

  /** The balance of a generated line is the sum of its parts' balances. */
  lemma LineBalance(head: string, asm: string, mask: string, scale: string, offset: string)
    ensures Balance(head + asm + ")" + mask + scale + offset + ";")
            == Balance(head) + Balance(asm) - 1 + Balance(mask) + Balance(scale) + Balance(offset)
  {
    BalanceAppend(head, asm);
    BalanceAppend(head + asm, ")");
    BalanceAppend(head + asm + ")", mask);
    BalanceAppend(head + asm + ")" + mask, scale);
    BalanceAppend(head + asm + ")" + mask + scale, offset);
    BalanceAppend(head + asm + ")" + mask + scale + offset, ";");
    NoParensBalance(";");
  }

  /** The line as evidently intended: a masked value that needs no shift
      still closes its parenthesis. */
  function MaskSuffixFixed(p: int, length: int): string
  {
    if !Masked(length) then ")"
    else
      var shift := 8 - (p + length);
      " & " + Bitmask(p, length, 8) + ")" + (if shift != 0 then " >> " + IntToString(shift) else "")
  }

  function CLineFixed(tab: string, s: Signal): string
  {
    var sp := SpanOf(s);
    tab + "ptr->" + s.name + " = (((" + Assemble(sp.byteStart, s.length, sp.byteEnd) + ")"
    + MaskSuffixFixed(sp.bitInByte, s.length) + ScaleSuffix(s.scale) + OffsetSuffix(s.offset) + ";"
  }

  /** With the parenthesis closed, every line the corrected generator writes
      is balanced. */
  lemma CLineFixedBalance(tab: string, s: Signal)
    requires PlainTexts(tab, s)
    ensures Balance(CLineFixed(tab, s)) == 0
  {
    var sp := SpanOf(s);
    HeadBalance(tab, s.name);
    AssembleBalance(sp.byteStart, s.length, sp.byteEnd);
    MaskSuffixFixedBalance(sp.bitInByte, s.length);
    ScaleOffsetBalance(tab, s);
    LineBalance(tab + "ptr->" + s.name + " = (((", Assemble(sp.byteStart, s.length, sp.byteEnd),
      MaskSuffixFixed(sp.bitInByte, s.length), ScaleSuffix(s.scale), OffsetSuffix(s.offset));
  }

  lemma MaskSuffixFixedBalance(p: int, length: int)
    ensures Balance(MaskSuffixFixed(p, length)) == -1
  {
    if Masked(length) {
      var shift := 8 - (p + length);
      var mask := Bitmask(p, length, 8);
      assert NoParens(mask) by {
        assert forall i :: 2 <= i < |mask| ==> mask[i] == '0' || mask[i] == '1';
        assert mask[..2] == "0b";
        assert mask[0] == '0' && mask[1] == 'b';
      }
      NoParensBalance(" & " + mask);
      IntToStringNoParens(shift);
      NoParensBalance(" >> " + IntToString(shift));
      var tail := if shift != 0 then " >> " + IntToString(shift) else "";
      assert Balance(tail) == 0;
      BalanceAppend(" & " + mask, ")");
      BalanceAppend(" & " + mask + ")", tail);
    }
  }

  /** The corrected line differs from the written one only for a masked
      signal that ends at bit 0 of its byte, and there only by the missing
      closing parenthesis. */
  lemma MaskSuffixFixedAgrees(p: int, length: int)
    ensures !(Masked(length) && p + length == 8) ==> MaskSuffixFixed(p, length) == MaskSuffix(p, length)
    ensures Masked(length) && p + length == 8 ==> MaskSuffixFixed(p, length) == MaskSuffix(p, length) + ")"
  {
    if Masked(length) {
      var head := " & " + Bitmask(p, length, 8);
      var shift := 8 - (p + length);
      if shift != 0 {
        CloseBeforeShift(head, IntToString(shift));
      } else {
        assert head + ")" + "" == head + "" + ")";
      }
    }
  }

  lemma CloseBeforeShift(head: string, amount: string)
    ensures head + ")" + (" >> " + amount) == head + (") >> " + amount)
  {
    assert ")" + (" >> " + amount) == ") >> " + amount;
  }

  /** A masked signal that ends at bit 0 of its byte: the one case where
      the written line leaves out the shift and a parenthesis with it. */
  predicate EndsOnByte(s: Signal) {
    Masked(s.length) && SpanOf(s).bitInByte + s.length == 8
  }

  /** The written and the corrected line agree except on a signal that ends
      on its byte, where the corrected one has a `)` after the mask. */
  lemma CLineFixedAgrees(tab: string, s: Signal)
    ensures !EndsOnByte(s) ==> CLine(tab, s) == CLineFixed(tab, s)
    ensures EndsOnByte(s) ==>
              var sp := SpanOf(s);
              var head := tab + "ptr->" + s.name + " = (((" + Assemble(sp.byteStart, s.length, sp.byteEnd) + ")"
                          + MaskSuffix(sp.bitInByte, s.length);
              var tail := ScaleSuffix(s.scale) + OffsetSuffix(s.offset) + ";";
              CLine(tab, s) == head + tail && CLineFixed(tab, s) == head + ")" + tail
  {
    var sp := SpanOf(s);
    var front := tab + "ptr->" + s.name + " = (((" + Assemble(sp.byteStart, s.length, sp.byteEnd) + ")";
    var m, mf := MaskSuffix(sp.bitInByte, s.length), MaskSuffixFixed(sp.bitInByte, s.length);
    var tail := ScaleSuffix(s.scale) + OffsetSuffix(s.offset) + ";";
    MaskSuffixFixedAgrees(sp.bitInByte, s.length);
    SuffixSplit(front, m, ScaleSuffix(s.scale), OffsetSuffix(s.offset));
    SuffixSplit(front, mf, ScaleSuffix(s.scale), OffsetSuffix(s.offset));
    assert CLine(tab, s) == front + m + tail;
    assert CLineFixed(tab, s) == front + mf + tail;
    if EndsOnByte(s) {
      assert mf == m + ")";
      assert front + (m + ")") + tail == front + m + ")" + tail;
    } else {
      assert mf == m;
    }
  }

  lemma SuffixSplit(front: string, mask: string, scale: string, offset: string)
    ensures front + mask + scale + offset + ";" == front + mask + (scale + offset + ";")
  {
  }

  // -------------------------------------------------------- structure field

  /** The three widths of the generated structure's integer fields. */
  datatype FieldWidth = Bits8 | Bits16 | Bits32

  function WidthBits(w: FieldWidth): nat
  {
    match w
    case Bits8 => 8
    case Bits16 => 16
    case Bits32 => 32
  }

  /** The field `export_to_struct` chooses, as written: lengths below 8, from
      9 to 16 and from 17 to 32.  A signal of exactly 8 bits matches no
      branch and gets no field. */
  function FieldWidthOf(length: int): (w: Option<FieldWidth>)
    ensures w.Some? ==> length <= WidthBits(w.value)
    ensures w.Some? <==> length < 8 || 8 < length <= 32
  {
    if length < 8 then Some(Bits8)
    else if 8 < length <= 16 then Some(Bits16)
    else if 16 < length <= 32 then Some(Bits32)
    else None
  }

  /** The field chosen as evidently intended: an 8-bit signal is a byte. */
  function FieldWidthFixed(length: int): (w: Option<FieldWidth>)
    ensures w.Some? <==> length <= 32
  {
    if length <= 8 then Some(Bits8)
    else if length <= 16 then Some(Bits16)
    else if length <= 32 then Some(Bits32)
    else None
  }

  /** The corrected choice is the narrowest field the signal fits in. */
  lemma FieldWidthFixedNarrowest(length: nat, w: FieldWidth)
    requires 1 <= length <= WidthBits(w)
    ensures FieldWidthFixed(length).Some?
    ensures length <= WidthBits(FieldWidthFixed(length).value) <= WidthBits(w)
  {
  }

  /** The written choice agrees with the corrected one everywhere but at 8. */
  lemma FieldWidthAgrees(length: int)
    ensures length != 8 ==> FieldWidthOf(length) == FieldWidthFixed(length)
    ensures FieldWidthOf(8) == None && FieldWidthFixed(8) == Some(Bits8)
  {
  }

  // ------------------------------------------------ generated declarations

  /** The configuration entries the generators read. */
  datatype CConfig = CConfig(
    tab: string, structPrefix: string, funcParsePrefix: string,
    typeU8: string, typeS8: string, typeU16: string,
    typeS16: string, typeU32: string, typeS32: string)

  function TypeName(cfg: CConfig, w: FieldWidth, signed: bool): string
  {
    match w
    case Bits8 => if signed then cfg.typeS8 else cfg.typeU8
    case Bits16 => if signed then cfg.typeS16 else cfg.typeU16
    case Bits32 => if signed then cfg.typeS32 else cfg.typeU32
  }

  /** The structure's field for a signal, if its width gives it one. */
  function FieldLine(cfg: CConfig, s: Signal, width: Option<FieldWidth>): (r: Option<string>)
    ensures r.Some? <==> width.Some?
  {
    match width
    case None => None
    case Some(w) => Some(cfg.tab + TypeName(cfg, w, s.isSigned) + " " + s.name + ";")
  }

  function FieldLines(cfg: CConfig, signals: seq<Signal>, fixed: bool): (r: seq<string>)
    decreases |signals|
  {
    if signals == [] then []
    else
      var s := signals[0];
      var width := if fixed then FieldWidthFixed(s.length) else FieldWidthOf(s.length);
      var rest := FieldLines(cfg, signals[1..], fixed);
      match FieldLine(cfg, s, width)
      case None => rest
      case Some(line) => [line] + rest
  }

  /** The C name of a message's structure and parser suffix. */
  function CName(msg: Message): string
  {
    Lower(msg.name)
  }

  /** The lines `export_to_struct` writes for one message. */
  /** The C type name of a message's structure. */
  function StructName(cfg: CConfig, msg: Message): string
  {
    cfg.structPrefix + CName(msg)
  }

  function StructLines(cfg: CConfig, msg: Message, signals: seq<Signal>, fixed: bool): seq<string>
  {
    ["typedef struct " + StructName(cfg, msg) + "{"]
    + FieldLines(cfg, signals, fixed)
    + ["} " + StructName(cfg, msg) + "; ", ""]
  }

  /** Each signal has a field exactly when its width gets one. */
  lemma {:induction false} FieldLinesCount(cfg: CConfig, signals: seq<Signal>, fixed: bool)
    ensures fixed && (forall i :: 0 <= i < |signals| ==> signals[i].length <= 32)
            ==> |FieldLines(cfg, signals, fixed)| == |signals|
    ensures !fixed && (exists i :: 0 <= i < |signals| && signals[i].length == 8)
            ==> |FieldLines(cfg, signals, fixed)| < |signals|
    ensures |FieldLines(cfg, signals, fixed)| <= |signals|
    decreases |signals|
  {
    if signals != [] {
      FieldLinesCount(cfg, signals[1..], fixed);
      assert forall i :: 1 <= i < |signals| ==> signals[1..][i - 1] == signals[i];
    }
  }

  /** The prototype of a message's parser. */
  function ParserSignature(cfg: CConfig, msg: Message): (r: string)
    ensures var t := StructName(cfg, msg) + "* ptr)";
            |t| < |r| && r[|r| - |t|..] == t
  {
    var t := StructName(cfg, msg) + "* ptr)";
    var head := "void " + cfg.funcParsePrefix + CName(msg) + "(can_msg* msg, ";
    SuffixOf(head, t);
    head + t
  }

  lemma SuffixOf(head: string, t: string)
    requires |head| > 0
    ensures |t| < |head + t| && (head + t)[|head + t| - |t|..] == t
  {
  }

  /** The statement `export_parser_c` writes for one signal: as written
      (`fixed` false) or with the parenthesis closed.  It assigns the
      field from the bytes the signal spans, ends in `;`, and leaves one
      parenthesis open exactly when written for a signal ending on its
      byte. */
  function ParserCLine(tab: string, s: Signal, fixed: bool): (line: string)
    ensures var sp := SpanOf(s);
            var head := tab + "ptr->" + s.name + " = (((" + Assemble(sp.byteStart, s.length, sp.byteEnd) + ")";
            |head| < |line| && line[..|head|] == head && line[|line| - 1] == ';'
    ensures PlainTexts(tab, s) ==> Balance(line) == if !fixed && EndsOnByte(s) then 1 else 0
  {
    var line := if fixed then CLineFixed(tab, s) else CLine(tab, s);
    ParserCLineShape(tab, s, fixed, line);
    ParserCLineBalance(tab, s, fixed, line);
    line
  }

  lemma ParserCLineShape(tab: string, s: Signal, fixed: bool, line: string)
    requires line == if fixed then CLineFixed(tab, s) else CLine(tab, s)
    ensures var sp := SpanOf(s);
            var head := tab + "ptr->" + s.name + " = (((" + Assemble(sp.byteStart, s.length, sp.byteEnd) + ")";
            |head| < |line| && line[..|head|] == head && line[|line| - 1] == ';'
  {
    var sp := SpanOf(s);
    var head := tab + "ptr->" + s.name + " = (((" + Assemble(sp.byteStart, s.length, sp.byteEnd) + ")";
    var mask := if fixed then MaskSuffixFixed(sp.bitInByte, s.length) else MaskSuffix(sp.bitInByte, s.length);
    assert line == head + mask + ScaleSuffix(s.scale) + OffsetSuffix(s.offset) + ";";
    LineShape(head, mask, ScaleSuffix(s.scale), OffsetSuffix(s.offset));
  }

  /** A statement begins with its head and ends in `;`. */
  lemma LineShape(head: string, mask: string, scale: string, offset: string)
    ensures var line := head + mask + scale + offset + ";";
            |head| < |line| && line[..|head|] == head && line[|line| - 1] == ';'
  {
    var line := head + mask + scale + offset + ";";
    assert line == head + (mask + scale + offset + ";");
  }

  lemma ParserCLineBalance(tab: string, s: Signal, fixed: bool, line: string)
    requires line == if fixed then CLineFixed(tab, s) else CLine(tab, s)
    ensures PlainTexts(tab, s) ==> Balance(line) == if !fixed && EndsOnByte(s) then 1 else 0
  {
    if PlainTexts(tab, s) {
      if fixed {
        CLineFixedBalance(tab, s);
      } else {
        CLineBalance(tab, s);
      }
    }
  }

  /** The statements of one parser, one per emitted signal, in order. */
  function ParserCLines(tab: string, signals: seq<Signal>, fixed: bool): (r: seq<string>)
    ensures |r| == |signals|
    ensures forall i :: 0 <= i < |r| ==> |r[i]| > 0 && r[i][|r[i]| - 1] == ';'
    ensures forall i :: 0 <= i < |r| && PlainTexts(tab, signals[i]) ==>
              Balance(r[i]) == if !fixed && EndsOnByte(signals[i]) then 1 else 0
  {
    seq(|signals|, i requires 0 <= i < |signals| => ParserCLine(tab, signals[i], fixed))
  }

  /** The definition `export_parser_c` writes for one message. */
  function ParserLines(cfg: CConfig, msg: Message, signals: seq<Signal>, fixed: bool): seq<string>
  {
    [ParserSignature(cfg, msg) + " {", ""] + ParserCLines(cfg.tab, signals, fixed) + ["}", ""]
  }

  /** The generated files of one export. */
  datatype CFiles = CFiles(header: seq<string>, source: seq<string>)

  /** A message whose include entry is `1` and which has a signal: the
      generators' membership test `offset in 1` raises on it. */
  predicate EntryRaises(msg: Message, inc: Option<IncludeList>) {
    inc.Some? && Get(inc.value, msg.frameId) == Some(AllSignals) && msg.signals != []
  }

  /** The signals the generators write for a listed message. */
  function MessageSignals(msg: Message, inc: Option<IncludeList>, fixed: bool): (r: Result<seq<Signal>>)
    requires inc.None? || HasKey(inc.value, msg.frameId)
    ensures inc.None? ==> r == Ok(msg.signals)
    ensures r.Raise? <==> EntryRaises(msg, inc)
    ensures r.Raise? ==> r.error == TypeError
    ensures r.Ok? && !fixed && inc.Some? ==>
              var e := Get(inc.value, msg.frameId).value;
              e.Offsets? ==> ListedPrefix(msg.signals, e.positions, r.value)
  {
    CodeSignals(msg.signals, if inc.None? then None else Get(inc.value, msg.frameId), fixed)
  }

  /** Some message's include entry makes the signal filter raise. */
  predicate SomeListRaises(msgs: seq<Message>, inc: Option<IncludeList>) {
    exists i :: 0 <= i < |msgs| && EntryRaises(msgs[i], inc)
  }

  /** `export_to_struct` over the listed messages, in order. */
  function StructFile(cfg: CConfig, msgs: seq<Message>, inc: Option<IncludeList>, fixed: bool): (r: Result<seq<string>>)
    requires forall i :: 0 <= i < |msgs| ==> inc.None? || HasKey(inc.value, msgs[i].frameId)
    ensures r.Raise? <==> SomeListRaises(msgs, inc)
    ensures r.Raise? ==> r.error == TypeError
    ensures r.Ok? ==> r.value == Flatten(StructBlocks(cfg, msgs, inc, fixed))
    decreases |msgs|
  {
    if msgs == [] then Ok([])
    else
      var signals :- MessageSignals(msgs[0], inc, fixed);
      var rest :- StructFile(cfg, msgs[1..], inc, fixed);
      StructBlocksCons(cfg, msgs, inc, fixed);
      Ok(StructLines(cfg, msgs[0], signals, fixed) + rest)
  }

  /** The parser definitions for the listed messages, in order. */
  function ParserDefinitions(cfg: CConfig, msgs: seq<Message>, inc: Option<IncludeList>, fixed: bool): (r: Result<seq<string>>)
    requires forall i :: 0 <= i < |msgs| ==> inc.None? || HasKey(inc.value, msgs[i].frameId)
    ensures r.Raise? <==> SomeListRaises(msgs, inc)
    ensures r.Raise? ==> r.error == TypeError
    ensures r.Ok? ==> r.value == Flatten(ParserBlocks(cfg, msgs, inc, fixed))
    decreases |msgs|
  {
    if msgs == [] then Ok([])
    else
      var signals :- MessageSignals(msgs[0], inc, fixed);
      var rest :- ParserDefinitions(cfg, msgs[1..], inc, fixed);
      ParserBlocksCons(cfg, msgs, inc, fixed);
      Ok(ParserLines(cfg, msgs[0], signals, fixed) + rest)
  }

  /** `export_parser_c`: the header declares one parser per listed message,
      and the source defines them. */
  function ExportParser(cfg: CConfig, m: MessageMap, inc: Option<IncludeList>, fname: string, fixed: bool): (r: Result<CFiles>)
    ensures r.Raise? <==> SomeListRaises(ListedMessages(m, inc), inc)
    ensures inc.None? ==> r.Ok?
    ensures r.Ok? ==> var msgs := ListedMessages(m, inc);
            && |r.value.header| == |msgs| + 2
            && (forall i :: 0 <= i < |msgs| ==> r.value.header[i + 2] == ParserSignature(cfg, msgs[i]) + ";")
            && r.value.source == ["#include \"" + fname + ".h\"", ""] + Flatten(ParserBlocks(cfg, msgs, inc, fixed))
  {
    var msgs := ListedMessages(m, inc);
    var defs :- ParserDefinitions(cfg, msgs, inc, fixed);
    var declarations := seq(|msgs|, i requires 0 <= i < |msgs| => ParserSignature(cfg, msgs[i]) + ";");
    Ok(CFiles(["#include \"" + fname + "_messages.h\"", ""] + declarations,
              ["#include \"" + fname + ".h\"", ""] + defs))
  }

  /** `export_to_struct`: the structure file. */
  function ExportStruct(cfg: CConfig, m: MessageMap, inc: Option<IncludeList>, fixed: bool): (r: Result<seq<string>>)
    ensures r.Raise? <==> SomeListRaises(ListedMessages(m, inc), inc)
    ensures inc.None? ==> r.Ok?
    ensures r.Ok? ==> r.value == Flatten(StructBlocks(cfg, ListedMessages(m, inc), inc, fixed))
  {
    StructFile(cfg, ListedMessages(m, inc), inc, fixed)
  }

  // ------------------------------------------------------- file layout

  /** The lines of consecutive blocks, in order. */
  function Flatten(blocks: seq<seq<string>>): seq<string>
    decreases |blocks|
  {
    if blocks == [] then [] else blocks[0] + Flatten(blocks[1..])
  }

  lemma {:induction false} FlattenAppend(a: seq<seq<string>>, b: seq<seq<string>>)
    ensures Flatten(a + b) == Flatten(a) + Flatten(b)
    decreases |a|
  {
    if a == [] {
      assert a + b == b;
    } else {
      assert (a + b)[1..] == a[1..] + b;
      FlattenAppend(a[1..], b);
    }
  }

  /** Block `i` follows the lines of the blocks before it. */
  lemma FlattenBlock(blocks: seq<seq<string>>, i: nat)
    requires i < |blocks|
    ensures var k := |Flatten(blocks[..i])|;
            k + |blocks[i]| <= |Flatten(blocks)| && Flatten(blocks)[k..k + |blocks[i]|] == blocks[i]
  {
    assert blocks == blocks[..i] + ([blocks[i]] + blocks[i + 1..]);
    FlattenAppend(blocks[..i], [blocks[i]] + blocks[i + 1..]);
    FlattenAppend([blocks[i]], blocks[i + 1..]);
    assert Flatten([blocks[i]]) == blocks[i] + Flatten([]);
  }

  /** The lines a listed message contributes to the structure file;
      nothing when it is not listed or its entry makes the filter raise. */
  function StructBlock(cfg: CConfig, msg: Message, inc: Option<IncludeList>, fixed: bool): seq<string>
  {
    if inc.Some? && !HasKey(inc.value, msg.frameId) then []
    else
      var signals := MessageSignals(msg, inc, fixed);
      if signals.Ok? then StructLines(cfg, msg, signals.value, fixed) else []
  }

  /** The parser a listed message contributes to the source file. */
  function ParserBlock(cfg: CConfig, msg: Message, inc: Option<IncludeList>, fixed: bool): seq<string>
  {
    if inc.Some? && !HasKey(inc.value, msg.frameId) then []
    else
      var signals := MessageSignals(msg, inc, fixed);
      if signals.Ok? then ParserLines(cfg, msg, signals.value, fixed) else []
  }

  function StructBlocks(cfg: CConfig, msgs: seq<Message>, inc: Option<IncludeList>, fixed: bool): seq<seq<string>>
  {
    seq(|msgs|, i requires 0 <= i < |msgs| => StructBlock(cfg, msgs[i], inc, fixed))
  }

  function ParserBlocks(cfg: CConfig, msgs: seq<Message>, inc: Option<IncludeList>, fixed: bool): seq<seq<string>>
  {
    seq(|msgs|, i requires 0 <= i < |msgs| => ParserBlock(cfg, msgs[i], inc, fixed))
  }

  lemma StructBlocksCons(cfg: CConfig, msgs: seq<Message>, inc: Option<IncludeList>, fixed: bool)
    requires msgs != []
    ensures Flatten(StructBlocks(cfg, msgs, inc, fixed))
            == StructBlock(cfg, msgs[0], inc, fixed) + Flatten(StructBlocks(cfg, msgs[1..], inc, fixed))
  {
    var b := StructBlocks(cfg, msgs, inc, fixed);
    assert b[1..] == StructBlocks(cfg, msgs[1..], inc, fixed) by {
      forall j | 0 <= j < |msgs| - 1
        ensures b[1..][j] == StructBlocks(cfg, msgs[1..], inc, fixed)[j]
      {
        assert msgs[1..][j] == msgs[j + 1];
      }
    }
    FlattenCons(b, StructBlock(cfg, msgs[0], inc, fixed), StructBlocks(cfg, msgs[1..], inc, fixed));
  }

  lemma ParserBlocksCons(cfg: CConfig, msgs: seq<Message>, inc: Option<IncludeList>, fixed: bool)
    requires msgs != []
    ensures Flatten(ParserBlocks(cfg, msgs, inc, fixed))
            == ParserBlock(cfg, msgs[0], inc, fixed) + Flatten(ParserBlocks(cfg, msgs[1..], inc, fixed))
  {
    var b := ParserBlocks(cfg, msgs, inc, fixed);
    assert b[1..] == ParserBlocks(cfg, msgs[1..], inc, fixed) by {
      forall j | 0 <= j < |msgs| - 1
        ensures b[1..][j] == ParserBlocks(cfg, msgs[1..], inc, fixed)[j]
      {
        assert msgs[1..][j] == msgs[j + 1];
      }
    }
    FlattenCons(b, ParserBlock(cfg, msgs[0], inc, fixed), ParserBlocks(cfg, msgs[1..], inc, fixed));
  }

  lemma FlattenCons(blocks: seq<seq<string>>, head: seq<string>, rest: seq<seq<string>>)
    requires blocks != [] && blocks[0] == head && blocks[1..] == rest
    ensures Flatten(blocks) == head + Flatten(rest)
  {
  }

  /** When no entry raises, message `i` has its block in the structure file
      right after the lines of the messages before it: the `typedef struct`
      line, the fields of its written signals, and the closing line with
      the type's name. */
  lemma StructFileLayout(cfg: CConfig, msgs: seq<Message>, inc: Option<IncludeList>, fixed: bool, i: nat)
    requires forall j :: 0 <= j < |msgs| ==> inc.None? || HasKey(inc.value, msgs[j].frameId)
    requires !SomeListRaises(msgs, inc) && i < |msgs|
    ensures MessageSignals(msgs[i], inc, fixed).Ok?
    ensures StructBlockLaid(Flatten(StructBlocks(cfg, msgs, inc, fixed)),
                            |Flatten(StructBlocks(cfg, msgs, inc, fixed)[..i])|,
                            StructName(cfg, msgs[i]),
                            FieldLines(cfg, MessageSignals(msgs[i], inc, fixed).value, fixed))
  {
    assert MessageSignals(msgs[i], inc, fixed).Ok? by {
      assert !EntryRaises(msgs[i], inc);
    }
    var signals := MessageSignals(msgs[i], inc, fixed).value;
    StructBlockIs(cfg, msgs, inc, fixed, i);
    StructLaid(StructBlocks(cfg, msgs, inc, fixed), i, StructName(cfg, msgs[i]), FieldLines(cfg, signals, fixed));
  }

  lemma StructBlockIs(cfg: CConfig, msgs: seq<Message>, inc: Option<IncludeList>, fixed: bool, i: nat)
    requires forall j :: 0 <= j < |msgs| ==> inc.None? || HasKey(inc.value, msgs[j].frameId)
    requires i < |msgs| && MessageSignals(msgs[i], inc, fixed).Ok?
    ensures var signals := MessageSignals(msgs[i], inc, fixed).value;
            StructBlocks(cfg, msgs, inc, fixed)[i]
            == ["typedef struct " + StructName(cfg, msgs[i]) + "{"] + FieldLines(cfg, signals, fixed)
               + ["} " + StructName(cfg, msgs[i]) + "; ", ""]
  {
  }

  /** The structure block of type `name` with `fields` lies at `k`:
      `typedef struct name{`, the fields, `} name; ` and an empty line. */
  ghost predicate StructBlockLaid(lines: seq<string>, k: nat, name: string, fields: seq<string>)
  {
    && k + |fields| + 3 <= |lines|
    && lines[k] == "typedef struct " + name + "{"
    && lines[k + 1..k + 1 + |fields|] == fields
    && lines[k + 1 + |fields|] == "} " + name + "; "
    && lines[k + 2 + |fields|] == ""
  }

  /** The parser definition with prototype `sig` and statements `body`
      lies at `k`: `sig {`, an empty line, the statements, `}` and an
      empty line. */
  ghost predicate ParserBlockLaid(lines: seq<string>, k: nat, sig: string, body: seq<string>)
  {
    && k + |body| + 4 <= |lines|
    && lines[k] == sig + " {"
    && lines[k + 1] == ""
    && lines[k + 2..k + 2 + |body|] == body
    && lines[k + 2 + |body|] == "}"
    && lines[k + 3 + |body|] == ""
  }

  lemma StructLaid(blocks: seq<seq<string>>, i: nat, name: string, fields: seq<string>)
    requires i < |blocks|
    requires blocks[i] == ["typedef struct " + name + "{"] + fields + ["} " + name + "; ", ""]
    ensures StructBlockLaid(Flatten(blocks), |Flatten(blocks[..i])|, name, fields)
  {
    FlatBlockAt(blocks, i, ["typedef struct " + name + "{"], fields, ["} " + name + "; ", ""]);
  }

  lemma ParserLaid(blocks: seq<seq<string>>, i: nat, sig: string, body: seq<string>)
    requires i < |blocks|
    requires blocks[i] == [sig + " {", ""] + body + ["}", ""]
    ensures ParserBlockLaid(Flatten(blocks), |Flatten(blocks[..i])|, sig, body)
  {
    FlatBlockAt(blocks, i, [sig + " {", ""], body, ["}", ""]);
  }

  lemma ParserBlockIs(cfg: CConfig, msgs: seq<Message>, inc: Option<IncludeList>, fixed: bool, i: nat)
    requires forall j :: 0 <= j < |msgs| ==> inc.None? || HasKey(inc.value, msgs[j].frameId)
    requires i < |msgs| && MessageSignals(msgs[i], inc, fixed).Ok?
    ensures var signals := MessageSignals(msgs[i], inc, fixed).value;
            ParserBlocks(cfg, msgs, inc, fixed)[i]
            == [ParserSignature(cfg, msgs[i]) + " {", ""] + ParserCLines(cfg.tab, signals, fixed) + ["}", ""]
  {
  }

  /** Block `i`, made of `open + middle + close`, shows its three parts
      after the lines of the blocks before it. */
  lemma FlatBlockAt(blocks: seq<seq<string>>, i: nat, open: seq<string>, middle: seq<string>, close: seq<string>)
    requires i < |blocks| && blocks[i] == open + middle + close
    ensures var lines, k := Flatten(blocks), |Flatten(blocks[..i])|;
            && k + |open| + |middle| + |close| <= |lines|
            && (|open| > 0 ==> lines[k] == open[0])
            && (|open| > 1 ==> lines[k + 1] == open[1])
            && lines[k + |open|..k + |open| + |middle|] == middle
            && (|close| > 0 ==> lines[k + |open| + |middle|] == close[0])
            && (|close| > 1 ==> lines[k + |open| + |middle| + 1] == close[1])
  {
    FlattenBlock(blocks, i);
    BlockAt(Flatten(blocks), |Flatten(blocks[..i])|, blocks[i], open, middle, close);
  }

  /** A block `open + middle + close` laid at `k` shows its three parts. */
  lemma BlockAt(lines: seq<string>, k: nat, block: seq<string>, open: seq<string>, middle: seq<string>, close: seq<string>)
    requires block == open + middle + close
    requires k + |block| <= |lines| && lines[k..k + |block|] == block
    ensures |open| > 0 ==> lines[k] == open[0]
    ensures |open| > 1 ==> lines[k + 1] == open[1]
    ensures lines[k + |open|..k + |open| + |middle|] == middle
    ensures |close| > 0 ==> lines[k + |open| + |middle|] == close[0]
    ensures |close| > 1 ==> lines[k + |open| + |middle| + 1] == close[1]
  {
    assert forall j :: 0 <= j < |block| ==> lines[k + j] == block[j];
    var mid := lines[k + |open|..k + |open| + |middle|];
    forall j | 0 <= j < |middle|
      ensures mid[j] == middle[j]
    {
      assert mid[j] == lines[k + |open| + j] == block[|open| + j];
    }
    assert mid == middle;
    if |close| > 1 {
      assert lines[k + |open| + |middle| + 1] == block[|open| + |middle| + 1];
    }
  }

  /** When no entry raises, message `i` has its definition in the parser
      source right after those of the messages before it: the prototype
      opening the body, an empty line, one statement per written signal,
      and the closing brace. */
  lemma ParserDefinitionsLayout(cfg: CConfig, msgs: seq<Message>, inc: Option<IncludeList>, fixed: bool, i: nat)
    requires forall j :: 0 <= j < |msgs| ==> inc.None? || HasKey(inc.value, msgs[j].frameId)
    requires !SomeListRaises(msgs, inc) && i < |msgs|
    ensures MessageSignals(msgs[i], inc, fixed).Ok?
    ensures ParserBlockLaid(Flatten(ParserBlocks(cfg, msgs, inc, fixed)),
                            |Flatten(ParserBlocks(cfg, msgs, inc, fixed)[..i])|,
                            ParserSignature(cfg, msgs[i]),
                            ParserCLines(cfg.tab, MessageSignals(msgs[i], inc, fixed).value, fixed))
  {
    assert MessageSignals(msgs[i], inc, fixed).Ok? by {
      assert !EntryRaises(msgs[i], inc);
    }
    var signals := MessageSignals(msgs[i], inc, fixed).value;
    ParserBlockIs(cfg, msgs, inc, fixed, i);
    ParserLaid(ParserBlocks(cfg, msgs, inc, fixed), i, ParserSignature(cfg, msgs[i]), ParserCLines(cfg.tab, signals, fixed));
  }

  /** The three generated files agree: when the parser export is written,
      so is the structure file; every prototype the header declares opens
      a definition in the source; and the structure type its `ptr` argument
      names is defined in the structure file. */
  lemma ExportFilesAgree(cfg: CConfig, m: MessageMap, inc: Option<IncludeList>, fname: string, fixed: bool)
    requires ExportParser(cfg, m, inc, fname, fixed).Ok?
    ensures ExportStruct(cfg, m, inc, fixed).Ok?
    ensures var msgs := ListedMessages(m, inc);
            var files := ExportParser(cfg, m, inc, fname, fixed).value;
            var structs := ExportStruct(cfg, m, inc, fixed).value;
            forall i :: 0 <= i < |msgs| ==>
              && files.header[i + 2] == ParserSignature(cfg, msgs[i]) + ";"
              && (exists k :: 2 <= k < |files.source| && files.source[k] == ParserSignature(cfg, msgs[i]) + " {")
              && (exists k :: 0 <= k < |structs| && structs[k] == "typedef struct " + StructName(cfg, msgs[i]) + "{")
  {
    var msgs := ListedMessages(m, inc);
    forall i | 0 <= i < |msgs|
      ensures var files := ExportParser(cfg, m, inc, fname, fixed).value;
              exists k :: 2 <= k < |files.source| && files.source[k] == ParserSignature(cfg, msgs[i]) + " {"
      ensures var structs := ExportStruct(cfg, m, inc, fixed).value;
              exists k :: 0 <= k < |structs| && structs[k] == "typedef struct " + StructName(cfg, msgs[i]) + "{"
    {
      ExportFilesAgreeAt(cfg, m, inc, fname, fixed, i);
    }
  }

  lemma ExportFilesAgreeAt(cfg: CConfig, m: MessageMap, inc: Option<IncludeList>, fname: string, fixed: bool, i: nat)
    requires ExportParser(cfg, m, inc, fname, fixed).Ok? && i < |ListedMessages(m, inc)|
    ensures ExportStruct(cfg, m, inc, fixed).Ok?
    ensures var files := ExportParser(cfg, m, inc, fname, fixed).value;
            exists k :: 2 <= k < |files.source| && files.source[k] == ParserSignature(cfg, ListedMessages(m, inc)[i]) + " {"
    ensures var structs := ExportStruct(cfg, m, inc, fixed).value;
            exists k :: 0 <= k < |structs| && structs[k] == "typedef struct " + StructName(cfg, ListedMessages(m, inc)[i]) + "{"
  {
    var msgs := ListedMessages(m, inc);
    ParserDefinitionsLayout(cfg, msgs, inc, fixed, i);
    SourceDefines(ExportParser(cfg, m, inc, fname, fixed).value.source, ["#include \"" + fname + ".h\"", ""],
                  Flatten(ParserBlocks(cfg, msgs, inc, fixed)), |Flatten(ParserBlocks(cfg, msgs, inc, fixed)[..i])|,
                  ParserSignature(cfg, msgs[i]), ParserCLines(cfg.tab, MessageSignals(msgs[i], inc, fixed).value, fixed));
    StructFileLayout(cfg, msgs, inc, fixed, i);
    StructsDeclare(ExportStruct(cfg, m, inc, fixed).value, |Flatten(StructBlocks(cfg, msgs, inc, fixed)[..i])|,
                   StructName(cfg, msgs[i]), FieldLines(cfg, MessageSignals(msgs[i], inc, fixed).value, fixed));
  }

  lemma SourceDefines(source: seq<string>, head: seq<string>, lines: seq<string>, k: nat, sig: string, body: seq<string>)
    requires |head| == 2 && source == head + lines && ParserBlockLaid(lines, k, sig, body)
    ensures exists j :: 2 <= j < |source| && source[j] == sig + " {"
  {
    assert source[2 + k] == lines[k];
  }

  lemma StructsDeclare(lines: seq<string>, k: nat, name: string, fields: seq<string>)
    requires StructBlockLaid(lines, k, name, fields)
    ensures exists j :: 0 <= j < |lines| && lines[j] == "typedef struct " + name + "{"
  {
  }


  // ------------------------------------------------- lines of `yml/307.c`

  lemma SmallIntToString(d: nat)
    requires d < 10
    ensures IntToString(d) == [('0' as int + d) as char]
  {
  }

  lemma MaskLiteral(bit: int, length: int, m: string)
    requires |m| == 10 && m[..2] == "0b"
    requires forall i :: 2 <= i < 10 ==> (m[i] == '1' <==> bit <= i - 2 < bit + length)
    requires forall i :: 2 <= i < 10 ==> m[i] == '0' || m[i] == '1'
    ensures Bitmask(bit, length, 8) == m
  {
    var b := Bitmask(bit, length, 8);
    assert b[..2] == m[..2];
    forall i | 2 <= i < 10 ensures b[i] == m[i] {
      assert b[2..][i - 2] == b[i];
    }
  }

  /** `NUM_PROF_1` (start 7, 2 bits): the two top bits of byte 0, masked
      and shifted right by 6. */
  lemma NumProf1Line(tab: string)
    ensures var s := Signal("NUM_PROF_1", 7, 2, false, UnitScale, NoOffset);
            && SpanOf(s) == Span(0, 0, 0)
            && Assemble(0, 2, 0) == "msg->data[0]"
            && MaskSuffix(0, 2) == " & 0b11000000) >> 6"
            && CLine(tab, s) == tab + "ptr->NUM_PROF_1 = (((" + "msg->data[0]" + ") & 0b11000000) >> 6);"
  {
    var s := Signal("NUM_PROF_1", 7, 2, false, UnitScale, NoOffset);
    assert EndianTranslate(7) == 0;
    assert Read(0) == "msg->data[0]" by {
      SmallIntToString(0);
    }
    TopBitsMask();
    NumProf1Texts();
    StatementOf(tab, s, "msg->data[0]", " & 0b11000000) >> 6", "ptr->NUM_PROF_1 = (((", ") & 0b11000000) >> 6);");
  }

  /** The statement the generator writes for a signal whose byte read is
      `a` and whose mask suffix is `m`: the head up to `(((`, the read, and
      the closing text. */
  lemma StatementOf(tab: string, s: Signal, a: string, m: string, head: string, tail: string)
    requires Assemble(SpanOf(s).byteStart, s.length, SpanOf(s).byteEnd) == a
    requires MaskSuffix(SpanOf(s).bitInByte, s.length) == m
    requires "ptr->" + s.name + " = (((" == head
    requires ")" + m + ScaleSuffix(s.scale) + OffsetSuffix(s.offset) + ";" == tail
    ensures CLine(tab, s) == tab + head + a + tail
  {
    Regroup9(tab, "ptr->", s.name, " = (((", a, ")", m, ScaleSuffix(s.scale), OffsetSuffix(s.offset), ";");
  }

  lemma Regroup9(t: string, p: string, n: string, q: string, a: string, c: string, m: string, sc: string, o: string, e: string)
    ensures t + p + n + q + a + c + m + sc + o + e == t + (p + n + q) + a + (c + m + sc + o + e)
  {
  }

  lemma ReadZero()
    ensures Read(0) == "msg->data[0]"
  {
    SmallIntToString(0);
  }

  lemma TopBitsMask()
    ensures MaskSuffix(0, 2) == " & 0b11000000) >> 6"
  {
    MaskLiteral(0, 2, "0b11000000");
    SmallIntToString(6);
    assert MaskSuffix(0, 2) == " & " + "0b11000000" + (") >> " + "6");
  }

  lemma SpanAt(s: Signal, t: nat)
    requires EndianTranslate(s.start) == t && s.length >= 1
    ensures SpanOf(s) == Span(t / 8, (t + s.length - 1) / 8, t % 8)
  {
  }

  /** `NUM_MEM_C` (start 3, 4 bits): the low nibble of byte 0, where the
      written line leaves its parenthesis open. */
  lemma NumMemCLine()
    ensures var s := Signal("NUM_MEM_C", 3, 4, false, UnitScale, NoOffset);
            && SpanOf(s) == Span(0, 0, 4)
            && EndsOnByte(s)
            && MaskSuffix(4, 4) == " & 0b00001111"
            && MaskSuffixFixed(4, 4) == " & 0b00001111)"
  {
    SpanAt(Signal("NUM_MEM_C", 3, 4, false, UnitScale, NoOffset), 4);
    LowNibbleMask();
  }

  /** The whole `NUM_MEM_C` statement, with its parenthesis left open. */
  lemma NumMemCStatement(tab: string)
    ensures CLine(tab, Signal("NUM_MEM_C", 3, 4, false, UnitScale, NoOffset))
            == tab + "ptr->NUM_MEM_C = (((" + "msg->data[0]" + ") & 0b00001111);"
  {
    var s := Signal("NUM_MEM_C", 3, 4, false, UnitScale, NoOffset);
    assert SpanOf(s) == Span(0, 0, 4) by {
      SpanAt(s, 4);
    }
    assert MaskSuffix(4, 4) == " & 0b00001111" by {
      LowNibbleMask();
    }
    NumMemCFromParts(tab, s);
  }

  lemma NumMemCFromParts(tab: string, s: Signal)
    requires s == Signal("NUM_MEM_C", 3, 4, false, UnitScale, NoOffset)
    requires SpanOf(s) == Span(0, 0, 4)
    requires MaskSuffix(4, 4) == " & 0b00001111"
    ensures CLine(tab, s) == tab + "ptr->NUM_MEM_C = (((" + "msg->data[0]" + ") & 0b00001111);"
  {
    ReadZero();
    assert Assemble(0, 4, 0) == Read(0);
    NumMemCTexts();
    StatementOf(tab, s, "msg->data[0]", " & 0b00001111", "ptr->NUM_MEM_C = (((", ") & 0b00001111);");
  }

  lemma LowNibbleMask()
    ensures MaskSuffix(4, 4) == " & 0b00001111"
    ensures MaskSuffixFixed(4, 4) == " & 0b00001111)"
  {
    MaskLiteral(4, 4, "0b00001111");
    var m := Bitmask(4, 4, 8);
    assert MaskSuffix(4, 4) == " & " + m;
    assert MaskSuffixFixed(4, 4) == " & " + m + ")";
    assert m == "0b00001111";
    assert " & " + "0b00001111" == " & 0b00001111";
    assert " & " + "0b00001111" + ")" == " & 0b00001111)";
  }

  /** `VITM` (start 7, 16 bits): bytes 0 and 1, no mask. */
  lemma VitmLine(tab: string)
    ensures var s := Signal("VITM", 7, 16, false, ScaleText("0.125"), NoOffset);
            && SpanOf(s) == Span(0, 1, 0)
            && Assemble(0, 16, 1) == "msg->data[0] << 8 | msg->data[1]"
            && MaskSuffix(0, 16) + ScaleSuffix(s.scale) == ")) * 0.125"
            && CLine(tab, s) == tab + "ptr->VITM = (((" + "msg->data[0] << 8 | msg->data[1]" + "))) * 0.125;"
  {
    var s := Signal("VITM", 7, 16, false, ScaleText("0.125"), NoOffset);
    assert EndianTranslate(7) == 0;
    TwoByteTerms();
    assert MaskSuffix(0, 16) == ")";
    assert ")" + ") * 0.125" == ")) * 0.125";
    VitmTexts();
    StatementOf(tab, s, "msg->data[0] << 8 | msg->data[1]", ")", "ptr->VITM = (((", "))) * 0.125;");
  }

  lemma TwoByteTerms()
    ensures Assemble(0, 16, 1) == "msg->data[0] << 8 | msg->data[1]"
  {
    assert Term(0, 8) == "msg->data[0] << 8 | " by {
      SmallIntToString(0);
      SmallIntToString(8);
    }
    assert Read(1) == "msg->data[1]" by {
      SmallIntToString(1);
    }
    assert Assemble(0, 16, 1) == Term(0, 8) + Read(1);
  }

  /** `KM_TOTAL` (start 23, 24 bits): bytes 2 to 4, shifted by 16 and 8. */
  lemma KmTotalLine(tab: string)
    ensures var s := Signal("KM_TOTAL", 23, 24, false, ScaleText("0.1"), NoOffset);
            && SpanOf(s) == Span(2, 4, 0)
            && Assemble(2, 24, 4) == "msg->data[2] << 16 | msg->data[3] << 8 | msg->data[4]"
            && CLine(tab, s) == tab + "ptr->KM_TOTAL = (((" + "msg->data[2] << 16 | msg->data[3] << 8 | msg->data[4]" + "))) * 0.1;"
  {
    var s := Signal("KM_TOTAL", 23, 24, false, ScaleText("0.1"), NoOffset);
    assert EndianTranslate(23) == 16;
    ThreeByteAssemble();
    assert MaskSuffix(0, 24) == ")";
    KmTotalTexts();
    StatementOf(tab, s, "msg->data[2] << 16 | msg->data[3] << 8 | msg->data[4]", ")", "ptr->KM_TOTAL = (((", "))) * 0.1;");
  }

  lemma ThreeByteAssemble()
    ensures Assemble(2, 24, 4) == "msg->data[2] << 16 | msg->data[3] << 8 | msg->data[4]"
  {
    TwoByteAssemble();
    TopTerm();
    assert Assemble(2, 24, 4) == Term(2, 16) + Assemble(3, 16, 4);
    ThreeByteSpelt();
  }

  lemma ThreeByteSpelt()
    ensures "msg->data[2] << 16 | msg->data[3] << 8 | msg->data[4]"
            == "msg->data[2] << 16 | " + "msg->data[3] << 8 | msg->data[4]"
  {
  }

  lemma TopTerm()
    ensures Term(2, 16) == "msg->data[2] << 16 | "
  {
    SmallIntToString(2);
    assert IntToString(16) == "16" by {
      assert NatToString(16) == NatToString(1) + [DigitChar(6)];
    }
  }

  lemma TwoByteAssemble()
    ensures Assemble(3, 16, 4) == "msg->data[3] << 8 | msg->data[4]"
  {
    SmallIntToString(3);
    SmallIntToString(4);
    SmallIntToString(8);
    assert Read(4) == "msg->data[4]";
    assert Term(3, 8) == "msg->data[3] << 8 | ";
    assert Assemble(4, 8, 4) == Read(4);
  }

  /** `T_EXT` (start 47, 8 bits, scale 0.5, offset -40): byte 5, scaled and
      lowered by 40. */
  lemma TExtLine(tab: string)
    ensures var s := Signal("T_EXT", 47, 8, false, ScaleText("0.5"), MinusOffset("40"));
            && SpanOf(s) == Span(5, 5, 0)
            && MaskSuffix(0, 8) + ScaleSuffix(s.scale) + OffsetSuffix(s.offset) == ")) * 0.5 - 40"
            && CLine(tab, s) == tab + "ptr->T_EXT = (((" + "msg->data[5]" + "))) * 0.5 - 40;"
  {
    var s := Signal("T_EXT", 47, 8, false, ScaleText("0.5"), MinusOffset("40"));
    assert EndianTranslate(47) == 40;
    assert Read(5) == "msg->data[5]" by {
      SmallIntToString(5);
    }
    assert Assemble(5, 8, 5) == "msg->data[5]";
    TExtTexts();
    StatementOf(tab, s, "msg->data[5]", ")", "ptr->T_EXT = (((", "))) * 0.5 - 40;");
  }

  // The literal pieces of the yml/307.c statements.

  lemma NumProf1Texts()
    ensures "ptr->" + "NUM_PROF_1" + " = (((" == "ptr->NUM_PROF_1 = ((("
    ensures ")" + " & 0b11000000) >> 6" + ")" + "" + ";" == ") & 0b11000000) >> 6);"
  {
  }

  lemma NumMemCTexts()
    ensures "ptr->" + "NUM_MEM_C" + " = (((" == "ptr->NUM_MEM_C = ((("
    ensures ")" + " & 0b00001111" + ")" + "" + ";" == ") & 0b00001111);"
  {
  }

  lemma VitmTexts()
    ensures "ptr->" + "VITM" + " = (((" == "ptr->VITM = ((("
    ensures ")" + ")" + ") * 0.125" + "" + ";" == "))) * 0.125;"
  {
  }

  lemma KmTotalTexts()
    ensures "ptr->" + "KM_TOTAL" + " = (((" == "ptr->KM_TOTAL = ((("
    ensures ")" + ")" + ") * 0.1" + "" + ";" == "))) * 0.1;"
  {
  }

  lemma TExtTexts()
    ensures "ptr->" + "T_EXT" + " = (((" == "ptr->T_EXT = ((("
    ensures ")" + ")" + ") * 0.5" + " - 40" + ";" == "))) * 0.5 - 40;"
  {
  }

  /** `CONSO` (8 bits) gets a parser line but, as written, no structure
      field; the corrected choice gives it a byte. */
  lemma ConsoField(cfg: CConfig)
    ensures var s := Signal("CONSO", 55, 8, false, ScaleText("80"), NoOffset);
            && FieldLines(cfg, [s], false) == []
            && FieldLines(cfg, [s], true) == [cfg.tab + cfg.typeU8 + " CONSO;"]
            && |ParserCLines(cfg.tab, [s], false)| == 1
  {
    var s := Signal("CONSO", 55, 8, false, ScaleText("80"), NoOffset);
    assert FieldLine(cfg, s, Some(Bits8)) == Some(cfg.tab + cfg.typeU8 + " " + "CONSO" + ";");
    assert " " + "CONSO" + ";" == " CONSO;";
    assert cfg.tab + cfg.typeU8 + " " + "CONSO" + ";" == cfg.tab + cfg.typeU8 + (" " + "CONSO" + ";");
    assert FieldLines(cfg, [s], true) == [cfg.tab + cfg.typeU8 + " " + "CONSO" + ";"] + FieldLines(cfg, [], true);
  }
}

=== FILE: comments.dfy ===
/** The comment mini-codec of `oleomgr.py`.

  A comment is held either as a dict of named texts (`name_en`,
  `comment_en`, `comment_fr`, `src`, or any other key) or, in the DBC world,
  as one flat string `key:value;key:value;...`.  Encoding turns whatever is
  stored into a dict that always holds the four default keys; decoding turns
  a dict back into the flat string.
*/
module Comments {
  import opened Wrappers
  import opened Text
  import opened PyDict

  type CommentDict = Dict<string, string>

  /** What a signal's or message's `comment` attribute may hold. */
  datatype Comment = NoComment | Flat(text: string) | Structured(entries: CommentDict)

  /** The keys every encoded comment carries, in the order they are added. */
  const DefaultKeys: seq<string> := ["name_en", "comment_en", "comment_fr", "src"]

  // ------------------------------------------------------------------ encode

  /** `if k not in d: d[k] = ""`. */
  function SetDefault(d: CommentDict, k: string): (r: CommentDict)
    ensures HasKey(r, k)
    ensures HasKey(d, k) ==> r == d
    ensures !HasKey(d, k) ==> r == d + [(k, "")]
  {
    if HasKey(d, k) then d else Assign(d, k, "")
  }

  /** The four `if ... not in output` blocks that close `yml_comment_encode`. */
  function FillDefaults(d: CommentDict): (r: CommentDict)
    ensures forall k :: k in DefaultKeys ==> HasKey(r, k)
    ensures forall k :: k in Keys(d) ==> k in Keys(r)
  {
    SetDefault(SetDefault(SetDefault(SetDefault(d, "name_en"), "comment_en"), "comment_fr"), "src")
  }

  /** Filling in the defaults keeps every present value and sets each missing
      default key to the empty text. */
  lemma FillDefaultsGet(d: CommentDict, k: string)
    ensures Get(FillDefaults(d), k)
            == if HasKey(d, k) then Get(d, k) else if k in DefaultKeys then Some("") else None
  {
    var d1 := SetDefault(d, "name_en");
    var d2 := SetDefault(d1, "comment_en");
    var d3 := SetDefault(d2, "comment_fr");
    AssignGet(d, "name_en", "", k);
    AssignGet(d1, "comment_en", "", k);
    AssignGet(d2, "comment_fr", "", k);
    AssignGet(d3, "src", "", k);
  }

  /** A dict that already holds the four defaults is left as it is. */
  lemma FillDefaultsComplete(d: CommentDict)
    requires forall k :: k in DefaultKeys ==> HasKey(d, k)
    ensures FillDefaults(d) == d
  {
    assert HasKey(d, DefaultKeys[0]) && HasKey(d, DefaultKeys[1]);
    assert HasKey(d, DefaultKeys[2]) && HasKey(d, DefaultKeys[3]);
  }

  /** The `key:value` pairs of a flat comment, assigned in order; `false`
      when a segment without a colon raised `IndexError` (the pairs read
      before it are kept). */
  function ParsePairs(segments: seq<string>, acc: CommentDict): (r: (CommentDict, bool))
    ensures DistinctKeys(acc) ==> DistinctKeys(r.0)
    decreases |segments|
  {
    if segments == [] then (acc, true)
    else
      var parts := Split(segments[0], ':');
      if |parts| < 2 then (acc, false)
      else ParsePairs(segments[1..], Assign(acc, parts[0], parts[1]))
  }

  /** `yml_comment_encode(signal, src)`.  The bare `except: pass` swallows both
      the `TypeError` of `";" in None` and the `IndexError` of a segment
      without a colon, so encoding never fails. */
  function Encode(c: Comment, src: Option<string>): (r: CommentDict)
    ensures forall k :: k in DefaultKeys ==> HasKey(r, k)
    ensures c.Structured? && src.Some? ==> Get(r, "src") == src
    ensures c.NoComment? && src.Some? ==> Get(r, "src") == src
  {
    match c
    case Structured(d) =>
      var withSrc := if src.Some? then Assign(d, "src", src.value) else d;
      FillDefaultsGet(withSrc, "src");
      FillDefaults(withSrc)
    case NoComment =>
      var output := if src.Some? then [("src", src.value)] else [];
      FillDefaultsGet(output, "src");
      assert src.Some? ==> Get(output, "src") == src by {
        if src.Some? {
          assert Keys(output)[0] == "src";
        }
      }
      FillDefaults(output)
    case Flat(s) =>
      if ';' in s then
        var (pairs, complete) := ParsePairs(Split(s, ';'), []);
        FillDefaults(if complete && src.Some? then Assign(pairs, "src", src.value) else pairs)
      else
        FillDefaults([("comment_fr", s)])
  }

  /** A flat comment without a semicolon lands whole in `comment_fr`; the
      other defaults are empty. */
  lemma EncodePlainText(s: string, src: Option<string>)
    requires ';' !in s
    ensures Get(Encode(Flat(s), src), "comment_fr") == Some(s)
    ensures Get(Encode(Flat(s), src), "name_en") == Some("")
    ensures Get(Encode(Flat(s), src), "comment_en") == Some("")
    ensures Get(Encode(Flat(s), src), "src") == Some("")
  {
    var d: CommentDict := [("comment_fr", s)];
    assert Keys(d)[0] == "comment_fr";
    assert Keys(d) == ["comment_fr"];
    FillDefaultsGet(d, "comment_fr");
    FillDefaultsGet(d, "name_en");
    FillDefaultsGet(d, "comment_en");
    FillDefaultsGet(d, "src");
  }

  // ------------------------------------------------------------------ decode

  /** The `key:value` text of each entry, in order. */
  function PairTexts(d: CommentDict): (ts: seq<string>)
    ensures |ts| == |d|
  {
    seq(|d|, i requires 0 <= i < |d| => d[i].0 + ":" + d[i].1)
  }

  /** The loop of `yml_comment_decode`: `key:value;` for every entry. */
  function Terminated(d: CommentDict): string
  {
    if d == [] then "" else d[0].0 + ":" + d[0].1 + ";" + Terminated(d[1..])
  }

  lemma {:induction false} TerminatedJoin(d: CommentDict)
    ensures d != [] ==> Terminated(d) == Join(PairTexts(d), ";") + ";"
    ensures d == [] ==> Terminated(d) == ""
    decreases |d|
  {
    if |d| > 1 {
      TerminatedJoin(d[1..]);
      assert PairTexts(d)[1..] == PairTexts(d[1..]);
    }
  }

  /** `yml_comment_decode`: `None` and strings come back unchanged; a dict
      becomes its `key:value` texts joined by `;`. */
  function Decode(c: Comment): (r: Option<string>)
    ensures c.NoComment? ==> r == None
    ensures c.Flat? ==> r == Some(c.text)
    ensures c.Structured? ==> r == Some(Join(PairTexts(c.entries), ";"))
  {
    match c
    case NoComment => None
    case Flat(s) => Some(s)
    case Structured(d) =>
      var out := Terminated(d);
      TerminatedJoin(d);
      // `out[:-1]`, which is `""` for an empty `out`
      Some(if |out| == 0 then out else out[..|out| - 1])
  }

  // ------------------------------------------------------------- round trip

  /** A dict whose keys and values hold neither separator. */
  predicate Separable(d: CommentDict) {
    forall i :: 0 <= i < |d| ==> ':' !in d[i].0 && ':' !in d[i].1 && ';' !in d[i].0 && ';' !in d[i].1
  }

  /** One step of `ParsePairs` over the texts of a dict. */
  lemma ParsePairsStep(d: CommentDict, acc: CommentDict)
    requires d != [] && Separable(d) && !HasKey(acc, d[0].0)
    ensures ParsePairs(PairTexts(d), acc) == ParsePairs(PairTexts(d[1..]), acc + [d[0]])
  {
    var k, v := d[0].0, d[0].1;
    var segs := PairTexts(d);
    assert segs[0] == k + [':'] + v;
    SplitTwo(k, v, ':');
    assert segs[1..] == PairTexts(d[1..]);
    assert Assign(acc, k, v) == acc + [d[0]];
  }

  /** What the rest of a dict still satisfies after its first entry has
      been moved into the accumulator. */
  lemma ParsePairsTail(d: CommentDict, acc: CommentDict)
    requires d != [] && DistinctKeys(d) && Separable(d)
    requires forall i :: 0 <= i < |d| ==> !HasKey(acc, d[i].0)
    ensures DistinctKeys(d[1..]) && Separable(d[1..])
    ensures forall i :: 0 <= i < |d[1..]| ==> !HasKey(acc + [d[0]], d[1..][i].0)
    ensures (acc + [d[0]]) + d[1..] == acc + d
  {
    var acc' := acc + [d[0]];
    assert Keys(acc') == Keys(acc) + [d[0].0];
    forall i | 0 <= i < |d| - 1
      ensures !HasKey(acc', d[1..][i].0)
    {
      assert d[i + 1].0 != d[0].0;
      assert !HasKey(acc, d[i + 1].0);
    }
    assert d == [d[0]] + d[1..];
  }

  lemma {:induction false} ParsePairsOfTexts(d: CommentDict, acc: CommentDict)
    requires DistinctKeys(d) && Separable(d)
    requires forall i :: 0 <= i < |d| ==> !HasKey(acc, d[i].0)
    ensures ParsePairs(PairTexts(d), acc) == (acc + d, true)
    decreases |d|
  {
    if d != [] {
      ParsePairsStep(d, acc);
      ParsePairsTail(d, acc);
      ParsePairsOfTexts(d[1..], acc + [d[0]]);
    } else {
      assert PairTexts(d) == [];
      assert acc + d == acc;
    }
  }

  /** Decoding a dict of at least two separable entries and encoding the
      text again gives the dict back, with any missing default keys added. */
  lemma EncodeDecode(d: CommentDict)
    requires |d| >= 2 && DistinctKeys(d) && Separable(d)
    ensures Encode(Flat(Decode(Structured(d)).value), None) == FillDefaults(d)
  {
    var texts := PairTexts(d);
    var s := Join(texts, ";");
    assert Decode(Structured(d)).value == s;
    assert ';' in s && Split(s, ';') == texts by {
      SplitPairTexts(d);
    }
    assert ParsePairs(texts, []).0 == d by {
      ParsePairsOfTexts(d, []);
      assert [] + d == d;
    }
    EncodeFlatPairs(s, texts, d);
  }

  /** Without a `src`, a flat text holding a `;` encodes to the pairs read
      from its segments, defaults filled in. */
  lemma EncodeFlatPairs(s: string, texts: seq<string>, d: CommentDict)
    requires ';' in s && Split(s, ';') == texts && ParsePairs(texts, []).0 == d
    ensures Encode(Flat(s), None) == FillDefaults(d)
  {
  }

  /** The `;`-joined entries of a separable dict split back into them. */
  lemma SplitPairTexts(d: CommentDict)
    requires |d| >= 1 && Separable(d)
    ensures Split(Join(PairTexts(d), ";"), ';') == PairTexts(d)
  {
    var texts := PairTexts(d);
    forall i | 0 <= i < |texts|
      ensures ';' !in texts[i]
    {
      assert texts[i] == d[i].0 + ":" + d[i].1;
    }
    SplitOfJoin(texts, ';');
  }

  /** With all four defaults present the round trip is exact. */
  lemma EncodeDecodeExact(d: CommentDict)
    requires |d| >= 2 && DistinctKeys(d) && Separable(d)
    requires forall k :: k in DefaultKeys ==> HasKey(d, k)
    ensures Encode(Flat(Decode(Structured(d)).value), None) == d
  {
    EncodeDecode(d);
    FillDefaultsComplete(d);
  }

  /** A one-entry dict does not survive: its text has no `;`, so it is read
      back as a plain `comment_fr`. */
  lemma EncodeDecodeSingle(k: string, v: string)
    requires ';' !in k && ';' !in v
    ensures Get(Encode(Flat(Decode(Structured([(k, v)])).value), None), "comment_fr")
            == Some(k + ":" + v)
  {
    assert PairTexts([(k, v)]) == [k + ":" + v];
    EncodePlainText(k + ":" + v, None);
  }

  /** The dict a plain text encodes to: the text first, then the three other
      defaults, empty. */
  lemma EncodePlainTextOrder(s: string)
    requires ';' !in s
    ensures Encode(Flat(s), None)
            == [("comment_fr", s), ("name_en", ""), ("comment_en", ""), ("src", "")]
  {
    var d: CommentDict := [("comment_fr", s)];
    assert Keys(d) == ["comment_fr"];
    var d1 := SetDefault(d, "name_en");
    assert d1 == d + [("name_en", "")];
    assert Keys(d1) == ["comment_fr", "name_en"];
    var d2 := SetDefault(d1, "comment_en");
    assert d2 == d1 + [("comment_en", "")];
    assert Keys(d2) == ["comment_fr", "name_en", "comment_en"];
    var d3 := SetDefault(d2, "comment_fr");
    assert Keys(d2)[0] == "comment_fr";
    assert d3 == d2;
    assert SetDefault(d3, "src") == d2 + [("src", "")];
  }

  lemma PlainPairTexts(s: string)
    ensures PairTexts([("comment_fr", s), ("name_en", ""), ("comment_en", ""), ("src", "")])
            == ["comment_fr:" + s, "name_en:", "comment_en:", "src:"]
  {
    var texts := PairTexts([("comment_fr", s), ("name_en", ""), ("comment_en", ""), ("src", "")]);
    assert texts[0] == "comment_fr:" + s;
    assert texts[1] == "name_en:" && texts[2] == "comment_en:" && texts[3] == "src:";
  }

  /** Encoding a plain text and decoding the result does not give the text
      back: the three other default keys come along, empty. */
  lemma DecodeEncodePlain(s: string)
    requires ';' !in s
    ensures Decode(Structured(Encode(Flat(s), None)))
            == Some(Join(["comment_fr:" + s, "name_en:", "comment_en:", "src:"], ";"))
    ensures Decode(Structured(Encode(Flat(s), None))) != Some(s)
  {
    EncodePlainTextOrder(s);
    PlainPairTexts(s);
    var texts := ["comment_fr:" + s, "name_en:", "comment_en:", "src:"];
    assert Join(texts, ";") == texts[0] + ";" + Join(texts[1..], ";");
  }

  // ------------------------------------------------------------- get_comment

  /** `get_comment(comment, lang)`: the encoded comment's text under
      `lang`, or the empty text.  Of a dict comment that is the stored text,
      `""` for a key it lacks; of a plain text it is the text itself under
      `comment_fr` and `""` under any other key; of no comment, `""`. */
  function GetComment(c: Comment, lang: string): (r: string)
    ensures c.Structured? ==> r == if HasKey(c.entries, lang) then Get(c.entries, lang).value else ""
    ensures c.Flat? && ';' !in c.text ==> r == if lang == "comment_fr" then c.text else ""
    ensures c.NoComment? ==> r == ""
  {
    GetCommentCases(c, lang);
    LookupOrEmpty(Encode(c, None), lang)
  }

  lemma GetCommentCases(c: Comment, lang: string)
    ensures c.Structured? ==>
              LookupOrEmpty(Encode(c, None), lang) == if HasKey(c.entries, lang) then Get(c.entries, lang).value else ""
    ensures c.Flat? && ';' !in c.text ==>
              LookupOrEmpty(Encode(c, None), lang) == if lang == "comment_fr" then c.text else ""
    ensures c.NoComment? ==> LookupOrEmpty(Encode(c, None), lang) == ""
  {
    match c
    case Structured(d) =>
      FillDefaultsGet(d, lang);
    case NoComment =>
      FillDefaultsGet([], lang);
    case Flat(s) =>
      if ';' !in s {
        GetCommentFlat(s, lang);
      }
  }

  lemma GetCommentFlat(s: string, lang: string)
    requires ';' !in s
    ensures LookupOrEmpty(Encode(Flat(s), None), lang) == if lang == "comment_fr" then s else ""
  {
    if lang == "comment_fr" {
      EncodePlainText(s, None);
    } else {
      GetFlatOther(s, lang);
    }
  }

  /** Under any key but `comment_fr`, a plain comment holds nothing. */
  lemma GetFlatOther(s: string, lang: string)
    requires ';' !in s && lang != "comment_fr"
    ensures LookupOrEmpty(Encode(Flat(s), None), lang) == ""
  {
    var d: CommentDict := [("comment_fr", s)];
    EncodeFlatPlain(s);
    SingleKey("comment_fr", s, lang);
    MissingKeyEmpty(d, lang);
  }

  lemma SingleKey(k: string, v: string, lang: string)
    requires lang != k
    ensures !HasKey([(k, v)], lang)
  {
    assert Keys([(k, v)]) == [k];
  }

  /** A key the dict lacks reads as the empty text once the defaults are
      filled in. */
  lemma MissingKeyEmpty(d: CommentDict, lang: string)
    requires !HasKey(d, lang)
    ensures LookupOrEmpty(FillDefaults(d), lang) == ""
  {
    FillDefaultsGet(d, lang);
  }

  lemma EncodeFlatPlain(s: string)
    requires ';' !in s
    ensures Encode(Flat(s), None) == FillDefaults([("comment_fr", s)])
  {
  }

  /** The text under `k`, or the empty text. */
  function LookupOrEmpty(d: CommentDict, k: string): string
  {
    match Get(d, k)
    case Some(text) => text
    case None => ""
  }
}

=== FILE: crc.dfy ===
/** The checksum of the newer serial adapter (`crc8` in
  `source_handler.py`): the reflected CRC-8 with polynomial 0x8C known as
  the Dallas/Maxim 1-Wire CRC, computed bit by bit, and folded over the
  bytes of a packet.  Registers and bytes are `bv8`: every caller passes
  bytes, and the loop keeps the register a byte.
*/
module Crc {
  import opened Octets

  // ------------------------------------------------------------------- crc8

  /** The state of the `crc8` loop: the CRC register and the input bits
      not yet consumed.  Both stay bytes when both start as bytes. */
  datatype CrcState = CrcState(crc: bv8, extract: bv8)

  /** One pass of the loop: the low bits of register and input decide
      whether the polynomial 0x8C is folded in after the shift. */
  function Round(s: CrcState): CrcState
  {
    var sum := (s.crc ^ s.extract) & 1;
    var crc := s.crc >> 1;
    CrcState(if sum != 0 then crc ^ 0x8C else crc, s.extract >> 1)
  }

  function Rounds(s: CrcState, n: nat): CrcState
    decreases n
  {
    if n == 0 then s else Rounds(Round(s), n - 1)
  }

  /** The Dallas/Maxim register step: shift right, folding in 0x8C when the
      bit shifted out is set. */
  function Shift(x: bv8): bv8
  {
    if x & 1 != 0 then (x >> 1) ^ 0x8C else x >> 1
  }

  /** The standard byte-wise form of the reflected CRC-8 with polynomial
      0x8C: add the byte into the register, then shift eight times. */
  function Shift8(x: bv8): bv8
  {
    Shift(Shift(Shift(Shift(Shift(Shift(Shift(Shift(x))))))))
  }

  /** `crc8(crc, extract)`: eight passes of the loop.  The interleaved loop
      computes the standard byte-wise update, so only `crc ^ extract`
      matters. */
  function Crc8(crc: bv8, extract: bv8): (r: bv8)
    ensures r == Shift8(crc ^ extract)
  {
    LoopIsStandard(crc, extract);
    Rounds(CrcState(crc, extract), 8).crc
  }

  lemma LoopIsStandard(crc: bv8, extract: bv8)
    ensures Rounds(CrcState(crc, extract), 8).crc == Shift8(crc ^ extract)
  {
    var s := CrcState(crc, extract);
    var r := Rounds(s, 8);
    RoundsXor(s, 8);
    RoundsDrain(crc, extract, 8);
    DrainEight(extract);
    assert r.extract == 0;
    SumDrained(r);
    ShiftEight(Sum(s));
  }

  lemma SumDrained(r: CrcState)
    requires r.extract == 0
    ensures Sum(r) == r.crc
  {
  }

  /** `n` register steps. */
  function ShiftN(x: bv8, n: nat): bv8
    decreases n
  {
    if n == 0 then x else ShiftN(Shift(x), n - 1)
  }

  /** What the register would hold with the unread input added in. */
  function Sum(s: CrcState): bv8
  {
    s.crc ^ s.extract
  }

  /** The loop moves `crc ^ extract` as the plain register step does. */
  lemma {:induction false} RoundsXor(s: CrcState, n: nat)
    ensures Sum(Rounds(s, n)) == ShiftN(Sum(s), n)
    decreases n
  {
    if n > 0 {
      RoundXor(s);
      RoundsXor(Round(s), n - 1);
    }
  }

  /** One pass: the low bit of `crc ^ extract` is the bit the register
      step tests, and shifting both shifts their sum. */
  lemma RoundXor(s: CrcState)
    ensures Sum(Round(s)) == Shift(Sum(s))
  {
  }

  lemma ShiftEight(x: bv8)
    ensures ShiftN(x, 8) == Shift8(x)
  {
    var x1 := Shift(x);
    var x2 := Shift(x1);
    var x3 := Shift(x2);
    var x4 := Shift(x3);
    var x5 := Shift(x4);
    var x6 := Shift(x5);
    var x7 := Shift(x6);
    assert ShiftN(x, 8) == ShiftN(x1, 7) == ShiftN(x2, 6) == ShiftN(x3, 5) == ShiftN(x4, 4);
    assert ShiftN(x4, 4) == ShiftN(x5, 3) == ShiftN(x6, 2) == ShiftN(x7, 1) == Shift(x7);
  }

  /** `n` right shifts by one. */
  function DrainN(e: bv8, n: nat): bv8
    decreases n
  {
    if n == 0 then e else DrainN(e >> 1, n - 1)
  }

  /** The input bits are shifted out one per pass. */
  lemma {:induction false} RoundsDrain(c: bv8, e: bv8, n: nat)
    ensures Rounds(CrcState(c, e), n).extract == DrainN(e, n)
    decreases n
  {
    if n > 0 {
      var s := Round(CrcState(c, e));
      RoundsDrain(s.crc, s.extract, n - 1);
    }
  }

  lemma DrainEight(e: bv8)
    ensures DrainN(e, 8) == 0
  {
    var e1 := e >> 1;
    var e2 := e1 >> 1;
    var e3 := e2 >> 1;
    var e4 := e3 >> 1;
    var e5 := e4 >> 1;
    var e6 := e5 >> 1;
    var e7 := e6 >> 1;
    assert DrainN(e, 8) == DrainN(e1, 7) == DrainN(e2, 6) == DrainN(e3, 5) == DrainN(e4, 4);
    assert DrainN(e4, 4) == DrainN(e5, 3) == DrainN(e6, 2) == DrainN(e7, 1) == e7 >> 1;
  }

  /** Adding a byte into the CRC first and then updating with zero is the
      same update: only `crc ^ extract` is ever tested. */
  lemma Crc8Xor(crc: bv8, b: bv8)
    ensures Crc8(crc, b) == Crc8(crc ^ b, 0)
  {
  }

  /** The register step is linear over bit-wise exclusive or. */
  lemma ShiftLinear(x: bv8, y: bv8)
    ensures Shift(x ^ y) == Shift(x) ^ Shift(y)
  {
  }

  /** The register step loses nothing: the bit shifted out is told apart
      by the top bit, which only the polynomial sets. */
  lemma ShiftInjective(x: bv8, y: bv8)
    requires Shift(x) == Shift(y)
    ensures x == y
  {
  }

  lemma {:induction false} Shift8Injective(x: bv8, y: bv8)
    requires Shift8(x) == Shift8(y)
    ensures x == y
  {
    var x1, y1 := Shift(x), Shift(y);
    var x2, y2 := Shift(x1), Shift(y1);
    var x3, y3 := Shift(x2), Shift(y2);
    var x4, y4 := Shift(x3), Shift(y3);
    var x5, y5 := Shift(x4), Shift(y4);
    var x6, y6 := Shift(x5), Shift(y5);
    var x7, y7 := Shift(x6), Shift(y6);
    ShiftInjective(x7, y7);
    ShiftInjective(x6, y6);
    ShiftInjective(x5, y5);
    ShiftInjective(x4, y4);
    ShiftInjective(x3, y3);
    ShiftInjective(x2, y2);
    ShiftInjective(x1, y1);
    ShiftInjective(x, y);
  }

  /** For a fixed register, distinct input bytes give distinct CRCs, and
      for a fixed input byte, distinct registers do. */
  lemma Crc8Injective(c1: bv8, b1: bv8, c2: bv8, b2: bv8)
    requires Crc8(c1, b1) == Crc8(c2, b2)
    ensures c1 ^ b1 == c2 ^ b2
  {
    Shift8Injective(c1 ^ b1, c2 ^ b2);
  }

  /** `crc8` folded over bytes, first to last, as the reading thread does. */
  function Fold(crc: bv8, bytes: seq<bv8>): bv8
    decreases |bytes|
  {
    if bytes == [] then crc else Fold(Crc8(crc, bytes[0]), bytes[1..])
  }

  /** Changing any one byte changes the folded CRC: after the changed
      byte the registers differ, and the same later bytes keep them
      apart. */
  lemma {:induction false} FoldDetects(crc: bv8, a: seq<bv8>, b: seq<bv8>, k: nat)
    requires |a| == |b| && k < |a| && a[k] != b[k]
    requires forall j :: 0 <= j < |a| && j != k ==> a[j] == b[j]
    ensures Fold(crc, a) != Fold(crc, b)
    decreases |a|
  {
    var c1, c2 := Crc8(crc, a[0]), Crc8(crc, b[0]);
    assert Fold(crc, a) == Fold(c1, a[1..]);
    assert Fold(crc, b) == Fold(c2, b[1..]);
    if k == 0 {
      DistinctBytes(crc, a[0], b[0]);
      assert a[1..] == b[1..];
      FoldSeparates(c1, c2, a[1..]);
    } else {
      FoldDetects(c1, a[1..], b[1..], k - 1);
    }
  }

  lemma DistinctBytes(crc: bv8, x: bv8, y: bv8)
    requires x != y
    ensures Crc8(crc, x) != Crc8(crc, y)
  {
    if Crc8(crc, x) == Crc8(crc, y) {
      Crc8Injective(crc, x, crc, y);
      assert false;
    }
  }

  /** Distinct registers stay distinct over the same bytes. */
  lemma {:induction false} FoldSeparates(c1: bv8, c2: bv8, bytes: seq<bv8>)
    requires c1 != c2
    ensures Fold(c1, bytes) != Fold(c2, bytes)
    decreases |bytes|
  {
    if bytes != [] {
      var d1, d2 := Crc8(c1, bytes[0]), Crc8(c2, bytes[0]);
      if d1 == d2 {
        Crc8Injective(c1, bytes[0], c2, bytes[0]);
        assert false;
      }
      FoldSeparates(d1, d2, bytes[1..]);
    }
  }

  /** The check value of the Dallas/Maxim CRC-8 catalogue entry: the CRC of
      the ASCII digits "123456789" is 0xA1. */
  lemma Crc8CheckValue()
    ensures Fold(0, [0x31, 0x32, 0x33, 0x34, 0x35, 0x36, 0x37, 0x38, 0x39]) == 0xA1
  {
    assert Crc8(0x00, 0x31) == 0xE0;
    FoldStep(0x00, [0x31, 0x32, 0x33, 0x34, 0x35, 0x36, 0x37, 0x38, 0x39], 0xE0);
    assert Crc8(0xE0, 0x32) == 0xEB;
    FoldStep(0xE0, [0x32, 0x33, 0x34, 0x35, 0x36, 0x37, 0x38, 0x39], 0xEB);
    assert Crc8(0xEB, 0x33) == 0x95;
    FoldStep(0xEB, [0x33, 0x34, 0x35, 0x36, 0x37, 0x38, 0x39], 0x95);
    assert Crc8(0x95, 0x34) == 0xF1;
    FoldStep(0x95, [0x34, 0x35, 0x36, 0x37, 0x38, 0x39], 0xF1);
    assert Crc8(0xF1, 0x35) == 0xAB;
    FoldStep(0xF1, [0x35, 0x36, 0x37, 0x38, 0x39], 0xAB);
    assert Crc8(0xAB, 0x36) == 0xEC;
    FoldStep(0xAB, [0x36, 0x37, 0x38, 0x39], 0xEC);
    assert Crc8(0xEC, 0x37) == 0x77;
    FoldStep(0xEC, [0x37, 0x38, 0x39], 0x77);
    assert Crc8(0x77, 0x38) == 0x07;
    FoldStep(0x77, [0x38, 0x39], 0x07);
    assert Crc8(0x07, 0x39) == 0xA1;
    FoldStep(0x07, [0x39], 0xA1);
  }

  /** One step of the fold. */
  lemma FoldStep(crc: bv8, bytes: seq<bv8>, next: bv8)
    requires bytes != [] && Crc8(crc, bytes[0]) == next
    ensures Fold(crc, bytes) == Fold(next, bytes[1..])
  {
  }

}

=== FILE: format.dfy ===
/** The text `cantools` subcommands print for a decoded CAN frame
  (`cantools/subparsers/__utils__.py`): one entry per decoded signal, the
  message on one line or on several, the messages for frames that cannot
  be shown, and the composite name that keeps multiplexed variants apart.
  Decoding itself is done by `cantools` and enters here as a value.
*/
module Format {
  import opened Wrappers
  import opened Text

  /** A decoded signal value as `str()` shows it: a choice name, a plain
      string, or a number (its printed digits).  Only numbers get a unit. */
  datatype Value = Named(text: string) | Str(text: string) | Number(text: string)

  /** What the formatting reads of a signal's definition. */
  datatype SignalInfo = SignalInfo(name: string, unit: Option<string>, isMultiplexer: bool, initial: Option<string>)

  /** What the formatting reads of a message's definition. */
  datatype MessageInfo = MessageInfo(name: string, signals: seq<SignalInfo>, isContainer: bool)

  /** What `message.decode` gave: the decoded values by signal name, or the
      text of the exception it raised. */
  datatype Decoded = Values(values: map<string, Value>) | DecodeError(message: string)

  // ------------------------------------------------------- _format_signals

  /** `name: value`, followed by ` unit` when the signal has a unit and the
      value is a number. */
  function Entry(s: SignalInfo, v: Value): (e: string)
    ensures |s.name| + 2 + |v.text| <= |e|
    ensures e[..|s.name| + 2 + |v.text|] == s.name + ": " + v.text
    ensures |e| > |s.name| + 2 + |v.text| <==> s.unit.Some? && v.Number?
  {
    var plain := s.name + ": " + v.text;
    if s.unit.None? || !v.Number? then plain
    else
      assert (plain + " " + s.unit.value)[..|plain|] == plain;
      plain + " " + s.unit.value
  }

  /** `_format_signals`: one entry per signal of the message that was
      decoded, in the message's order; signals missing from the decoded
      values are skipped. */
  function FormatSignals(signals: seq<SignalInfo>, decoded: map<string, Value>): (r: seq<string>)
    ensures |r| <= |signals|
    ensures |r| == |signals| <==> forall i :: 0 <= i < |signals| ==> signals[i].name in decoded
    ensures |r| == 0 <==> forall i :: 0 <= i < |signals| ==> signals[i].name !in decoded
  {
    if signals == [] then []
    else
      var s := signals[0];
      var head := if s.name in decoded then [Entry(s, decoded[s.name])] else [];
      assert forall i :: 1 <= i < |signals| ==> signals[i] == signals[1..][i - 1];
      head + FormatSignals(signals[1..], decoded)
  }

  /** Formatting a message's signals in two runs gives the two runs'
      entries one after the other. */
  lemma {:induction false} FormatSignalsAppend(a: seq<SignalInfo>, b: seq<SignalInfo>, decoded: map<string, Value>)
    ensures FormatSignals(a + b, decoded) == FormatSignals(a, decoded) + FormatSignals(b, decoded)
    decreases |a|
  {
    if a != [] {
      assert a + b != [] && (a + b)[0] == a[0] && (a + b)[1..] == a[1..] + b;
      FormatSignalsAppend(a[1..], b, decoded);
      var s := a[0];
      var head := if s.name in decoded then [Entry(s, decoded[s.name])] else [];
      assert FormatSignals(a + b, decoded) == head + FormatSignals(a[1..] + b, decoded);
      assert FormatSignals(a, decoded) == head + FormatSignals(a[1..], decoded);
    } else {
      assert a + b == b;
    }
  }

  /** When every signal was decoded, entry `i` is signal `i`'s. */
  lemma {:induction false} FormatSignalsComplete(signals: seq<SignalInfo>, decoded: map<string, Value>)
    requires forall i :: 0 <= i < |signals| ==> signals[i].name in decoded
    ensures |FormatSignals(signals, decoded)| == |signals|
    ensures forall i :: 0 <= i < |signals| ==>
              FormatSignals(signals, decoded)[i] == Entry(signals[i], decoded[signals[i].name])
    decreases |signals|
  {
    if signals != [] {
      var rest := signals[1..];
      FormatSignalsComplete(rest, decoded);
      var head := [Entry(signals[0], decoded[signals[0].name])];
      var r := FormatSignals(signals, decoded);
      assert r == head + FormatSignals(rest, decoded);
      forall i | 1 <= i < |signals|
        ensures r[i] == Entry(signals[i], decoded[signals[i].name])
      {
        assert r[i] == FormatSignals(rest, decoded)[i - 1];
        assert signals[i] == rest[i - 1];
      }
    }
  }

  /** Decoded values for names that are not signals of the message change
      nothing. */
  lemma {:induction false} FormatSignalsIgnoresOthers(signals: seq<SignalInfo>, decoded: map<string, Value>, k: string, v: Value)
    requires forall i :: 0 <= i < |signals| ==> signals[i].name != k
    ensures FormatSignals(signals, decoded[k := v]) == FormatSignals(signals, decoded)
    decreases |signals|
  {
    if signals != [] {
      assert forall i :: 1 <= i < |signals| ==> signals[i] == signals[1..][i - 1];
      FormatSignalsIgnoresOthers(signals[1..], decoded, k, v);
    }
  }

  // ------------------------------------------------------------ one line

  /** `_format_message_single_line`: ` name(entry, entry, …)`. */
  function SingleLine(name: string, entries: seq<string>): (r: string)
    ensures |r| == |name| + 3 + |Join(entries, ", ")|
    ensures r[..|name| + 2] == " " + name + "(" && r[|r| - 1] == ')'
  {
    var r := " " + name + "(" + Join(entries, ", ") + ")";
    assert r[..|name| + 2] == " " + name + "(";
    r
  }

  /** Each piece prefixed with `p`. */
  function Prefixed(xs: seq<string>, p: string): (r: seq<string>)
    ensures |r| == |xs|
    ensures forall i :: 0 <= i < |xs| ==> |r[i]| == |p| + |xs[i]| && r[i][..|p|] == p && r[i][|p|..] == xs[i]
  {
    seq(|xs|, i requires 0 <= i < |xs| => p + xs[i])
  }

  /** `", ".join` is `",".join` with a space in front of every piece but
      the first. */
  lemma {:induction false} JoinCommaSpace(xs: seq<string>)
    requires |xs| >= 1
    ensures " " + Join(xs, ", ") == Join(Prefixed(xs, " "), ",")
    decreases |xs|
  {
    if |xs| > 1 {
      JoinCommaSpace(xs[1..]);
      assert Prefixed(xs, " ")[1..] == Prefixed(xs[1..], " ");
      assert " " + Join(xs, ", ") == (" " + xs[0]) + "," + (" " + Join(xs[1..], ", "));
    }
  }

  /** The text between the parentheses of a one-line message, cut at the
      commas, gives the entries back, all but the first behind one space,
      provided no entry holds a comma. */
  lemma SingleLineEntries(name: string, entries: seq<string>)
    requires |entries| >= 1
    requires forall i :: 0 <= i < |entries| ==> ',' !in entries[i]
    ensures var r := SingleLine(name, entries);
            Split(r[|name| + 2 .. |r| - 1], ',') == [entries[0]] + Prefixed(entries[1..], " ")
  {
    var r := SingleLine(name, entries);
    var inner := Join(entries, ", ");
    assert r[|name| + 2 .. |r| - 1] == inner;
    var parts := [entries[0]] + Prefixed(entries[1..], " ");
    if |entries| > 1 {
      JoinCommaSpace(entries[1..]);
      assert inner == entries[0] + "," + Join(Prefixed(entries[1..], " "), ",");
      assert parts[1..] == Prefixed(entries[1..], " ");
      assert inner == Join(parts, ",");
    } else {
      assert inner == Join(parts, ",");
    }
    forall k | 0 <= k < |parts|
      ensures ',' !in parts[k]
    {
      if k > 0 {
        assert parts[k] == " " + entries[k];
      }
    }
    SplitOfJoin(parts, ',');
  }

  // ---------------------------------------------------------- several lines

  /** `_format_message_multi_line`: a newline, `name(`, the entries four
      spaces in, one per line with a comma after all but the last, and a
      closing parenthesis on its own line; no newline at the end. */
  function MultiLine(name: string, entries: seq<string>): (r: string)
    ensures |r| >= |name| + 5 && r[0] == '\n' && r[|r| - 2..] == "\n)"
  {
    "\n" + name + "(\n" + Join(Prefixed(entries, "    "), ",\n") + "\n)"
  }

  /** The pieces of `(mark + sep).join(xs)` between the `sep`s: `mark`
      ends all but the last. */
  function Terminated(xs: seq<string>, mark: string): (r: seq<string>)
    ensures |r| == if xs == [] then 1 else |xs|
    ensures forall i :: 0 <= i < |xs| - 1 ==> r[i] == xs[i] + mark
    ensures xs != [] ==> r[|xs| - 1] == xs[|xs| - 1]
    decreases |xs|
  {
    if xs == [] then [""]
    else if |xs| == 1 then xs
    else [xs[0] + mark] + Terminated(xs[1..], mark)
  }

  lemma {:induction false} JoinTerminated(xs: seq<string>, mark: string, sep: string)
    ensures Join(xs, mark + sep) == Join(Terminated(xs, mark), sep)
    decreases |xs|
  {
    if |xs| > 1 {
      JoinTerminated(xs[1..], mark, sep);
      var tail := Terminated(xs[1..], mark);
      JoinCons(xs[0] + mark, tail, sep);
      JoinCons(xs[0], xs[1..], mark + sep);
      assert xs == [xs[0]] + xs[1..];
    } else if xs == [] {
      assert Terminated(xs, mark) == [""];
    } else {
      assert Terminated(xs, mark) == xs;
    }
  }

  /** Joining two non-empty runs puts one separator between them. */
  lemma {:induction false} JoinAppend(a: seq<string>, b: seq<string>, sep: string)
    requires |a| >= 1 && |b| >= 1
    ensures Join(a + b, sep) == Join(a, sep) + sep + Join(b, sep)
    decreases |a|
  {
    if |a| > 1 {
      assert (a + b)[1..] == a[1..] + b;
      JoinAppend(a[1..], b, sep);
    } else {
      assert (a + b)[1..] == b;
    }
  }

  /** The lines of a multi-line message: an empty one, `name(`, the
      indented entries with their commas (a single empty line when there
      are none), and `)`; provided no name or entry holds a newline. */
  function MessageLines(name: string, entries: seq<string>): seq<string>
  {
    ["", name + "("] + Terminated(Prefixed(entries, "    "), ",") + [")"]
  }

  lemma MultiLineLines(name: string, entries: seq<string>)
    requires '\n' !in name
    requires forall i :: 0 <= i < |entries| ==> '\n' !in entries[i]
    ensures Split(MultiLine(name, entries), '\n') == MessageLines(name, entries)
  {
    var indented := Prefixed(entries, "    ");
    var lines := MessageLines(name, entries);
    MultiLineIsJoin(name, entries);
    assert forall i :: 0 <= i < |indented| ==> '\n' !in indented[i] by {
      forall i | 0 <= i < |indented|
        ensures '\n' !in indented[i]
      {
        assert indented[i] == "    " + entries[i];
      }
    }
    TerminatedNoNewline(indented);
    assert forall k :: 0 <= k < |lines| ==> '\n' !in lines[k];
    SplitOfJoin(lines, '\n');
  }

  lemma MultiLineIsJoin(name: string, entries: seq<string>)
    ensures MultiLine(name, entries) == Join(MessageLines(name, entries), "\n")
  {
    var body := Terminated(Prefixed(entries, "    "), ",");
    JoinTerminated(Prefixed(entries, "    "), ",", "\n");
    assert ",\n" == "," + "\n";
    assert MessageLines(name, entries) == [""] + ([name + "("] + (body + [")"]));
    FramedJoin(name, body);
  }

  /** Joining the empty line, `name(`, a non-empty body and `)` at
      newlines frames the joined body. */
  lemma FramedJoin(name: string, body: seq<string>)
    requires |body| >= 1
    ensures Join([""] + ([name + "("] + (body + [")"])), "\n")
            == "\n" + name + "(\n" + Join(body, "\n") + "\n)"
  {
    JoinAppend(body, [")"], "\n");
    JoinCons(name + "(", body + [")"], "\n");
    JoinCons("", [name + "("] + (body + [")"]), "\n");
    assert "(\n" == "(" + "\n" && "\n)" == "\n" + ")";
    Regroup("\n", name, "(", Join(body, "\n"), ")");
  }

  lemma Regroup(nl: string, a: string, op: string, j: string, cl: string)
    ensures nl + a + (op + nl) + j + (nl + cl) == "" + nl + ((a + op) + nl + (j + nl + cl))
  {
  }

  lemma TerminatedNoNewline(xs: seq<string>)
    requires forall i :: 0 <= i < |xs| ==> '\n' !in xs[i]
    ensures forall k :: 0 <= k < |Terminated(xs, ",")| ==> '\n' !in Terminated(xs, ",")[k]
  {
    var r := Terminated(xs, ",");
    forall k | 0 <= k < |r|
      ensures '\n' !in r[k]
    {
      if xs == [] {
        assert r[k] == "";
      } else if k < |xs| - 1 {
        assert r[k] == xs[k] + ",";
      }
    }
  }

  // --------------------------------------------------- format_message

  /** `format_message`: a decoding failure is shown as its text behind a
      space; otherwise the entries, on one line or several. */
  function FormatMessage(msg: MessageInfo, decoded: Decoded, singleLine: bool): (r: string)
    ensures decoded.DecodeError? ==> r == " " + decoded.message
    ensures decoded.Values? && singleLine ==>
              var entries := FormatSignals(msg.signals, decoded.values);
              && |r| >= |msg.name| + 3 && r[..|msg.name| + 2] == " " + msg.name + "(" && r[|r| - 1] == ')'
              && (entries == [] ==> r == " " + msg.name + "()")
              && (entries != [] && (forall i :: 0 <= i < |entries| ==> ',' !in entries[i]) ==>
                    Split(r[|msg.name| + 2 .. |r| - 1], ',') == [entries[0]] + Prefixed(entries[1..], " "))
    ensures decoded.Values? && !singleLine && '\n' !in msg.name ==>
              var entries := FormatSignals(msg.signals, decoded.values);
              (forall i :: 0 <= i < |entries| ==> '\n' !in entries[i]) ==>
                Split(r, '\n') == MessageLines(msg.name, entries)
  {
    match decoded
    case DecodeError(m) => " " + m
    case Values(vals) =>
      var entries := FormatSignals(msg.signals, vals);
      if singleLine then
        SingleLineShape(msg.name, entries);
        SingleLine(msg.name, entries)
      else
        MultiLineShape(msg.name, entries);
        MultiLine(msg.name, entries)
  }

  lemma SingleLineShape(name: string, entries: seq<string>)
    ensures var r := SingleLine(name, entries);
            && |r| >= |name| + 3 && r[..|name| + 2] == " " + name + "(" && r[|r| - 1] == ')'
            && (entries == [] ==> r == " " + name + "()")
            && (entries != [] && (forall i :: 0 <= i < |entries| ==> ',' !in entries[i]) ==>
                  Split(r[|name| + 2 .. |r| - 1], ',') == [entries[0]] + Prefixed(entries[1..], " "))
  {
    if entries == [] {
      assert Join(entries, ", ") == "";
    } else if forall i :: 0 <= i < |entries| ==> ',' !in entries[i] {
      SingleLineEntries(name, entries);
    }
  }

  lemma MultiLineShape(name: string, entries: seq<string>)
    ensures '\n' !in name && (forall i :: 0 <= i < |entries| ==> '\n' !in entries[i]) ==>
              Split(MultiLine(name, entries), '\n') == MessageLines(name, entries)
  {
    if '\n' !in name && forall i :: 0 <= i < |entries| ==> '\n' !in entries[i] {
      MultiLineLines(name, entries);
    }
  }

  /** What is shown for a frame: a line of text, or the listing of a
      container message's contents. */
  datatype Shown = Line(text: string) | ContainerListing

  function UnknownFrameText(frameId: nat): string
  {
    " Unknown frame id " + NatToString(frameId) + " (0x" + HexDigits(frameId, false) + ")"
  }

  function ContainerText(frameId: nat): string
  {
    " Frame 0x" + HexDigits(frameId, false) + " is a container message"
  }

  /** `format_message_by_frame_id`: a frame id the database does not know
      and a container frame when containers are not decoded each get a
      fixed message naming the id; any other frame is formatted. */
  function FormatByFrameId(found: Option<MessageInfo>, frameId: nat, decoded: Decoded,
                           singleLine: bool, decodeContainers: bool): (r: Shown)
    ensures found.None? ==> r == Line(UnknownFrameText(frameId))
    ensures r.ContainerListing? <==> found.Some? && found.value.isContainer && decodeContainers
    ensures found.Some? && found.value.isContainer && !decodeContainers ==> r == Line(ContainerText(frameId))
    ensures found.Some? && !found.value.isContainer ==> r == Line(FormatMessage(found.value, decoded, singleLine))
  {
    match found
    case None => Line(UnknownFrameText(frameId))
    case Some(msg) =>
      if msg.isContainer then
        if decodeContainers then ContainerListing else Line(ContainerText(frameId))
      else Line(FormatMessage(msg, decoded, singleLine))
  }

  lemma HexDigitsNoSpace(n: nat)
    ensures ' ' !in HexDigits(n, false)
  {
    var h := HexDigits(n, false);
    assert forall j :: 0 <= j < |h| ==> IsHexDigit(h[j]);
  }

  lemma ParseHexPrefixed(n: nat)
    ensures ParseHex("0x" + HexDigits(n, false)) == Some(n)
  {
    ParseHexOfFormatHex(n, 0, false);
    assert FormatHex(n, 0, false) == HexDigits(n, false);
  }

  /** Both numbers in the unknown-id message, read back as decimal and as
      `0x` hexadecimal, give the frame id. */
  lemma UnknownFrameReadBack(frameId: nat)
    ensures var parts := Split(UnknownFrameText(frameId), ' ');
            |parts| == 6 && ParseDecimal(parts[4]) == Some(frameId) &&
            |parts[5]| >= 2 && ParseHex(parts[5][1..|parts[5]| - 1]) == Some(frameId)
  {
    var dec, hex := NatToString(frameId), HexDigits(frameId, false);
    var last := "(0x" + hex + ")";
    var parts := Split(UnknownFrameText(frameId), ' ');
    UnknownFrameWords(frameId);
    ParseDecimalOfNatToString(frameId);
    InParentheses(hex);
    ParseHexPrefixed(frameId);
  }

  lemma UnknownFrameWords(frameId: nat)
    ensures Split(UnknownFrameText(frameId), ' ')
            == ["", "Unknown", "frame", "id", NatToString(frameId), "(0x" + HexDigits(frameId, false) + ")"]
  {
    var last := "(0x" + HexDigits(frameId, false) + ")";
    NatToStringNoSeparator(frameId, ' ');
    HexDigitsNoSpace(frameId);
    assert ' ' !in last;
    UnknownTextJoined(frameId);
    SplitOfJoin(["", "Unknown", "frame", "id", NatToString(frameId), last], ' ');
  }

  lemma UnknownTextJoined(frameId: nat)
    ensures UnknownFrameText(frameId)
            == Join(["", "Unknown", "frame", "id", NatToString(frameId), "(0x" + HexDigits(frameId, false) + ")"], " ")
  {
    var parts := ["", "Unknown", "frame", "id", NatToString(frameId), "(0x" + HexDigits(frameId, false) + ")"];
    JoinSix(parts, " ");
    UnknownWordsSpelt();
  }

  lemma UnknownWordsSpelt()
    ensures " Unknown frame id " == "" + " " + "Unknown" + " " + "frame" + " " + "id" + " "
    ensures " (0x" == " " + "(0x"
  {
  }

  /** Six words joined, written out. */
  lemma JoinSix(ws: seq<string>, sep: string)
    requires |ws| == 6
    ensures Join(ws, sep) == ws[0] + sep + ws[1] + sep + ws[2] + sep + ws[3] + sep + ws[4] + sep + ws[5]
  {
    JoinFrom(ws, 4, sep);
    JoinFrom(ws, 3, sep);
    JoinFrom(ws, 2, sep);
    JoinFrom(ws, 1, sep);
    JoinFrom(ws, 0, sep);
    assert Join(ws[5..], sep) == ws[5];
    assert ws[0..] == ws;
    NestedSix(ws[0], ws[1], ws[2], ws[3], ws[4], ws[5], sep);
  }

  /** One step of the join from position `i` on. */
  lemma JoinFrom(ws: seq<string>, i: nat, sep: string)
    requires i + 1 < |ws|
    ensures Join(ws[i..], sep) == ws[i] + sep + Join(ws[i + 1..], sep)
  {
    assert ws[i..][1..] == ws[i + 1..];
  }

  lemma NestedSix(a: string, b: string, c: string, d: string, e: string, f: string, sep: string)
    ensures a + sep + (b + sep + (c + sep + (d + sep + (e + sep + f))))
            == a + sep + b + sep + c + sep + d + sep + e + sep + f
  {
  }

  lemma InParentheses(hex: string)
    ensures var last := "(0x" + hex + ")";
            |last| == |hex| + 4 && last[1..|last| - 1] == "0x" + hex
  {
    var last := "(0x" + hex + ")";
    assert "(0x" == "(" + "0x";
    assert last == "(" + ("0x" + hex) + ")";
  }

  /** The container message names the frame id in `0x` hexadecimal as its
      third word. */
  lemma ContainerReadBack(frameId: nat)
    ensures var parts := Split(ContainerText(frameId), ' ');
            |parts| == 7 && parts[0] == "" && parts[1] == "Frame" && ParseHex(parts[2]) == Some(frameId) &&
            parts[3] == "is" && parts[4] == "a" && parts[5] == "container" && parts[6] == "message"
  {
    ContainerWords(frameId);
    ParseHexPrefixed(frameId);
  }

  lemma ContainerWords(frameId: nat)
    ensures Split(ContainerText(frameId), ' ')
            == ["", "Frame", "0x" + HexDigits(frameId, false), "is", "a", "container", "message"]
  {
    var hex := "0x" + HexDigits(frameId, false);
    HexDigitsNoSpace(frameId);
    assert ' ' !in hex;
    var parts := ["", "Frame", hex, "is", "a", "container", "message"];
    ContainerTextJoined(frameId);
    SplitOfJoin(parts, ' ');
  }

  lemma ContainerTextJoined(frameId: nat)
    ensures ContainerText(frameId) == Join(["", "Frame", "0x" + HexDigits(frameId, false), "is", "a", "container", "message"], " ")
  {
    var parts := ["", "Frame", "0x" + HexDigits(frameId, false), "is", "a", "container", "message"];
    JoinSeven(parts, " ");
    ContainerWordsSpelt();
    Regroup7("", " ", "Frame", "0x", HexDigits(frameId, false), "is", "a", "container", "message");
  }

  /** Seven words joined by `s`, the third of them `p + h`, regrouped
      around `h`. */
  lemma Regroup7(x0: string, s: string, x1: string, p: string, h: string, w3: string, w4: string, w5: string, w6: string)
    ensures x0 + s + x1 + s + (p + h) + s + w3 + s + w4 + s + w5 + s + w6
            == (x0 + s + x1 + s + p) + h + (s + w3 + s + w4 + s + w5 + s + w6)
  {
  }

  lemma ContainerWordsSpelt()
    ensures " Frame 0x" == "" + " " + "Frame" + " " + "0x"
    ensures " is a container message" == " " + "is" + " " + "a" + " " + "container" + " " + "message"
  {
  }

  /** Seven words joined, written out. */
  lemma JoinSeven(ws: seq<string>, sep: string)
    requires |ws| == 7
    ensures Join(ws, sep) == ws[0] + sep + ws[1] + sep + ws[2] + sep + ws[3] + sep + ws[4] + sep + ws[5] + sep + ws[6]
  {
    JoinSix(ws[1..], sep);
    assert Join(ws, sep) == ws[0] + sep + Join(ws[1..], sep);
  }

  // ---------------------------------------------- format_multiplexed_name

  /** The multiplexer signals of a message, in its order. */
  function Multiplexers(signals: seq<SignalInfo>): (r: seq<SignalInfo>)
    ensures |r| <= |signals|
    ensures forall k :: 0 <= k < |r| ==> r[k].isMultiplexer && r[k] in signals
    decreases |signals|
  {
    if signals == [] then []
    else (if signals[0].isMultiplexer then [signals[0]] else []) + Multiplexers(signals[1..])
  }

  /** The text a multiplexer contributes: its decoded value, else its
      initial value, else `0`. */
  function MuxPart(s: SignalInfo, decoded: map<string, Value>): string
  {
    if s.name in decoded then decoded[s.name].text
    else if s.initial.Some? then s.initial.value
    else "0"
  }

  /** One part per multiplexer signal, in the message's order: its decoded
      value, else its initial value, else `0`. */
  function MuxParts(signals: seq<SignalInfo>, decoded: map<string, Value>): (r: seq<string>)
    ensures |r| == |Multiplexers(signals)|
    ensures forall k :: 0 <= k < |r| ==> r[k] == MuxPart(Multiplexers(signals)[k], decoded)
    ensures (forall i :: 0 <= i < |signals| ==> !signals[i].isMultiplexer) ==> r == []
    decreases |signals|
  {
    if signals == [] then []
    else
      var s := signals[0];
      var part := if s.isMultiplexer then [MuxPart(s, decoded)] else [];
      var rest := MuxParts(signals[1..], decoded);
      MuxPartsStep(signals, decoded, part, rest);
      NoMultiplexers(signals);
      part + rest
  }

  lemma MuxPartsStep(signals: seq<SignalInfo>, decoded: map<string, Value>, part: seq<string>, rest: seq<string>)
    requires signals != []
    requires part == if signals[0].isMultiplexer then [MuxPart(signals[0], decoded)] else []
    requires |rest| == |Multiplexers(signals[1..])|
    requires forall k :: 0 <= k < |rest| ==> rest[k] == MuxPart(Multiplexers(signals[1..])[k], decoded)
    ensures |part + rest| == |Multiplexers(signals)|
    ensures forall k :: 0 <= k < |part + rest| ==> (part + rest)[k] == MuxPart(Multiplexers(signals)[k], decoded)
  {
    var head := if signals[0].isMultiplexer then [signals[0]] else [];
    assert Multiplexers(signals) == head + Multiplexers(signals[1..]);
    PartsAppend(head, Multiplexers(signals[1..]), part, rest, decoded);
  }

  /** Parts of two runs of multiplexers, put together. */
  lemma PartsAppend(h: seq<SignalInfo>, t: seq<SignalInfo>, part: seq<string>, rest: seq<string>, decoded: map<string, Value>)
    requires |part| == |h| && forall k :: 0 <= k < |h| ==> part[k] == MuxPart(h[k], decoded)
    requires |rest| == |t| && forall k :: 0 <= k < |t| ==> rest[k] == MuxPart(t[k], decoded)
    ensures |part + rest| == |h + t|
    ensures forall k :: 0 <= k < |part + rest| ==> (part + rest)[k] == MuxPart((h + t)[k], decoded)
  {
    forall k | 0 <= k < |part + rest|
      ensures (part + rest)[k] == MuxPart((h + t)[k], decoded)
    {
      if k < |part| {
        assert (part + rest)[k] == part[k] && (h + t)[k] == h[k];
      } else {
        assert (part + rest)[k] == rest[k - |part|] && (h + t)[k] == t[k - |part|];
      }
    }
  }

  /** A message without multiplexers has no parts. */
  lemma {:induction false} NoMultiplexers(signals: seq<SignalInfo>)
    ensures (forall i :: 0 <= i < |signals| ==> !signals[i].isMultiplexer) ==> Multiplexers(signals) == []
    decreases |signals|
  {
    if signals != [] {
      assert forall i :: 1 <= i < |signals| ==> signals[i] == signals[1..][i - 1];
      NoMultiplexers(signals[1..]);
    }
  }

  /** `format_multiplexed_name`: the message name and the multiplexer
      parts joined by `__`. */
  function MuxName(msg: MessageInfo, decoded: map<string, Value>): (r: string)
    ensures |msg.name| <= |r| && r[..|msg.name|] == msg.name
    ensures MuxParts(msg.signals, decoded) == [] ==> r == msg.name
  {
    var parts := [msg.name] + MuxParts(msg.signals, decoded);
    if |parts| > 1 then
      JoinAppend([msg.name], parts[1..], "__");
      assert parts == [msg.name] + parts[1..];
      parts[0] + "__" + Join(parts[1..], "__")
    else
      msg.name
  }

  /** Pieces with an empty one between each neighbouring pair: what the
      pieces of a `__`-joined text look like when cut at every `_`. */
  function Spread(xs: seq<string>): (r: seq<string>)
    decreases |xs|
  {
    if |xs| <= 1 then xs else [xs[0], ""] + Spread(xs[1..])
  }

  lemma {:induction false} JoinDoubled(xs: seq<string>)
    ensures Join(xs, "__") == Join(Spread(xs), "_")
    ensures |Spread(xs)| >= |xs| && (|xs| >= 1 ==> Spread(xs)[0] == xs[0])
    ensures forall k :: 0 <= k < |Spread(xs)| ==> Spread(xs)[k] == "" || exists i :: 0 <= i < |xs| && Spread(xs)[k] == xs[i]
    decreases |xs|
  {
    if |xs| > 1 {
      JoinDoubled(xs[1..]);
      var t := Spread(xs[1..]);
      assert Spread(xs) == [xs[0], ""] + t;
      assert Join(Spread(xs), "_") == xs[0] + "_" + ("" + "_" + Join(t, "_"));
      forall k | 2 <= k < |Spread(xs)|
        ensures Spread(xs)[k] == "" || exists i :: 0 <= i < |xs| && Spread(xs)[k] == xs[i]
      {
        assert Spread(xs)[k] == t[k - 2];
        if t[k - 2] != "" {
          var i :| 0 <= i < |xs[1..]| && t[k - 2] == xs[1..][i];
          assert xs[1..][i] == xs[i + 1];
        }
      }
    }
  }

  lemma {:induction false} SpreadInjective(xs: seq<string>, ys: seq<string>)
    requires Spread(xs) == Spread(ys)
    ensures xs == ys
    decreases |xs|
  {
    if |xs| > 1 && |ys| > 1 {
      assert Spread(xs)[2..] == Spread(xs[1..]);
      assert Spread(ys)[2..] == Spread(ys[1..]);
      SpreadInjective(xs[1..], ys[1..]);
      assert xs == [xs[0]] + xs[1..] && ys == [ys[0]] + ys[1..];
    }
  }

  predicate NoUnderscore(xs: seq<string>) {
    forall i :: 0 <= i < |xs| ==> '_' !in xs[i]
  }

  /** Cutting a multiplexed name at each `_` recovers the name and the
      parts, provided none of them holds an underscore. */
  lemma MuxNameSplit(msg: MessageInfo, decoded: map<string, Value>)
    requires NoUnderscore([msg.name] + MuxParts(msg.signals, decoded))
    ensures Split(MuxName(msg, decoded), '_') == Spread([msg.name] + MuxParts(msg.signals, decoded))
  {
    var xs := [msg.name] + MuxParts(msg.signals, decoded);
    JoinDoubled(xs);
    assert MuxName(msg, decoded) == Join(xs, "__");
    var ys := Spread(xs);
    forall k | 0 <= k < |ys|
      ensures '_' !in ys[k]
    {
      if ys[k] != "" {
        var i :| 0 <= i < |xs| && ys[k] == xs[i];
      }
    }
    SplitOfJoin(ys, '_');
  }

  /** The composite name tells multiplexer settings apart, as the source
      intends, as long as no name or value holds an underscore. */
  lemma MuxNameUnique(msg: MessageInfo, d1: map<string, Value>, d2: map<string, Value>)
    requires NoUnderscore([msg.name] + MuxParts(msg.signals, d1))
    requires NoUnderscore([msg.name] + MuxParts(msg.signals, d2))
    requires MuxParts(msg.signals, d1) != MuxParts(msg.signals, d2)
    ensures MuxName(msg, d1) != MuxName(msg, d2)
  {
    var p1, p2 := MuxParts(msg.signals, d1), MuxParts(msg.signals, d2);
    if MuxName(msg, d1) == MuxName(msg, d2) {
      MuxNameSplit(msg, d1);
      MuxNameSplit(msg, d2);
      SpreadInjective([msg.name] + p1, [msg.name] + p2);
      assert false;
    }
  }
}

=== FILE: frames.dfy ===
/** Frame value extraction in `oleomux.py`: a received frame is turned into
  a string of binary digits (`can_to_bin`), and a signal's value, a text
  or a special reading is taken from that string.
*/
module Frames {
  import opened Wrappers
  import opened Text
  import opened BitCodec
  import opened Database

  /** A frame byte. */
  type Byte = b: nat | b < 256

  // -------------------------------------------------------------- can_to_bin

  /** `"{0:0nb}".format(b)` for `b < 2^n`: the `n` binary digits of `b`,
      most significant first. */
  function Bits(b: nat, n: nat): (s: string)
    ensures |s| == n && IsBits(s)
    decreases n
  {
    if n == 0 then "" else Bits(b / 2, n - 1) + [if b % 2 == 1 then '1' else '0']
  }

  /** `b & (2^n - 1)`, the low `n` bits of `b`, taken bit by bit. */
  function Low(b: nat, n: nat): (r: nat)
    ensures r < Pow2(n)
    decreases n
  {
    if n == 0 then 0 else Low(b / 2, n - 1) * 2 + b % 2
  }

  /** Read back, the digits give the low `n` bits. */
  lemma {:induction false} BitsValue(b: nat, n: nat)
    ensures BinValue(Bits(b, n)) == Low(b, n)
    decreases n
  {
    if n > 0 {
      var s := Bits(b, n);
      assert s[..n - 1] == Bits(b / 2, n - 1);
      BitsValue(b / 2, n - 1);
    }
  }

  /** The low `n` bits of a value below `2^n` are the value itself. */
  lemma {:induction false} LowBelow(b: nat, n: nat)
    requires b < Pow2(n)
    ensures Low(b, n) == b
    decreases n
  {
    if n > 0 {
      LowBelow(b / 2, n - 1);
    }
  }

  /** The low bits are the remainder modulo `2^n`. */
  lemma {:induction false} LowIsMod(b: nat, n: nat)
    ensures Low(b, n) == b % Pow2(n)
    decreases n
  {
    if n > 0 {
      LowIsMod(b / 2, n - 1);
      HalfMod(b, Pow2(n - 1));
    }
  }

  /** Halving, then taking the remainder by `p`, combines with the halved
      bit into the remainder by `2 p`. */
  lemma HalfMod(b: nat, p: nat)
    requires p >= 1
    ensures (b / 2 % p) * 2 + b % 2 == b % (2 * p)
  {
    var q := b / 2;
    var k := q / p;
    var m := q % p;
    assert q == p * k + m;
    assert b == 2 * q + b % 2;
    assert 2 * (p * k) == (2 * p) * k;
    DivModUnique(b, 2 * p, k, 2 * m + b % 2);
  }

  /** `can_to_bin`: eight digits per byte, in frame order. */
  function CanToBin(data: seq<Byte>): (r: string)
    ensures |r| == 8 * |data| && IsBits(r)
    decreases |data|
  {
    if data == [] then "" else CanToBin(data[..|data| - 1]) + Bits(data[|data| - 1], 8)
  }

  lemma {:induction false} CanToBinAppend(a: seq<Byte>, b: seq<Byte>)
    ensures CanToBin(a + b) == CanToBin(a) + CanToBin(b)
    decreases |b|
  {
    if b == [] {
      assert a + b == a;
    } else {
      var b', last := b[..|b| - 1], b[|b| - 1];
      assert (a + b)[..|a + b| - 1] == a + b' && (a + b)[|a + b| - 1] == last;
      CanToBinAppend(a, b');
      var bits := Bits(last, 8);
      assert CanToBin(a + b) == CanToBin(a + b') + bits;
      assert CanToBin(b) == CanToBin(b') + bits;
      Assoc(CanToBin(a), CanToBin(b'), bits);
    }
  }

  lemma Assoc(x: string, y: string, z: string)
    ensures x + y + z == x + (y + z)
  {
  }

  lemma CanToBinSingle(b: Byte)
    ensures CanToBin([b]) == Bits(b, 8)
  {
    assert [b][..0] == [];
  }

  lemma BitsByte(b: Byte)
    ensures BinValue(Bits(b, 8)) == b
  {
    BitsValue(b, 8);
    assert Pow2(8) == 256;
    LowBelow(b, 8);
  }

  lemma CanToBinSlice(data: seq<Byte>, i: nat, k: nat)
    requires i + k <= |data|
    ensures CanToBin(data)[8 * i .. 8 * (i + k)] == CanToBin(data[i..i + k])
  {
    var a, b, c := data[..i], data[i..i + k], data[i + k..];
    SplitThree(data, i, k);
    CanToBinAppend(a + b, c);
    CanToBinAppend(a, b);
    SliceMiddle(CanToBin(a), CanToBin(b), CanToBin(c));
  }

  lemma SplitThree<T>(s: seq<T>, i: nat, k: nat)
    requires i + k <= |s|
    ensures s == s[..i] + s[i..i + k] + s[i + k..]
  {
  }

  lemma SliceOne<T>(s: seq<T>, i: nat)
    requires i < |s|
    ensures s[i..i + 1] == [s[i]]
  {
  }

  lemma SliceMiddle(x: string, y: string, z: string)
    ensures (x + y + z)[|x| .. |x| + |y|] == y
  {
  }

  /** Byte `i` of the frame occupies digits `8 i .. 8 i + 7`, most
      significant bit first. */
  lemma CanToBinByte(data: seq<Byte>, i: nat)
    requires i < |data|
    ensures CanToBin(data)[8 * i .. 8 * i + 8] == Bits(data[i], 8)
    ensures BinValue(CanToBin(data)[8 * i .. 8 * i + 8]) == data[i]
  {
    CanToBinDigits(data, i);
    BitsByte(data[i]);
  }

  lemma CanToBinDigits(data: seq<Byte>, i: nat)
    requires i < |data|
    ensures CanToBin(data)[8 * i .. 8 * i + 8] == Bits(data[i], 8)
  {
    assert 8 * (i + 1) == 8 * i + 8;
    CanToBinSlice(data, i, 1);
    assert CanToBin(data[i..i + 1]) == Bits(data[i], 8) by {
      SliceOne(data, i);
      CanToBinSingle(data[i]);
    }
  }

  /** The frame read as one big-endian number. */
  function BigEndian(data: seq<Byte>): nat
    decreases |data|
  {
    if data == [] then 0 else BigEndian(data[..|data| - 1]) * 256 + data[|data| - 1]
  }

  /** The digit string, read in base 2, is the frame read big-endian. */
  lemma {:induction false} CanToBinValue(data: seq<Byte>)
    ensures BinValue(CanToBin(data)) == BigEndian(data)
    decreases |data|
  {
    if data != [] {
      var init := data[..|data| - 1];
      var last := data[|data| - 1];
      CanToBinValue(init);
      BinValueConcat(CanToBin(init), Bits(last, 8));
      BitsByte(last);
      assert Pow2(8) == 256;
    }
  }

  // ------------------------------------------------- wide values in can_to_bin

  /** The number of binary digits of `v`; none for `0`. */
  function BitLength(v: nat): (n: nat)
    ensures v < Pow2(n)
    ensures n > 0 ==> Pow2(n - 1) <= v
    decreases v
  {
    if v == 0 then 0 else BitLength(v / 2) + 1
  }

  /** `"{0:08b}".format(v)` for any non-negative `v`: padded to eight
      digits, and longer when `v` needs more. */
  function Format08b(v: nat): (s: string)
    ensures IsBits(s)
    ensures |s| == if v < 256 then 8 else BitLength(v)
    ensures BinValue(s) == v
  {
    var n := if BitLength(v) <= 8 then 8 else BitLength(v);
    assert v < Pow2(n) by {
      if BitLength(v) <= 8 {
        Pow2Monotone(BitLength(v), 8);
      }
    }
    ByteBitLength(v);
    BitsValue(v, n);
    LowBelow(v, n);
    Bits(v, n)
  }

  /** A value fits eight digits exactly when it is a byte. */
  lemma ByteBitLength(v: nat)
    ensures BitLength(v) <= 8 <==> v < 256
  {
    var n := BitLength(v);
    assert Pow2(8) == 256;
    if n <= 8 {
      Pow2Monotone(n, 8);
    } else {
      Pow2Monotone(8, n - 1);
    }
  }

  /** Every value is a byte. */
  predicate AllBytes(data: seq<nat>)
  {
    forall i :: 0 <= i < |data| ==> data[i] < 256
  }

  lemma AllBytesSnoc(data: seq<nat>)
    requires data != []
    ensures AllBytes(data) <==> AllBytes(data[..|data| - 1]) && data[|data| - 1] < 256
  {
    assert forall i :: 0 <= i < |data| - 1 ==> data[..|data| - 1][i] == data[i];
  }

  lemma {:induction false} Pow2Monotone(a: nat, b: nat)
    requires a <= b
    ensures Pow2(a) <= Pow2(b)
    decreases b
  {
    if a < b {
      Pow2Monotone(a, b - 1);
    }
  }

  /** `can_to_bin` on what its callers pass: `int(x, 16)` of each field
      of a frame, which is not bounded by a byte. Each value is written
      with `"{0:08b}"`, so a value of `256` or more takes more than
      eight digits and moves every later value to the right. */
  function CanToBinWide(data: seq<nat>): (r: string)
    ensures IsBits(r) && |r| >= 8 * |data|
    decreases |data|
  {
    if data == [] then "" else CanToBinWide(data[..|data| - 1]) + Format08b(data[|data| - 1])
  }

  /** On bytes, the unrestricted conversion is `CanToBin`. */
  lemma {:induction false} CanToBinWideBytes(data: seq<nat>)
    requires AllBytes(data)
    ensures CanToBinWide(data) == CanToBin(data)
    decreases |data|
  {
    if data != [] {
      var init := data[..|data| - 1];
      CanToBinWideBytes(init);
      var last := data[|data| - 1];
      assert Format08b(last) == Bits(last, 8) by {
        ByteBitLength(last);
      }
    }
  }

  /** Eight digits per value exactly when every value is a byte; one
      wider value lengthens the string. */
  lemma {:induction false} CanToBinWideLength(data: seq<nat>)
    ensures |CanToBinWide(data)| == 8 * |data| <==> AllBytes(data)
    decreases |data|
  {
    if data != [] {
      var init, last := data[..|data| - 1], data[|data| - 1];
      CanToBinWideLength(init);
      assert |CanToBinWide(data)| == |CanToBinWide(init)| + |Format08b(last)|;
      assert |Format08b(last)| == 8 <==> last < 256 by {
        ByteBitLength(last);
      }
      AllBytesSnoc(data);
    }
  }


  // -------------------------------------------------------------- can_to_int

  /** `can_to_int`: the `length` digits from the translated `start` on, in
      base 2.  Running off the end gives 0 for the whole value.  A
      non-binary digit string makes `int(f, 2)` raise, which the method
      catches and logs, returning `None`.  With no digits at all
      (`length <= 0`) the loop never binds `x`, so the handler's own log
      line raises `UnboundLocalError`, which escapes. */
  function CanToInt(can: string, start: nat, length: int): (r: Result<Option<nat>>)
    ensures r.Raise? <==> length <= 0
    ensures r.Raise? ==> r.error == UnboundLocalError
    ensures length > 0 && EndianTranslate(start) + length > |can| ==> r == Ok(Some(0))
    ensures r.Ok? && r.value.Some? ==> r.value.value < Pow2(length)
    ensures length > 0 && EndianTranslate(start) + length <= |can| ==>
              (r == Ok(None) <==> !IsBits(can[EndianTranslate(start) .. EndianTranslate(start) + length]))
  {
    var t := EndianTranslate(start);
    if length <= 0 then Raise(UnboundLocalError)
    else if t + length > |can| then Ok(Some(0))
    else
      var f := can[t .. t + length];
      if IsBits(f) then Ok(Some(BinValue(f))) else Ok(None)
  }

  /** On a frame's digit string, a signal inside one byte reads the bits
      of that byte: the byte shifted right past the bits below the signal,
      modulo `2^length`. */
  lemma CanToIntInByte(data: seq<Byte>, start: nat, length: nat)
    requires 1 <= length && start % 8 + 1 >= length && start / 8 < |data|
    ensures CanToInt(CanToBin(data), start, length)
            == Ok(Some(Low(Shr(data[start / 8], start % 8 + 1 - length), length)))
  {
    var i, p := start / 8, 7 - start % 8;
    var t := EndianTranslate(start);
    assert t == 8 * i + p by {
      EndianTranslateSameByte(start);
    }
    InByteDigits(data, start, length, i, p, t);
  }

  /** The same, with the byte and the bit position named. */
  lemma InByteDigits(data: seq<Byte>, start: nat, length: nat, i: nat, p: nat, t: nat)
    requires 1 <= length && p + length <= 8 && i < |data|
    requires t == 8 * i + p && t == EndianTranslate(start)
    ensures CanToInt(CanToBin(data), start, length) == Ok(Some(Low(Shr(data[i], 8 - (p + length)), length)))
  {
    ByteWindowValue(data, i, 8 * i, p, length);
    CanToIntDigits(CanToBin(data), start, length);
  }

  /** Digits `p .. p + length - 1` of byte `i`, which starts at digit
      `a`, read as a number. */
  lemma {:induction false} ByteWindowValue(data: seq<Byte>, i: nat, a: nat, p: nat, length: nat)
    requires i < |data| && a == 8 * i && p + length <= 8
    ensures a + p + length <= |CanToBin(data)|
    ensures IsBits(CanToBin(data)[a + p .. a + p + length])
    ensures BinValue(CanToBin(data)[a + p .. a + p + length]) == Low(Shr(data[i], 8 - (p + length)), length)
  {
    var can := CanToBin(data);
    assert a + 8 <= |can|;
    CanToBinDigits(data, i);
    assert can[a .. a + 8] == Bits(data[i], 8);
    WindowValue(can, data[i], a, p, length);
  }

  /** The same, for any digit string holding a byte's digits at `a`. */
  lemma WindowValue(can: string, b: Byte, a: nat, p: nat, length: nat)
    requires a + 8 <= |can| && can[a .. a + 8] == Bits(b, 8) && p + length <= 8
    ensures IsBits(can[a + p .. a + p + length])
    ensures BinValue(can[a + p .. a + p + length]) == Low(Shr(b, 8 - (p + length)), length)
  {
    DigitsWindow(can, Bits(b, 8), a, p, length);
    SliceOfBits(b, p, length);
  }

  /** Within the digit string, the value is the digits read in base 2. */
  lemma CanToIntDigits(can: string, start: nat, length: nat)
    requires length > 0 && EndianTranslate(start) + length <= |can|
    requires IsBits(can[EndianTranslate(start) .. EndianTranslate(start) + length])
    ensures CanToInt(can, start, length) == Ok(Some(BinValue(can[EndianTranslate(start) .. EndianTranslate(start) + length])))
  {
  }

  lemma DigitsWindow<T>(s: seq<T>, w: seq<T>, a: nat, p: nat, len: nat)
    requires a + |w| <= |s| && s[a .. a + |w|] == w && p + len <= |w|
    ensures s[a + p .. a + p + len] == w[p .. p + len]
  {
    SliceOfSlice(s, a, a + |w|, p, p + len);
  }

  lemma SliceOfSlice<T>(s: seq<T>, a: nat, b: nat, c: nat, d: nat)
    requires a <= b <= |s| && c <= d <= b - a
    ensures s[a..b][c..d] == s[a + c .. a + d]
  {
    forall j | 0 <= j < d - c
      ensures s[a..b][c..d][j] == s[a + c .. a + d][j]
    {
      assert s[a..b][c..d][j] == s[a..b][c + j];
    }
  }

  lemma PrefixOfPrefix<T>(s: seq<T>, a: nat, b: nat)
    requires b <= a <= |s|
    ensures s[..a][..b] == s[..b]
  {
  }

  /** Digits `p .. p + length - 1` of a byte's eight digits. */
  lemma SliceOfBits(b: Byte, p: nat, length: nat)
    requires p + length <= 8
    ensures IsBits(Bits(b, 8)[p .. p + length])
    ensures BinValue(Bits(b, 8)[p .. p + length]) == Low(Shr(b, 8 - (p + length)), length)
  {
    var s := Bits(b, 8);
    var low := 8 - (p + length);
    var high := Shr(b, low);
    BitsDrop(b, 8, low);
    BitsSuffix(high, p + length, length);
    SliceOfPrefix(s, p, p + length);
    BitsValue(high, length);
  }

  lemma SliceOfPrefix<T>(s: seq<T>, a: nat, b: nat)
    requires a <= b <= |s|
    ensures s[a..b] == s[..b][a..]
  {
  }

  /** `b >> k`. */
  function Shr(b: nat, k: nat): nat
    decreases k
  {
    if k == 0 then b else Shr(b / 2, k - 1)
  }

  /** Dropping the last `k` digits leaves the digits of `b >> k`. */
  lemma {:induction false} BitsDrop(b: nat, n: nat, k: nat)
    requires k <= n
    ensures Bits(b, n)[..n - k] == Bits(Shr(b, k), n - k)
    decreases k
  {
    if k > 0 {
      var s := Bits(b, n);
      assert s[..n - 1] == Bits(b / 2, n - 1);
      BitsDrop(b / 2, n - 1, k - 1);
      PrefixOfPrefix(s, n - 1, n - k);
    }
  }

  /** The last `k` of `n` digits are the `k` digits of `b`. */
  lemma {:induction false} BitsSuffix(b: nat, n: nat, k: nat)
    requires k <= n
    ensures Bits(b, n)[n - k..] == Bits(b, k)
    decreases n
  {
    if k == n {
    } else if k == 0 {
    } else {
      var s := Bits(b, n);
      assert s[..n - 1] == Bits(b / 2, n - 1);
      BitsSuffix(b / 2, n - 1, k - 1);
      assert s[n - k..] == s[..n - 1][n - 1 - (k - 1)..] + [s[n - 1]];
    }
  }

  // ---------------------------------------------------------- sign correction

  /** The integer part of `can_to_formatted`: a signed 8-bit value above
      127, or a signed 16-bit value above 32767, wraps into the negative
      range; other widths and unsigned values are left alone.  A missing raw
      value makes the comparison (or the later arithmetic) raise. */
  function SignCorrect(raw: Option<nat>, length: int, signed: bool): (r: Result<int>)
    ensures r.Raise? <==> raw.None?
    ensures r.Raise? ==> r.error == TypeError
    ensures r.Ok? && (!signed || (length != 8 && length != 16)) ==> r.value == raw.value
    ensures r.Ok? && signed && length == 8 && raw.value < 256 ==> -128 <= r.value <= 127 && (r.value - raw.value) % 256 == 0
    ensures r.Ok? && signed && length == 16 && raw.value < 65536 ==> -32768 <= r.value <= 32767 && (r.value - raw.value) % 65536 == 0
  {
    match raw
    case None => Raise(TypeError)
    case Some(f) =>
      if signed && length == 8 && f > 127 then Ok(f - 256)
      else if signed && length == 16 && f > 32767 then Ok(f - 65536)
      else Ok(f)
  }

  /** Sign correction inverts two's complement: a value written into a
      signed 8- or 16-bit field is read back as itself. */
  lemma SignCorrectTwosComplement(v: int, length: int)
    requires length == 8 || length == 16
    requires -(Pow2(length - 1) as int) <= v < Pow2(length - 1)
    ensures SignCorrect(Some(v % Pow2(length)), length, true) == Ok(v)
  {
    if length == 8 {
      assert Pow2(7) == 128 && Pow2(8) == 256;
    } else {
      assert Pow2(15) == 32768 && Pow2(16) == 65536;
    }
  }

  /** The integer a signal shows before scaling: `can_to_int`'s value,
      sign-corrected.  An exception from `can_to_int` escapes first; a
      `None` from it makes the sign correction raise. */
  function RawValue(can: string, s: Signal): (r: Result<int>)
    ensures r.Raise? <==> CanToInt(can, s.start, s.length).Raise? || CanToInt(can, s.start, s.length).value.None?
    ensures r.Raise? ==> r.error == (if s.length <= 0 then UnboundLocalError else TypeError)
    ensures !s.isSigned && r.Ok? ==> r.value == CanToInt(can, s.start, s.length).value.value
  {
    var raw :- CanToInt(can, s.start, s.length);
    SignCorrect(raw, s.length, s.isSigned)
  }

  // -------------------------------------------------------------- byte2ascii

  /** `byte2ascii`: the character itself when printable ASCII, else "". */
  function ByteToAscii(b: nat): (r: string)
    ensures r == "" || (|r| == 1 && 32 <= r[0] as int <= 126)
    ensures r != "" <==> 32 <= b <= 126
    ensures r != "" ==> r[0] as int == b
  {
    if b == 0 then ""
    else if b < 32 || b > 126 then ""
    else [b as char]
  }

  /** The printable characters of a byte string, in order. */
  function Printable(bytes: seq<nat>): (r: string)
    ensures |r| <= |bytes|
    ensures forall i :: 0 <= i < |r| ==> 32 <= r[i] as int <= 126
    decreases |bytes|
  {
    if bytes == [] then "" else Printable(bytes[..|bytes| - 1]) + ByteToAscii(bytes[|bytes| - 1])
  }

  lemma {:induction false} PrintableAll(bytes: seq<nat>)
    requires forall i :: 0 <= i < |bytes| ==> 32 <= bytes[i] <= 126
    ensures |Printable(bytes)| == |bytes|
    ensures forall i :: 0 <= i < |bytes| ==> Printable(bytes)[i] as int == bytes[i]
    decreases |bytes|
  {
    if bytes != [] {
      PrintableAll(bytes[..|bytes| - 1]);
    }
  }

  // -------------------------------------------------------------- can_to_str

  /** `int.to_bytes(n, 'big')` for a value that fits: `n` base-256 digits. */
  function BytesOf(v: nat, n: nat): (r: seq<Byte>)
    ensures |r| == n
    decreases n
  {
    if n == 0 then [] else BytesOf(v / 256, n - 1) + [v % 256]
  }

  lemma {:induction false} BytesOfBigEndian(data: seq<Byte>)
    ensures BytesOf(BigEndian(data), |data|) == data
    decreases |data|
  {
    if data != [] {
      var init := data[..|data| - 1];
      var last := data[|data| - 1];
      BytesOfBigEndian(init);
      assert (BigEndian(init) * 256 + last) / 256 == BigEndian(init);
      assert (BigEndian(init) * 256 + last) % 256 == last;
    }
  }

  lemma {:induction false} BigEndianBound(data: seq<Byte>)
    ensures BigEndian(data) < Pow2(8 * |data|)
    decreases |data|
  {
    if data != [] {
      var init := data[..|data| - 1];
      BigEndianBound(init);
      Pow2Add(8 * |init|, 8);
      assert Pow2(8) == 256;
      assert 8 * |data| == 8 * |init| + 8;
      assert BigEndian(init) * 256 + data[|data| - 1] < (BigEndian(init) + 1) * 256;
    }
  }

  /** `can_to_str`: the `length` digits from `offset` (shortened to the
      end of the digit string) as big-endian bytes, each turned into its
      printable character or dropped.  An empty or non-binary digit string
      raises in `int(…, 2)`; a value too wide for `length / 8` bytes raises
      in `to_bytes`. */
  function CanToStr(can: string, offset: nat, length: int): (r: Result<string>)
    ensures r.Raise? ==> r.error == ValueError || r.error == OverflowError
    ensures r.Ok? ==> forall i :: 0 <= i < |r.value| ==> 32 <= r.value[i] as int <= 126
  {
    var len := if offset + length > |can| - 1 then |can| - offset else length;
    if len <= 0 then Raise(ValueError)
    else
      var digits := can[offset .. offset + len];
      if !IsBits(digits) then Raise(ValueError)
      else
        var v := BinValue(digits);
        var n := len / 8;
        if v >= Pow2(8 * n) then Raise(OverflowError)
        else Ok(Printable(BytesOf(v, n)))
  }

  /** Reading whole bytes of a frame as text gives their printable
      characters. */
  lemma CanToStrOfFrame(data: seq<Byte>, i: nat, k: nat)
    requires 1 <= k && i + k <= |data|
    ensures CanToStr(CanToBin(data), 8 * i, 8 * k) == Ok(Printable(data[i..i + k]))
  {
    CanToStrWindow(data, i, k, 8 * i, 8 * k);
  }

  lemma CanToStrWindow(data: seq<Byte>, i: nat, k: nat, off: nat, len: nat)
    requires 1 <= k && i + k <= |data| && off == 8 * i && len == 8 * k
    ensures CanToStr(CanToBin(data), off, len) == Ok(Printable(data[i..i + k]))
  {
    CanToBinWindow(data, i, k, off, len);
    CanToStrBytes(CanToBin(data), off, len, data[i..i + k]);
  }

  /** `CanToBinSlice` with the digit positions named. */
  lemma CanToBinWindow(data: seq<Byte>, i: nat, k: nat, off: nat, len: nat)
    requires i + k <= |data| && off == 8 * i && len == 8 * k
    ensures off + len <= |CanToBin(data)|
    ensures CanToBin(data)[off .. off + len] == CanToBin(data[i..i + k])
  {
    assert off + len == 8 * (i + k);
    CanToBinSlice(data, i, k);
  }

  /** Whole bytes' digits, read as text, give the bytes' printable
      characters. */
  lemma CanToStrBytes(can: string, off: nat, len: nat, bytes: seq<Byte>)
    requires 1 <= |bytes| && len == 8 * |bytes| && off + len <= |can|
    requires can[off .. off + len] == CanToBin(bytes)
    ensures CanToStr(can, off, len) == Ok(Printable(bytes))
  {
    var n := |bytes|;
    var digits := can[off .. off + len];
    var v := BigEndian(bytes);
    CanToBinValue(bytes);
    assert BinValue(digits) == v;
    BigEndianBound(bytes);
    BytesOfBigEndian(bytes);
    DivEight(n);
    assert len / 8 == n;
    CanToStrValue(can, off, len, v, n);
  }

  /** A window that fits and whose value fits its whole bytes reads as
      those bytes' printable characters. */
  lemma CanToStrValue(can: string, off: nat, len: nat, v: nat, n: nat)
    requires 1 <= len && off + len <= |can| && IsBits(can[off .. off + len])
    requires BinValue(can[off .. off + len]) == v && len / 8 == n && v < Pow2(8 * n)
    ensures CanToStr(can, off, len) == Ok(Printable(BytesOf(v, n)))
  {
  }

  lemma DivEight(n: nat)
    ensures (8 * n) / 8 == n
  {
  }

  // --------------------------------------------------------------- e_balance

  /** The table of `e_balance`: seven binary digits to a balance step. */
  const BalanceTable: seq<(string, int)> := [
    ("0110110", -9), ("0110111", -8), ("0111000", -7), ("0111001", -6), ("0111010", -5),
    ("0111011", -4), ("0111100", -3), ("0111101", -2), ("0111110", -1), ("0111111", 0),
    ("1000000", 1), ("1000001", 2), ("1000010", 3), ("1000011", 4), ("1000100", 5),
    ("1000101", 6), ("1000110", 7), ("1000111", 8), ("1001000", 9)]

  /** What `e_balance` returns: a step from the table, or the text "0". */
  datatype BalanceReading = Step(step: int) | ZeroText

  function Lookup(table: seq<(string, int)>, key: string): (r: Option<int>)
    ensures r.Some? ==> (key, r.value) in table
    ensures r.None? ==> forall i :: 0 <= i < |table| ==> table[i].0 != key
    decreases |table|
  {
    if table == [] then None
    else if table[0].0 == key then Some(table[0].1)
    else Lookup(table[1..], key)
  }

  /** `e_balance`: the `length` digits from `offset`, looked up. */
  function EBalance(raw: string, offset: nat, length: int): (r: Result<BalanceReading>)
    ensures r.Raise? <==> length > 0 && offset + length > |raw|
    ensures r.Raise? ==> r.error == IndexError
  {
    if length > 0 && offset + length > |raw| then Raise(IndexError)
    else
      var search := if length > 0 then raw[offset .. offset + length] else "";
      match Lookup(BalanceTable, search)
      case Some(v) => Ok(Step(v))
      case None => Ok(ZeroText)
  }

  /** Each table key is the seven-digit binary form of its step plus 63. */
  lemma BalanceTableFormula()
    ensures |BalanceTable| == 19
    ensures forall i :: 0 <= i < 19 ==> BalanceTable[i] == (Bits(54 + i, 7), i - 9)
  {
    BalanceRowsLow();
    BalanceRowsHigh();
    forall i | 0 <= i < 19
      ensures BalanceTable[i] == (Bits(54 + i, 7), i - 9)
    {
      SevenBits(54 + i);
    }
  }

  lemma BalanceRowsLow()
    ensures forall i :: 0 <= i < 10 ==> BalanceTable[i] == (SevenDigits(54 + i), i - 9)
  {
  }

  lemma BalanceRowsHigh()
    ensures forall i :: 10 <= i < 19 ==> BalanceTable[i] == (SevenDigits(54 + i), i - 9)
  {
  }

  /** The last binary digit of `b`. */
  function Digit(b: nat): char
  {
    if b % 2 == 1 then '1' else '0'
  }

  /** Seven binary digits written out, each from halving. */
  function SevenDigits(b: nat): string
  {
    [Digit(b / 2 / 2 / 2 / 2 / 2 / 2), Digit(b / 2 / 2 / 2 / 2 / 2), Digit(b / 2 / 2 / 2 / 2),
     Digit(b / 2 / 2 / 2), Digit(b / 2 / 2), Digit(b / 2), Digit(b)]
  }

  lemma SevenBits(b: nat)
    ensures Bits(b, 7) == SevenDigits(b)
  {
  }

  /** A seven-digit reading from 54 to 72 is the step `v - 63`; anything
      else (another length, another value) reads as the text "0". */
  lemma EBalanceSteps(raw: string, offset: nat, v: nat)
    requires offset + 7 <= |raw| && 54 <= v <= 72
    requires raw[offset .. offset + 7] == Bits(v, 7)
    ensures EBalance(raw, offset, 7) == Ok(Step(v - 63))
  {
    BalanceTableFormula();
    BalanceKeysDistinct();
    var i := v - 54;
    assert BalanceTable[i] == (Bits(v, 7), v - 63);
    LookupFirst(BalanceTable, i);
  }

  /** A seven-digit reading outside 54 .. 72 is not in the table and
      reads as the text "0". */
  lemma EBalanceOutside(raw: string, offset: nat, v: nat)
    requires offset + 7 <= |raw| && v < 128 && !(54 <= v <= 72)
    requires raw[offset .. offset + 7] == Bits(v, 7)
    ensures EBalance(raw, offset, 7) == Ok(ZeroText)
  {
    BalanceTableFormula();
    var r := Lookup(BalanceTable, Bits(v, 7));
    if r.Some? {
      var i :| 0 <= i < 19 && BalanceTable[i] == (Bits(v, 7), r.value);
      BitsInjective(54 + i, v, 7);
      assert false;
    }
  }

  /** Distinct values below `2^n` have distinct `n`-digit forms. */
  lemma BitsInjective(a: nat, b: nat, n: nat)
    requires a < Pow2(n) && b < Pow2(n) && Bits(a, n) == Bits(b, n)
    ensures a == b
  {
    BitsValue(a, n);
    BitsValue(b, n);
    LowBelow(a, n);
    LowBelow(b, n);
  }

  lemma BalanceKeysDistinct()
    ensures forall j, k :: 0 <= j < k < 19 ==> BalanceTable[j].0 != BalanceTable[k].0
  {
    BalanceTableFormula();
    FormulaKeysDistinct(BalanceTable);
  }

  /** Any table laid out by the formula has distinct keys. */
  lemma FormulaKeysDistinct(table: seq<(string, int)>)
    requires |table| == 19
    requires forall i :: 0 <= i < 19 ==> table[i] == (Bits(54 + i, 7), i - 9)
    ensures forall j, k :: 0 <= j < k < 19 ==> table[j].0 != table[k].0
  {
    assert Pow2(7) == 128;
    forall j, k | 0 <= j < k < 19
      ensures table[j].0 != table[k].0
    {
      if table[j].0 == table[k].0 {
        BitsInjective(54 + j, 54 + k, 7);
      }
    }
  }

  lemma {:induction false} LookupFirst(table: seq<(string, int)>, i: nat)
    requires i < |table|
    requires forall j :: 0 <= j < i ==> table[j].0 != table[i].0
    ensures Lookup(table, table[i].0) == Some(table[i].1)
    decreases i
  {
    if i > 0 {
      LookupFirst(table[1..], i - 1);
    }
  }

  // ------------------------------------------------------------------ e_navi

  /** The navigation text assembled across frames, and the bytes of one
      frame with the zero bytes removed. */
  function NonZero(bytes: seq<Byte>): (r: seq<Byte>)
    ensures |r| <= |bytes|
    ensures forall i :: 0 <= i < |r| ==> r[i] != 0
    ensures forall x :: x != 0 ==> multiset(r)[x] == multiset(bytes)[x]
    decreases |bytes|
  {
    if bytes == [] then []
    else
      var rest := NonZero(bytes[..|bytes| - 1]);
      assert bytes == bytes[..|bytes| - 1] + [bytes[|bytes| - 1]];
      if bytes[|bytes| - 1] != 0 then rest + [bytes[|bytes| - 1]] else rest
  }

  const CalculatingRoute: string := "CALCULATING ROUTE"

  /** `e_navi`: one frame of the navigation display.  The frame's digits
      are an eight-byte big-endian number; its non-zero bytes drive the
      buffer: a leading 0x20..0x28 appends the rest, 0x10 restarts with
      bytes 3..7, 0x04 restarts with bytes 2..7, 0x07 shows the route
      message, anything else leaves the buffer alone.  The result is the
      new buffer, which is also the text returned. */
  function ENavi(raw: string, buffer: string): (r: Result<string>)
    ensures r.Raise? ==> r.error in {ValueError, OverflowError, IndexError}
  {
    if raw == [] || !IsBits(raw) then Raise(ValueError)
    else if BinValue(raw) >= Pow2(64) then Raise(OverflowError)
    else
      var msg := NonZero(BytesOf(BinValue(raw), 8));
      if msg == [] then Raise(IndexError)
      else Ok(NaviStep(msg, buffer))
  }

  /** The buffer update for the non-zero bytes `msg` of one frame. */
  function NaviStep(msg: seq<Byte>, buffer: string): (r: string)
    requires msg != []
    ensures 0x20 <= msg[0] < 0x29 ==> |r| >= |buffer| && r[..|buffer|] == buffer
    ensures msg[0] == 0x07 ==> r == CalculatingRoute
    ensures !(0x20 <= msg[0] < 0x29) && msg[0] !in {0x10, 0x04, 0x07} ==> r == buffer
    ensures msg[0] in {0x10, 0x04} ==> forall i :: 0 <= i < |r| ==> 32 <= r[i] as int <= 126
    ensures 0x20 <= msg[0] < 0x29 ==> |r| <= |buffer| + |msg| - 1
    ensures msg[0] == 0x10 ==> |r| <= 5
    ensures msg[0] == 0x04 ==> |r| <= 6
  {
    if 0x20 <= msg[0] < 0x29 then buffer + Printable(msg[1..])
    else if msg[0] == 0x10 then Printable(Window(msg, 3, 8))
    else if msg[0] == 0x04 then Printable(Window(msg, 2, 8))
    else if msg[0] == 0x07 then CalculatingRoute
    else buffer
  }

  /** The three control bytes discard the buffer: the new text does not
      depend on what was shown before.  A restart whose bytes are all
      printable shows exactly the bytes from position 3 (0x10) or 2 (0x04)
      on. */
  lemma NaviRestart(msg: seq<Byte>, b1: string, b2: string)
    requires msg != [] && msg[0] in {0x10, 0x04, 0x07}
    ensures NaviStep(msg, b1) == NaviStep(msg, b2)
    ensures msg[0] != 0x07 && (forall i :: 0 < i < |msg| ==> 32 <= msg[i] <= 126) ==>
              var w := Window(msg, if msg[0] == 0x10 then 3 else 2, 8);
              var r := NaviStep(msg, b1);
              |r| == |w| && forall i :: 0 <= i < |w| ==> r[i] as int == w[i]
  {
    if msg[0] != 0x07 && (forall i :: 0 < i < |msg| ==> 32 <= msg[i] <= 126) {
      var lo := if msg[0] == 0x10 then 3 else 2;
      var w := Window(msg, lo, 8);
      assert forall x :: 0 <= x < |w| ==> 32 <= w[x] <= 126 by {
        forall x | 0 <= x < |w|
          ensures 32 <= w[x] <= 126
        {
          assert w[x] == msg[lo + x];
        }
      }
      PrintableAll(w);
    }
  }

  /** The bytes at positions `lo .. hi - 1` that exist. */
  function Window(msg: seq<Byte>, lo: nat, hi: nat): (r: seq<Byte>)
    ensures forall x :: 0 <= x < |r| ==> lo + x < |msg| && lo + x < hi && r[x] == msg[lo + x]
    ensures |r| == if lo >= |msg| || lo >= hi then 0 else (if hi < |msg| then hi else |msg|) - lo
  {
    if lo >= |msg| || lo >= hi then [] else msg[lo .. if hi < |msg| then hi else |msg|]
  }

  /** On a frame of eight bytes, `e_navi` sees exactly the frame's
      non-zero bytes. */
  lemma ENaviOfFrame(data: seq<Byte>, buffer: string)
    requires |data| == 8 && NonZero(data) != []
    ensures ENavi(CanToBin(data), buffer) == Ok(NaviStep(NonZero(data), buffer))
  {
    var raw := CanToBin(data);
    CanToBinValue(data);
    BigEndianBound(data);
    BytesOfBigEndian(data);
    assert raw != [];
    assert BinValue(raw) < Pow2(64);
  }

  /** A frame without a non-zero byte makes `e_navi` fail on `msg[0]`. */
  lemma ENaviBlankFrame(data: seq<Byte>, buffer: string)
    requires |data| == 8 && forall i :: 0 <= i < 8 ==> data[i] == 0
    ensures ENavi(CanToBin(data), buffer) == Raise(IndexError)
  {
    CanToBinValue(data);
    BigEndianBound(data);
    BytesOfBigEndian(data);
    NonZeroOfZeros(data);
  }

  lemma {:induction false} NonZeroOfZeros(bytes: seq<Byte>)
    requires forall i :: 0 <= i < |bytes| ==> bytes[i] == 0
    ensures NonZero(bytes) == []
    decreases |bytes|
  {
    if bytes != [] {
      NonZeroOfZeros(bytes[..|bytes| - 1]);
    }
  }
}

=== FILE: messagemap.dfy ===
/** The message database of `oleomgr.py`: an ordered map from frame id to
  message, kept sorted by id, merged on import with the messages already
  present winning, and filtered signal by signal on export.
*/
module Database {
  import opened Wrappers
  import opened Text
  import opened PyDict
  import opened BitCodec

  /** `signal.scale` as far as the C generator needs it: exactly 1, or the
      text `str(scale)` gives. */
  datatype Scale = UnitScale | ScaleText(text: string)

  /** `signal.offset`: zero, or the text of a positive offset, or the text
      of the absolute value of a negative one. */
  datatype Offset = NoOffset | PlusOffset(text: string) | MinusOffset(absText: string)

  datatype Signal = Signal(name: string, start: nat, length: nat, isSigned: bool,
                           scale: Scale, offset: Offset)

  datatype Message = Message(frameId: nat, name: string, signals: seq<Signal>)

  type MessageMap = Dict<nat, Message>

  // ------------------------------------------------------------------ to_hex

  /** `to_hex(v)`: at least three upper-case hexadecimal digits. */
  function ToHex(v: nat): (r: string)
    ensures |r| >= 3 && AllHexDigits(r) && NoLowerHex(r)
    ensures v < 0x1000 ==> |r| == 3
  {
    UpperHexDigits(v);
    HexDigitsBelow4096(v, true);
    FormatHex(v, 3, true)
  }

  /** The YAML `id` field `"0x" + to_hex(id)` is read back by `int(id, 16)`. */
  lemma ToHexRoundTrip(v: nat)
    ensures ParseHex("0x" + ToHex(v)) == Some(v)
    ensures ParseHex(ToHex(v)) == Some(v)
  {
    ParseHexOfFormatHex(v, 3, true);
  }

  // ---------------------------------------------------- sort by frame id

  predicate SortedById(m: MessageMap) {
    forall i, j :: 0 <= i < j < |m| ==> m[i].0 <= m[j].0
  }

  predicate StrictlySortedById(m: MessageMap) {
    forall i, j :: 0 <= i < j < |m| ==> m[i].0 < m[j].0
  }

  lemma SortedCons(x: (nat, Message), m: MessageMap)
    requires SortedById(m) && (m != [] ==> x.0 <= m[0].0)
    ensures SortedById([x] + m)
  {
    var r := [x] + m;
    forall i, j | 0 <= i < j < |r|
      ensures r[i].0 <= r[j].0
    {
      if i == 0 {
        assert r[j] == m[j - 1];
      } else {
        assert r[i] == m[i - 1] && r[j] == m[j - 1];
      }
    }
  }

  /** Insert one entry into a map sorted by id, before the first larger id. */
  function Insert(e: (nat, Message), m: MessageMap): (r: MessageMap)
    requires SortedById(m)
    ensures SortedById(r)
    ensures multiset(r) == multiset(m) + multiset{e}
    ensures |r| == |m| + 1
    ensures r[0] == e || (m != [] && r[0] == m[0])
  {
    if m == [] then [e]
    else if e.0 <= m[0].0 then
      SortedCons(e, m);
      [e] + m
    else
      var rest := Insert(e, m[1..]);
      InsertBehindHead(e, m, rest);
      [m[0]] + rest
  }

  /** Keeping the head of `m` in front of the insertion into its tail. */
  lemma InsertBehindHead(e: (nat, Message), m: MessageMap, rest: MessageMap)
    requires SortedById(m) && m != [] && m[0].0 < e.0
    requires SortedById(rest) && |rest| == |m|
    requires multiset(rest) == multiset(m[1..]) + multiset{e}
    requires rest[0] == e || (m[1..] != [] && rest[0] == m[1..][0])
    ensures SortedById([m[0]] + rest)
    ensures multiset([m[0]] + rest) == multiset(m) + multiset{e}
  {
    assert m == [m[0]] + m[1..];
    assert multiset(m) == multiset{m[0]} + multiset(m[1..]);
    assert m[0].0 <= rest[0].0 by {
      if rest[0] != e {
        assert m[1..][0] == m[1];
      }
    }
    SortedCons(m[0], rest);
    assert multiset([m[0]] + rest) == multiset{m[0]} + multiset(rest);
  }

  /** `OrderedDict(sorted(self.messages.items()))`: the same entries, in
      order of increasing frame id. */
  function SortById(m: MessageMap): (r: MessageMap)
    ensures SortedById(r)
    ensures multiset(r) == multiset(m)
    ensures |r| == |m|
  {
    if m == [] then []
    else
      assert m == [m[0]] + m[1..];
      Insert(m[0], SortById(m[1..]))
  }

  /** Sorting neither adds nor drops an id. */
  lemma SortKeepsKeys(m: MessageMap, id: nat)
    ensures HasKey(SortById(m), id) <==> HasKey(m, id)
  {
    var r := SortById(m);
    if HasKey(m, id) {
      var i := IndexOf(m, id);
      assert m[i] in multiset(r);
      var j :| 0 <= j < |r| && r[j] == m[i];
      assert Keys(r)[j] == id;
    }
    if HasKey(r, id) {
      var i := IndexOf(r, id);
      assert r[i] in multiset(m);
      var j :| 0 <= j < |m| && m[j] == r[i];
      assert Keys(m)[j] == id;
    }
  }

  /** Inserting a new id into a strictly sorted map keeps it strictly sorted. */
  lemma {:induction false} InsertStrict(e: (nat, Message), m: MessageMap)
    requires StrictlySortedById(m) && !HasKey(m, e.0)
    ensures StrictlySortedById(Insert(e, m))
    decreases |m|
  {
    if m != [] {
      assert Keys(m)[0] == m[0].0;
      if e.0 > m[0].0 {
        assert Keys(m[1..]) == Keys(m)[1..];
        InsertStrict(e, m[1..]);
      } else {
        assert e.0 < m[0].0;
      }
    }
  }

  /** With distinct ids, the sorted map's ids strictly increase. */
  lemma {:induction false} SortByIdStrict(m: MessageMap)
    requires DistinctKeys(m)
    ensures StrictlySortedById(SortById(m))
    decreases |m|
  {
    if m != [] {
      SortByIdStrict(m[1..]);
      SortKeepsKeys(m[1..], m[0].0);
      assert !HasKey(m[1..], m[0].0) by {
        assert forall i :: 0 <= i < |m| - 1 ==> Keys(m[1..])[i] == m[i + 1].0 != m[0].0;
      }
      InsertStrict(m[0], SortById(m[1..]));
    }
  }

  // ------------------------------------------------------------------ merge

  /** `Get` on the first entry and on the rest of a non-empty map. */
  lemma GetCons<K, V>(d: Dict<K, V>, k: K)
    requires d != []
    ensures Get(d, k) == if d[0].0 == k then Some(d[0].1) else Get(d[1..], k)
  {
    assert Keys(d) == [d[0].0] + Keys(d[1..]);
    if d[0].0 != k && HasKey(d, k) {
      assert HasKey(d[1..], k);
      assert IndexOf(d, k) == 1 + IndexOf(d[1..], k) by {
        var i := IndexOf(d[1..], k);
        IndexOfFirst(d, k, i + 1);
      }
    }
  }

  /** The outcome of an import: the new map and how many of the offered
      messages were added or skipped. */
  datatype Merged = Merged(messages: MessageMap, added: nat, ignored: nat)

  /** The merge loop of `import_from_yaml` (and, without the counters, of
      `import_from_dbc`): an offered id already present is skipped, a new
      one is appended. */
  function Merge(existing: MessageMap, offered: seq<(nat, Message)>): (r: Merged)
    ensures r.added + r.ignored == |offered|
    ensures |r.messages| == |existing| + r.added
    ensures r.messages[..|existing|] == existing
    decreases |offered|
  {
    if offered == [] then Merged(existing, 0, 0)
    else
      var e := offered[0];
      if HasKey(existing, e.0) then
        var rest := Merge(existing, offered[1..]);
        Merged(rest.messages, rest.added, rest.ignored + 1)
      else
        var grown := Assign(existing, e.0, e.1);
        assert grown == existing + [e];
        var rest := Merge(grown, offered[1..]);
        assert rest.messages[..|existing|] == rest.messages[..|grown|][..|existing|];
        Merged(rest.messages, rest.added + 1, rest.ignored)
  }

  /** After a merge every id already present keeps its message, and every
      new id carries the first message offered for it. */
  lemma {:induction false} MergeGet(existing: MessageMap, offered: seq<(nat, Message)>, id: nat)
    ensures Get(Merge(existing, offered).messages, id)
            == if HasKey(existing, id) then Get(existing, id) else Get(offered, id)
    decreases |offered|
  {
    if offered != [] {
      var e := offered[0];
      GetCons(offered, id);
      if HasKey(existing, e.0) {
        MergeGet(existing, offered[1..], id);
        if e.0 == id {
          assert HasKey(existing, id);
        }
      } else {
        var grown := Assign(existing, e.0, e.1);
        MergeGet(grown, offered[1..], id);
        AssignGet(existing, e.0, e.1, id);
        assert HasKey(grown, id) <==> HasKey(existing, id) || id == e.0 by {
          assert Keys(grown) == Keys(existing) + [e.0];
        }
      }
    }
  }

  /** Merging keeps the ids distinct. */
  lemma {:induction false} MergeDistinct(existing: MessageMap, offered: seq<(nat, Message)>)
    requires DistinctKeys(existing)
    ensures DistinctKeys(Merge(existing, offered).messages)
    decreases |offered|
  {
    if offered != [] {
      var e := offered[0];
      if HasKey(existing, e.0) {
        MergeDistinct(existing, offered[1..]);
      } else {
        MergeDistinct(Assign(existing, e.0, e.1), offered[1..]);
      }
    }
  }

  /** The tail of `import_from_yaml`: merge the loaded tree, then sort and
      succeed if the database is not empty; `None` stands for `False`. */
  function ImportTree(existing: MessageMap, tree: MessageMap): (r: Option<Merged>)
    ensures r.None? <==> existing == [] && tree == []
    ensures r.Some? ==> SortedById(r.value.messages)
    ensures r.Some? ==> r.value.added + r.value.ignored == |tree|
  {
    var merged := Merge(existing, tree);
    if |merged.messages| > 0 then
      Some(Merged(SortById(merged.messages), merged.added, merged.ignored))
    else
      None
  }

  /** The entries `import_from_dbc` offers: each loaded message under its
      frame id, in file order. */
  function Offered(loaded: seq<Message>): (offered: seq<(nat, Message)>)
    ensures |offered| == |loaded|
  {
    seq(|loaded|, i requires 0 <= i < |loaded| => (loaded[i].frameId, loaded[i]))
  }

  /** `import_from_dbc` after the file is loaded: new ids are added in file
      order, then the map is sorted. */
  function ImportDbc(existing: MessageMap, loaded: seq<Message>): (r: MessageMap)
    ensures SortedById(r)
    ensures |r| >= |existing|
  {
    SortById(Merge(existing, Offered(loaded)).messages)
  }

  /** After a DBC import the database holds exactly the ids it held before
      and those of the loaded messages; an id already present keeps its
      message, and a new id gets the first loaded message that carries it. */
  lemma ImportDbcGet(existing: MessageMap, loaded: seq<Message>, id: nat)
    requires DistinctKeys(existing)
    ensures HasKey(ImportDbc(existing, loaded), id)
            <==> HasKey(existing, id) || exists i :: 0 <= i < |loaded| && loaded[i].frameId == id
    ensures Get(ImportDbc(existing, loaded), id)
            == if HasKey(existing, id) then Get(existing, id) else Get(Offered(loaded), id)
  {
    var offered := Offered(loaded);
    var merged := Merge(existing, offered).messages;
    MergeGet(existing, offered, id);
    MergeDistinct(existing, offered);
    SortKeepsGet(merged, id);
    if exists i :: 0 <= i < |loaded| && loaded[i].frameId == id {
      var i :| 0 <= i < |loaded| && loaded[i].frameId == id;
      assert Keys(offered)[i] == id;
    }
    if HasKey(offered, id) {
      var i := IndexOf(offered, id);
      assert loaded[i].frameId == id;
    }
  }

  /** Sorting a map with distinct ids changes no id's message. */
  lemma SortKeepsGet(m: MessageMap, id: nat)
    requires DistinctKeys(m)
    ensures Get(SortById(m), id) == Get(m, id)
  {
    SortKeepsKeys(m, id);
    SortByIdStrict(m);
    var r := SortById(m);
    if HasKey(m, id) {
      var i := IndexOf(r, id);
      assert r[i] in multiset(m);
      var j :| 0 <= j < |m| && m[j] == r[i];
      assert r[i] == m[j];
    }
  }

  // ---------------------------------------------------------- YAML import

  /** The `bits` field of each YAML signal through `yml_bits_decode`: a
      token that decodes to `False` is skipped; an exception escapes. */
  function ImportBits(tokens: seq<string>): (r: Result<seq<(int, nat)>>)
    ensures r.Ok? ==> |r.value| <= |tokens|
    decreases |tokens|
  {
    if tokens == [] then Ok([])
    else
      var rest :- ImportBits(tokens[..|tokens| - 1]);
      var decoded :- DecodeBits(tokens[|tokens| - 1], MODE_OLEO);
      if decoded.None? then Ok(rest) else Ok(rest + [decoded.value])
  }

  /** Each token through `yml_bits_decode`. */
  function DecodeAll(tokens: seq<string>): (ds: seq<Result<Option<(int, nat)>>>)
    ensures |ds| == |tokens|
  {
    seq(|tokens|, i requires 0 <= i < |tokens| => DecodeBits(tokens[i], MODE_OLEO))
  }

  /** The import loop over already decoded tokens: the first exception
      escapes, a `None` adds nothing, a placement is appended. */
  function Keep(ds: seq<Result<Option<(int, nat)>>>): (r: Result<seq<(int, nat)>>)
    decreases |ds|
  {
    if ds == [] then Ok([])
    else
      var rest :- Keep(ds[..|ds| - 1]);
      var decoded :- ds[|ds| - 1];
      if decoded.None? then Ok(rest) else Ok(rest + [decoded.value])
  }

  /** How many decoded tokens are placements. */
  function PlacedCount(ds: seq<Result<Option<(int, nat)>>>): nat
    decreases |ds|
  {
    if ds == [] then 0
    else PlacedCount(ds[..|ds| - 1]) + (if ds[|ds| - 1].Ok? && ds[|ds| - 1].value.Some? then 1 else 0)
  }

  lemma {:induction false} ImportBitsIsKeep(tokens: seq<string>)
    ensures ImportBits(tokens) == Keep(DecodeAll(tokens))
    decreases |tokens|
  {
    if tokens != [] {
      var init := tokens[..|tokens| - 1];
      ImportBitsIsKeep(init);
      assert DecodeAll(tokens)[..|tokens| - 1] == DecodeAll(init);
    }
  }

  /** The loop fails exactly when some token's decoding raises. */
  lemma {:induction false} KeepRaises(ds: seq<Result<Option<(int, nat)>>>)
    ensures Keep(ds).Raise? <==> exists i :: 0 <= i < |ds| && ds[i].Raise?
    decreases |ds|
  {
    if ds != [] {
      var init := ds[..|ds| - 1];
      KeepRaises(init);
      assert forall i :: 0 <= i < |init| ==> init[i] == ds[i];
    }
  }

  /** A successful loop keeps the placements in order: the decoded token
      at `i`, when it is a placement, is entry `PlacedCount(ds[..i])`,
      and nothing else adds an entry. */
  lemma {:induction false} KeepOrder(ds: seq<Result<Option<(int, nat)>>>)
    requires Keep(ds).Ok?
    ensures |Keep(ds).value| == PlacedCount(ds)
    ensures forall i :: 0 <= i < |ds| && ds[i].Ok? && ds[i].value.Some? ==>
              && PlacedCount(ds[..i]) < |Keep(ds).value|
              && Keep(ds).value[PlacedCount(ds[..i])] == ds[i].value.value
    decreases |ds|
  {
    if ds != [] {
      var init, last := ds[..|ds| - 1], ds[|ds| - 1];
      KeepOrder(init);
      forall i | 0 <= i < |ds| && ds[i].Ok? && ds[i].value.Some?
        ensures PlacedCount(ds[..i]) < |Keep(ds).value|
        ensures Keep(ds).value[PlacedCount(ds[..i])] == ds[i].value.value
      {
        if i < |init| {
          assert ds[..i] == init[..i];
          assert init[i] == ds[i];
        } else {
          assert ds[..i] == init;
        }
      }
    }
  }

  /** `yml_bits_decode` over a signal list's tokens: the import raises
      exactly when one token's decoding raises; otherwise it holds one
      entry per token that decodes to a placement, in token order, and
      none for a token that decodes to `None`. */
  lemma ImportBitsKeeps(tokens: seq<string>)
    ensures ImportBits(tokens).Raise? <==> exists i :: 0 <= i < |tokens| && DecodeBits(tokens[i], MODE_OLEO).Raise?
    ensures ImportBits(tokens).Ok? ==> |ImportBits(tokens).value| == PlacedCount(DecodeAll(tokens))
    ensures ImportBits(tokens).Ok? ==>
              forall i :: 0 <= i < |tokens| && DecodeBits(tokens[i], MODE_OLEO).Ok? && DecodeBits(tokens[i], MODE_OLEO).value.Some? ==>
                && PlacedCount(DecodeAll(tokens[..i])) < |ImportBits(tokens).value|
                && ImportBits(tokens).value[PlacedCount(DecodeAll(tokens[..i]))] == DecodeBits(tokens[i], MODE_OLEO).value.value
  {
    var ds := DecodeAll(tokens);
    ImportBitsIsKeep(tokens);
    KeepRaises(ds);
    forall i | 0 <= i < |tokens|
      ensures ds[i] == DecodeBits(tokens[i], MODE_OLEO) && DecodeAll(tokens[..i]) == ds[..i]
    {
    }
    if ImportBits(tokens).Ok? {
      KeepOrder(ds);
    }
  }

  /** The bits each signal is exported with (OLEO tokens). */
  function ExportBits(signals: seq<Signal>): (tokens: seq<string>)
    ensures |tokens| == |signals|
  {
    seq(|signals|, i requires 0 <= i < |signals| => EncodeBits(signals[i].start, signals[i].length, MODE_OLEO).value)
  }

  /** A signal that ends within byte 8 and has at least one bit. */
  predicate Placeable(s: Signal) {
    s.length >= 1 && EndCursor(s.start, s.length).byte <= 8
  }

  /** Each signal's start bit and length. */
  function Placements(signals: seq<Signal>): (ps: seq<(int, nat)>)
    ensures |ps| == |signals|
    ensures forall i :: 0 <= i < |signals| ==> ps[i] == (signals[i].start as int, signals[i].length)
  {
    if signals == [] then []
    else Placements(signals[..|signals| - 1]) + [(signals[|signals| - 1].start as int, signals[|signals| - 1].length)]
  }

  /** Exporting signals to YAML and importing them again restores every
      start bit and length. */
  lemma {:induction false} ExportImportBits(signals: seq<Signal>)
    requires forall i :: 0 <= i < |signals| ==> Placeable(signals[i])
    ensures ImportBits(ExportBits(signals)) == Ok(Placements(signals))
    decreases |signals|
  {
    var tokens := ExportBits(signals);
    if signals == [] {
      assert tokens == [];
    } else {
      var n := |signals|;
      var init, last := signals[..n - 1], signals[n - 1];
      assert tokens[..n - 1] == ExportBits(init);
      assert tokens[n - 1] == EncodeBits(last.start, last.length, MODE_OLEO).value;
      ExportImportBits(init);
      OleoRoundTrip(last.start, last.length);
    }
  }

  // ---------------------------------------------------------- export filters

  /** An entry of the include list: `1` (every signal) or a list of signal
      positions. */
  datatype Include = AllSignals | Offsets(positions: seq<int>)

  type IncludeList = Dict<nat, Include>

  /** The filter of `export_to_yaml`, `export_to_struct` and
      `export_parser_c` as written: a signal is kept when the counter is in
      the list, and the counter counts only the signals kept so far. */
  function CountingFilter<T>(xs: seq<T>, positions: seq<int>): (r: seq<T>)
    ensures |r| <= |xs|
    decreases |xs|
  {
    if xs == [] then []
    else
      var kept := CountingFilter(xs[..|xs| - 1], positions);
      if |kept| in positions then kept + [xs[|xs| - 1]] else kept
  }

  /** The filter of `export_to_dbc`, and the corrected filter of the other
      exports: a signal is kept when its own position is in the list. */
  function PositionFilter<T>(xs: seq<T>, positions: seq<int>): (r: seq<T>)
    ensures |r| <= |xs|
    decreases |xs|
  {
    if xs == [] then []
    else
      var kept := PositionFilter(xs[..|xs| - 1], positions);
      if |xs| - 1 in positions then kept + [xs[|xs| - 1]] else kept
  }

  /** The positions below `n` that the list names, in increasing order. */
  function Selected(n: nat, positions: seq<int>): (s: seq<nat>)
    ensures forall k :: 0 <= k < |s| ==> s[k] < n && s[k] in positions
    ensures forall k, l :: 0 <= k < l < |s| ==> s[k] < s[l]
    ensures forall i :: 0 <= i < n && i in positions ==> i in s
  {
    if n == 0 then [] else Selected(n - 1, positions) + (if n - 1 in positions then [n - 1] else [])
  }

  /** The DBC filter keeps exactly the signals at the listed positions, in
      their original order. */
  lemma {:induction false} PositionFilterSelects<T>(xs: seq<T>, positions: seq<int>)
    ensures var s := Selected(|xs|, positions);
            PositionFilter(xs, positions) == seq(|s|, k requires 0 <= k < |s| => xs[s[k]])
    decreases |xs|
  {
    if xs != [] {
      var n := |xs|;
      PositionFilterSelects(xs[..n - 1], positions);
    }
  }

  /** `r` is the longest prefix of `xs` whose positions are all listed:
      the signals before the first position the list leaves out. */
  ghost predicate ListedPrefix<T>(xs: seq<T>, positions: seq<int>, r: seq<T>) {
    && |r| <= |xs| && r == xs[..|r|]
    && (forall j :: 0 <= j < |r| ==> j in positions)
    && (|r| < |xs| ==> |r| !in positions)
  }

  /** The export filter keeps a prefix: the first signals, up to the first
      position missing from the list. */
  lemma {:induction false} CountingFilterPrefix<T>(xs: seq<T>, positions: seq<int>)
    ensures ListedPrefix(xs, positions, CountingFilter(xs, positions))
    decreases |xs|
  {
    if xs != [] {
      var n := |xs|;
      CountingFilterPrefix(xs[..n - 1], positions);
      var kept := CountingFilter(xs[..n - 1], positions);
      assert kept == xs[..|kept|];
      if |kept| in positions {
        assert |kept| == n - 1;
        assert kept + [xs[n - 1]] == xs[..n];
      }
    }
  }

  /** When the listed positions are exactly the first few, both filters
      agree. */
  lemma FiltersAgreeOnPrefix<T>(xs: seq<T>, positions: seq<int>, m: nat)
    requires forall j :: 0 <= j < |xs| ==> (j in positions <==> j < m)
    ensures CountingFilter(xs, positions) == PositionFilter(xs, positions)
  {
    CountingFilterPrefix(xs, positions);
    var r := CountingFilter(xs, positions);
    var k := if m < |xs| then m else |xs|;
    assert |r| == k by {
      assert |r| < |xs| ==> |r| !in positions;
      assert forall j :: 0 <= j < |r| ==> j in positions;
      assert forall j :: 0 <= j < |xs| && j < m ==> j in positions;
      assert m < |xs| ==> m !in positions;
    }
    PositionFilterPrefix(xs, positions, k);
  }

  /** When the listed positions are exactly the first `k`, the DBC filter
      keeps the first `k` signals. */
  lemma {:induction false} PositionFilterPrefix<T>(xs: seq<T>, positions: seq<int>, k: nat)
    requires k <= |xs|
    requires forall j :: 0 <= j < |xs| ==> (j in positions <==> j < k)
    ensures PositionFilter(xs, positions) == xs[..k]
    decreases |xs|
  {
    if xs != [] {
      var n := |xs|;
      var init := xs[..n - 1];
      if k == n {
        PositionFilterPrefix(init, positions, k - 1);
        assert init[..k - 1] == init;
        assert init + [xs[n - 1]] == xs[..k];
      } else {
        PositionFilterPrefix(init, positions, k);
        assert init[..k] == xs[..k];
      }
    }
  }

  /** Listing only the second signal exports nothing through the export
      filter, but exports that signal through the DBC filter. */
  lemma FiltersDisagree<T>(a: T, b: T)
    ensures CountingFilter([a, b], [1]) == []
    ensures PositionFilter([a, b], [1]) == [b]
  {
    assert [a, b][..1] == [a];
    assert [a][..0] == [];
  }

  /** The signals `export_to_yaml` writes for a listed message.  An entry
      `1` writes all of them.  For a list, the counting filter as written
      (`fixed` false) writes the signals before the first position the list
      leaves out; the corrected filter writes those at the listed positions. */
  function YamlSignals(signals: seq<Signal>, inc: Include, fixed: bool): (r: seq<Signal>)
    ensures inc.AllSignals? ==> r == signals
    ensures inc.Offsets? && !fixed ==> ListedPrefix(signals, inc.positions, r)
    ensures inc.Offsets? && fixed ==> var s := Selected(|signals|, inc.positions);
            r == seq(|s|, k requires 0 <= k < |s| => signals[s[k]])
  {
    match inc
    case AllSignals => signals
    case Offsets(positions) =>
      if fixed then PositionFilterSelects(signals, positions); PositionFilter(signals, positions)
      else CountingFilterPrefix(signals, positions); CountingFilter(signals, positions)
  }

  /** The signals `export_to_struct` and `export_parser_c` emit for a
      message: all of them without an include list; for an entry `1`, the
      membership test `offset in 1` raises `TypeError` at the first signal;
      for a list, the counting filter as written or the corrected one, as
      for the YAML export. */
  function CodeSignals(signals: seq<Signal>, inc: Option<Include>, fixed: bool): (r: Result<seq<Signal>>)
    ensures inc.None? ==> r == Ok(signals)
    ensures inc == Some(AllSignals) ==> (r.Raise? <==> signals != [])
    ensures r.Raise? ==> r.error == TypeError
    ensures inc.Some? && inc.value.Offsets? && !fixed ==>
              r.Ok? && ListedPrefix(signals, inc.value.positions, r.value)
    ensures inc.Some? && inc.value.Offsets? && fixed ==> var s := Selected(|signals|, inc.value.positions);
            r.Ok? && r.value == seq(|s|, k requires 0 <= k < |s| => signals[s[k]])
  {
    match inc
    case None => Ok(signals)
    case Some(AllSignals) => if signals == [] then Ok([]) else Raise(TypeError)
    case Some(Offsets(positions)) => Ok(YamlSignals(signals, Offsets(positions), fixed))
  }

  /** The signals `export_to_dbc` keeps for a listed message: its counter
      advances for every signal, so a list keeps exactly the signals at the
      listed positions. */
  function DbcSignals(signals: seq<Signal>, inc: Include): (r: seq<Signal>)
    ensures inc.AllSignals? ==> r == signals
    ensures inc.Offsets? ==> |r| <= |signals|
    ensures inc.Offsets? ==> var s := Selected(|signals|, inc.positions);
            r == seq(|s|, k requires 0 <= k < |s| => signals[s[k]])
  {
    match inc
    case AllSignals => signals
    case Offsets(positions) => PositionFilterSelects(signals, positions); PositionFilter(signals, positions)
  }

  /** The messages an export visits: those whose id the include list names
      (all of them when there is no list), in map order. */
  function ListedMessages(m: MessageMap, inc: Option<IncludeList>): (r: seq<Message>)
    ensures |r| <= |m|
    ensures forall i :: 0 <= i < |r| ==> inc.None? || HasKey(inc.value, r[i].frameId)
    decreases |m|
  {
    if m == [] then []
    else
      var rest := ListedMessages(m[..|m| - 1], inc);
      var msg := m[|m| - 1].1;
      if inc.None? || HasKey(inc.value, msg.frameId) then rest + [msg] else rest
  }
}

=== FILE: octets.dfy ===
/** Byte values as Python holds them (`int` in 0 .. 255) and as the
  checksum works on them (`bv8`).
*/
module Octets {

  /** A byte value below 256 as a `bv8`, counted up from zero so that no
      conversion from `int` is needed. */
  function ToBv(x: nat): (r: bv8)
    requires x < 256
    ensures r as nat == x
  {
    if x == 0 then 0 else Succ(ToBv(x - 1))
  }

  /** The next `bv8`, which does not wrap below 255. */
  function Succ(b: bv8): (r: bv8)
    requires b as nat < 255
    ensures r as nat == b as nat + 1
  {
    b + 1
  }

  /** Byte values as the checksum sees them. */
  function AsBits(bytes: seq<nat>): (r: seq<bv8>)
    requires forall i :: 0 <= i < |bytes| ==> bytes[i] < 256
    ensures |r| == |bytes|
    ensures forall i :: 0 <= i < |r| ==> r[i] as nat == bytes[i]
  {
    seq(|bytes|, i requires 0 <= i < |bytes| => ToBv(bytes[i]))
  }
}

=== FILE: pydict.dfy ===
/** Python's insertion-ordered `dict`, as a sequence of key/value pairs with
  distinct keys.  Assigning to a key that is already present keeps its place;
  assigning to a new key appends it at the end. */
module PyDict {
  import opened Wrappers

  type Dict<K, V> = seq<(K, V)>

  predicate DistinctKeys<K(==), V>(d: Dict<K, V>) {
    forall i, j :: 0 <= i < j < |d| ==> d[i].0 != d[j].0
  }

  /** The keys in iteration order (`list(d)`). */
  function Keys<K, V>(d: Dict<K, V>): seq<K> {
    seq(|d|, i requires 0 <= i < |d| => d[i].0)
  }

  /** `k in d`. */
  predicate HasKey<K(==), V>(d: Dict<K, V>, k: K) {
    k in Keys(d)
  }

  /** Position of the (first) pair with key `k`. */
  function IndexOf<K(==), V>(d: Dict<K, V>, k: K): (i: nat)
    requires HasKey(d, k)
    ensures i < |d| && d[i].0 == k
    ensures forall j :: 0 <= j < i ==> d[j].0 != k
  {
    if d[0].0 == k then 0
    else
      assert Keys(d[1..]) == Keys(d)[1..];
      1 + IndexOf(d[1..], k)
  }

  /** `d.get(k)`: the value stored under `k`, if any. */
  function Get<K(==), V>(d: Dict<K, V>, k: K): (r: Option<V>)
    ensures r.Some? <==> HasKey(d, k)
    ensures r.Some? ==> (k, r.value) in d
    ensures DistinctKeys(d) ==> forall i :: 0 <= i < |d| && d[i].0 == k ==> r == Some(d[i].1)
  {
    assert forall i :: 0 <= i < |d| ==> Keys(d)[i] == d[i].0;
    if HasKey(d, k) then Some(d[IndexOf(d, k)].1) else None
  }

  /** The first pair with key `k` is the one `IndexOf` finds. */
  lemma {:induction false} IndexOfFirst<K, V>(d: Dict<K, V>, k: K, i: nat)
    requires i < |d| && d[i].0 == k
    requires forall j :: 0 <= j < i ==> d[j].0 != k
    ensures HasKey(d, k) && IndexOf(d, k) == i
    decreases i
  {
    assert Keys(d)[i] == k;
    if i > 0 {
      assert Keys(d[1..]) == Keys(d)[1..];
      IndexOfFirst(d[1..], k, i - 1);
    }
  }

  /** `d[k] = v`. */
  function Assign<K(==), V>(d: Dict<K, V>, k: K, v: V): (r: Dict<K, V>)
    ensures HasKey(d, k) ==> Keys(r) == Keys(d)
    ensures !HasKey(d, k) ==> Keys(r) == Keys(d) + [k]
    ensures Get(r, k) == Some(v)
    ensures DistinctKeys(d) ==> DistinctKeys(r)
  {
    if HasKey(d, k) then
      var i := IndexOf(d, k);
      var r := d[i := (k, v)];
      IndexOfFirst(r, k, i);
      assert Keys(r) == Keys(d);
      r
    else
      var r := d + [(k, v)];
      assert forall j :: 0 <= j < |d| ==> d[j].0 != k by {
        forall j | 0 <= j < |d| ensures d[j].0 != k {
          assert Keys(d)[j] == d[j].0;
        }
      }
      IndexOfFirst(r, k, |d|);
      assert Keys(r) == Keys(d) + [k];
      r
  }

  /** Assigning one key leaves every other key's value alone. */
  lemma AssignGet<K, V>(d: Dict<K, V>, k: K, v: V, j: K)
    ensures Get(Assign(d, k, v), j) == if j == k then Some(v) else Get(d, j)
  {
    var r := Assign(d, k, v);
    if j != k {
      assert HasKey(r, j) <==> HasKey(d, j) by {
        assert HasKey(d, k) ==> Keys(r) == Keys(d);
        assert !HasKey(d, k) ==> Keys(r) == Keys(d) + [k];
      }
      if HasKey(d, j) {
        var i := IndexOf(d, j);
        assert r[i] == d[i];
        assert IndexOf(r, j) == i;
      }
    }
  }

  /** Building a dict by assigning the pairs of a list in order: a later pair
      overwrites an earlier one with the same key. */
  function FromPairs<K(==), V>(pairs: seq<(K, V)>): (r: Dict<K, V>)
    ensures DistinctKeys(r)
    decreases |pairs|
  {
    if pairs == [] then []
    else
      var last := pairs[|pairs| - 1];
      Assign(FromPairs(pairs[..|pairs| - 1]), last.0, last.1)
  }
}

=== FILE: text.dfy ===
/** The few Python string primitives the modelled code relies on:
  `str(n)` and `int(s)` for decimal numbers, `"{:x}".format(n)` and
  `int(s, 16)` for hexadecimal ones, and `str.split` / `str.join` with a
  one-character separator.
*/
module Text {
  import opened Wrappers

  // ---------------------------------------------------------------- decimal

  predicate IsDigit(c: char) {
    '0' <= c <= '9'
  }

  predicate AllDigits(s: string) {
    forall i :: 0 <= i < |s| ==> IsDigit(s[i])
  }

  function DigitChar(d: nat): (c: char)
    requires d < 10
    ensures IsDigit(c) && c as int - '0' as int == d
  {
    ('0' as int + d) as char
  }

  /** Python's `str(n)` for a non-negative integer. */
  function NatToString(n: nat): (s: string)
    ensures |s| >= 1 && AllDigits(s)
    ensures n < 10 <==> |s| == 1
    decreases n
  {
    if n < 10 then [DigitChar(n)] else NatToString(n / 10) + [DigitChar(n % 10)]
  }

  /** Python's `str(i)` for any integer. */
  function IntToString(i: int): (s: string)
    ensures |s| >= 1
    ensures i < 0 <==> s[0] == '-'
  {
    if i < 0 then "-" + NatToString(-i) else NatToString(i)
  }

  /** The number a string of decimal digits denotes (leading zeros allowed). */
  function DigitsValue(s: string): nat
    requires AllDigits(s)
  {
    if s == [] then 0
    else DigitsValue(s[..|s| - 1]) * 10 + (s[|s| - 1] as int - '0' as int)
  }

  /** Python's `int(s)` on the inputs this model admits: a non-empty run of
      decimal digits.  Anything else raises `ValueError`, reported as `None`. */
  function ParseDecimal(s: string): (r: Option<nat>)
    ensures r.Some? <==> |s| >= 1 && AllDigits(s)
  {
    if |s| >= 1 && AllDigits(s) then Some(DigitsValue(s)) else None
  }

  lemma {:induction false} DigitsValueOfNatToString(n: nat)
    ensures DigitsValue(NatToString(n)) == n
    decreases n
  {
    if n >= 10 {
      var s := NatToString(n);
      assert s[..|s| - 1] == NatToString(n / 10);
      DigitsValueOfNatToString(n / 10);
    }
  }

  /** `int(str(n)) == n`. */
  lemma ParseDecimalOfNatToString(n: nat)
    ensures ParseDecimal(NatToString(n)) == Some(n)
  {
    DigitsValueOfNatToString(n);
  }

  lemma NatToStringNoSeparator(n: nat, c: char)
    requires !IsDigit(c)
    ensures c !in NatToString(n)
  {
  }

  // ------------------------------------------------------------ hexadecimal

  predicate IsHexDigit(c: char) {
    IsDigit(c) || 'a' <= c <= 'f' || 'A' <= c <= 'F'
  }

  predicate AllHexDigits(s: string) {
    forall i :: 0 <= i < |s| ==> IsHexDigit(s[i])
  }

  function HexDigitValue(c: char): (v: nat)
    requires IsHexDigit(c)
    ensures v < 16
  {
    if IsDigit(c) then c as int - '0' as int
    else if 'a' <= c <= 'f' then c as int - 'a' as int + 10
    else c as int - 'A' as int + 10
  }

  /** One hexadecimal digit, as `format` writes it (`x`) or after `.upper()`. */
  function HexChar(d: nat, upper: bool): (c: char)
    requires d < 16
    ensures IsHexDigit(c) && HexDigitValue(c) == d
  {
    if d < 10 then DigitChar(d)
    else if upper then ('A' as int + d - 10) as char
    else ('a' as int + d - 10) as char
  }

  /** The hexadecimal digits of `n`, most significant first, no leading zeros. */
  function HexDigits(n: nat, upper: bool): (s: string)
    ensures |s| >= 1 && AllHexDigits(s)
    decreases n
  {
    if n < 16 then [HexChar(n, upper)] else HexDigits(n / 16, upper) + [HexChar(n % 16, upper)]
  }

  function HexValue(s: string): nat
    requires AllHexDigits(s)
  {
    if s == [] then 0
    else HexValue(s[..|s| - 1]) * 16 + HexDigitValue(s[|s| - 1])
  }

  function Zeros(n: nat): (s: string)
    ensures |s| == n && forall i :: 0 <= i < n ==> s[i] == '0'
  {
    if n == 0 then "" else "0" + Zeros(n - 1)
  }

  /** Python's `"{0:0{1}x}".format(n, width)`, optionally followed by
      `.upper()`: the hexadecimal digits of `n` left-padded with zeros to
      at least `width` characters. */
  function FormatHex(n: nat, width: int, upper: bool): (s: string)
    ensures |s| == if width > |HexDigits(n, upper)| then width else |HexDigits(n, upper)|
    ensures AllHexDigits(s)
  {
    var digits := HexDigits(n, upper);
    var pad := if width > |digits| then width - |digits| else 0;
    Zeros(pad) + digits
  }

  /** No lower-case letter: what `.upper()` leaves of a hexadecimal text. */
  predicate NoLowerHex(s: string) {
    forall i :: 0 <= i < |s| ==> !('a' <= s[i] <= 'f')
  }

  lemma {:induction false} UpperHexDigits(n: nat)
    ensures NoLowerHex(HexDigits(n, true))
    decreases n
  {
    if n >= 16 {
      UpperHexDigits(n / 16);
    }
  }

  /** A number below `0x1000` has at most three hexadecimal digits. */
  lemma HexDigitsBelow4096(n: nat, upper: bool)
    ensures n < 0x1000 ==> |HexDigits(n, upper)| <= 3
  {
    if 16 <= n < 0x1000 {
      assert n / 16 < 0x100;
      if n / 16 >= 16 {
        assert |HexDigits(n / 16 / 16, upper)| == 1;
      }
    }
  }

  /** Python's `int(s, 16)` on the inputs this model admits: an optional
      `0x`/`0X` prefix followed by a non-empty run of hexadecimal digits. */
  function ParseHex(s: string): (r: Option<nat>)
  {
    var body := if |s| >= 2 && s[0] == '0' && (s[1] == 'x' || s[1] == 'X') then s[2..] else s;
    if |body| >= 1 && AllHexDigits(body) then Some(HexValue(body)) else None
  }

  lemma {:induction false} HexValueOfHexDigits(n: nat, upper: bool)
    ensures HexValue(HexDigits(n, upper)) == n
    decreases n
  {
    if n >= 16 {
      var s := HexDigits(n, upper);
      assert s[..|s| - 1] == HexDigits(n / 16, upper);
      HexValueOfHexDigits(n / 16, upper);
    }
  }

  lemma {:induction false} HexValueOfZeros(k: nat, s: string)
    requires AllHexDigits(s)
    ensures AllHexDigits(Zeros(k) + s) && HexValue(Zeros(k) + s) == HexValue(s)
    decreases |s|
  {
    var t := Zeros(k) + s;
    if s == [] {
      assert t == Zeros(k);
      ZerosValue(k);
    } else {
      assert t[..|t| - 1] == Zeros(k) + s[..|s| - 1];
      HexValueOfZeros(k, s[..|s| - 1]);
    }
  }

  lemma {:induction false} ZerosValue(k: nat)
    ensures HexValue(Zeros(k)) == 0
    decreases k
  {
    if k > 0 {
      assert Zeros(k)[..k - 1] == Zeros(k - 1);
      ZerosValue(k - 1);
    }
  }

  lemma HexValueOfFormatHex(n: nat, width: int, upper: bool)
    ensures HexValue(FormatHex(n, width, upper)) == n
  {
    var digits := HexDigits(n, upper);
    var pad := if width > |digits| then width - |digits| else 0;
    HexValueOfZeros(pad, digits);
    HexValueOfHexDigits(n, upper);
  }

  /** `int(format(n, '0Wx'), 16) == n`, with or without `.upper()` and with
      or without a `0x` prefix in front. */
  lemma ParseHexOfFormatHex(n: nat, width: int, upper: bool)
    ensures ParseHex(FormatHex(n, width, upper)) == Some(n)
    ensures ParseHex("0x" + FormatHex(n, width, upper)) == Some(n)
  {
    var s := FormatHex(n, width, upper);
    HexValueOfFormatHex(n, width, upper);
    assert !IsHexDigit('x') && !IsHexDigit('X');
    assert |s| >= 2 ==> s[1] != 'x' && s[1] != 'X' by {
      if |s| >= 2 {
        assert IsHexDigit(s[1]);
      }
    }
    var t := "0x" + s;
    assert t[2..] == s;
  }

  // -------------------------------------------------------- split and join

  /** Python's `sep.join(parts)`. */
  function Join(parts: seq<string>, sep: string): string
  {
    if |parts| == 0 then ""
    else if |parts| == 1 then parts[0]
    else parts[0] + sep + Join(parts[1..], sep)
  }

  /** Index of the first `c` in `s`, or `|s|` when there is none. */
  function FirstIndex(s: string, c: char): (i: nat)
    ensures i <= |s|
    ensures i < |s| ==> s[i] == c
    ensures forall j :: 0 <= j < i ==> s[j] != c
  {
    if s == [] then 0
    else if s[0] == c then 0
    else 1 + FirstIndex(s[1..], c)
  }

  /** Python's `s.split(c)` for a one-character separator: the pieces between
      the occurrences of `c`, empty pieces included. */
  function Split(s: string, c: char): (parts: seq<string>)
    ensures |parts| >= 1
    ensures forall k :: 0 <= k < |parts| ==> c !in parts[k]
    ensures Join(parts, [c]) == s
    ensures c !in s <==> |parts| == 1
    decreases |s|
  {
    var i := FirstIndex(s, c);
    if i == |s| then [s]
    else
      var rest := Split(s[i + 1..], c);
      SplitStep(s, c, i, rest);
      [s[..i]] + rest
  }

  /** The piece before the first `c`, in front of the split of what follows. */
  lemma SplitStep(s: string, c: char, i: nat, rest: seq<string>)
    requires i < |s| && s[i] == c && c !in s[..i]
    requires |rest| >= 1 && Join(rest, [c]) == s[i + 1..]
    requires forall k :: 0 <= k < |rest| ==> c !in rest[k]
    ensures Join([s[..i]] + rest, [c]) == s
    ensures forall k :: 0 <= k < |rest| + 1 ==> c !in ([s[..i]] + rest)[k]
  {
    assert Join([s[..i]] + rest, [c]) == s by {
      JoinCons(s[..i], rest, [c]);
      PieceAround(s, i);
    }
    forall k | 0 <= k < |rest| + 1
      ensures c !in ([s[..i]] + rest)[k]
    {
      if k > 0 {
        assert ([s[..i]] + rest)[k] == rest[k - 1];
      }
    }
  }

  lemma PieceAround(s: string, i: nat)
    requires i < |s|
    ensures s[..i] + [s[i]] + s[i + 1..] == s
  {
  }

  /** Joining a leading piece onto at least one more. */
  lemma JoinCons(x: string, xs: seq<string>, sep: string)
    requires |xs| >= 1
    ensures Join([x] + xs, sep) == x + sep + Join(xs, sep)
  {
    assert ([x] + xs)[1..] == xs;
  }

  /** Python's `s.split(c, maxsplit=1)`. */
  function SplitOnce(s: string, c: char): (parts: seq<string>)
    ensures 1 <= |parts| <= 2
    ensures c !in parts[0]
    ensures |parts| == 1 <==> c !in s
    ensures |parts| == 1 ==> parts[0] == s
    ensures |parts| == 2 ==> s == parts[0] + [c] + parts[1]
  {
    var i := FirstIndex(s, c);
    if i == |s| then [s]
    else
      assert s == s[..i] + [c] + s[i + 1..];
      [s[..i], s[i + 1..]]
  }

  lemma {:induction false} FirstIndexOfJoin(a: string, c: char, b: string)
    requires c !in a
    ensures FirstIndex(a + [c] + b, c) == |a|
    decreases |a|
  {
    if a != [] {
      assert (a + [c] + b)[1..] == a[1..] + [c] + b;
      FirstIndexOfJoin(a[1..], c, b);
    }
  }

  /** Splitting undoes joining when no piece contains the separator. */
  lemma {:induction false} SplitOfJoin(parts: seq<string>, c: char)
    requires |parts| >= 1
    requires forall k :: 0 <= k < |parts| ==> c !in parts[k]
    ensures Split(Join(parts, [c]), c) == parts
    decreases |parts|
  {
    if |parts| > 1 {
      var rest := parts[1..];
      assert parts == [parts[0]] + rest;
      JoinCons(parts[0], rest, [c]);
      SplitCons(parts[0], c, Join(rest, [c]));
      SplitOfJoin(rest, c);
    } else {
      SplitNone(parts[0], c);
    }
  }

  /** Splitting `x + c + y` at `c` when neither part holds a `c`. */
  lemma SplitTwo(x: string, y: string, c: char)
    requires c !in x && c !in y
    ensures Split(x + [c] + y, c) == [x, y]
  {
    assert Join([x, y], [c]) == x + [c] + y;
    SplitOfJoin([x, y], c);
  }

  /** Splitting peels off a leading piece without the separator. */
  lemma SplitCons(x: string, c: char, rest: string)
    requires c !in x
    ensures Split(x + [c] + rest, c) == [x] + Split(rest, c)
  {
    var s := x + [c] + rest;
    FirstIndexOfJoin(x, c, rest);
    assert s[..|x|] == x && s[|x| + 1..] == rest;
  }

  /** A text without the separator is a single piece. */
  lemma SplitNone(s: string, c: char)
    requires c !in s
    ensures Split(s, c) == [s]
  {
  }

  // ----------------------------------------------------------------- binary

  function Pow2(n: nat): (p: nat)
    ensures p >= 1
  {
    if n == 0 then 1 else 2 * Pow2(n - 1)
  }

  predicate IsBits(s: string) {
    forall i :: 0 <= i < |s| ==> s[i] == '0' || s[i] == '1'
  }

  /** Python's `int(s, 2)` on a non-empty string of binary digits. */
  function BinValue(s: string): (v: nat)
    requires IsBits(s)
    ensures v < Pow2(|s|)
  {
    if s == [] then 0
    else BinValue(s[..|s| - 1]) * 2 + (if s[|s| - 1] == '1' then 1 else 0)
  }

  /** Quotient and remainder are determined by `b == d * q + r`,
      `0 <= r < d`. */
  lemma DivModUnique(b: int, d: int, q: int, r: int)
    requires d > 0 && 0 <= r < d && b == d * q + r
    ensures b / d == q && b % d == r
  {
    var q0 := b / d;
    var r0 := b % d;
    assert b == d * q0 + r0;
    assert d * (q0 - q) == r - r0 by {
      assert d * q0 - d * q == d * (q0 - q);
    }
    if q0 - q >= 1 {
      MulAtLeast(d, q0 - q);
      assert false;
    } else if q - q0 >= 1 {
      MulAtLeast(d, q - q0);
      assert false;
    }
  }

  lemma MulAtLeast(d: int, x: int)
    requires d > 0 && x >= 1
    ensures d * x >= d
  {
  }

  lemma {:induction false} Pow2Add(a: nat, b: nat)
    ensures Pow2(a + b) == Pow2(a) * Pow2(b)
    decreases b
  {
    if b > 0 {
      Pow2Add(a, b - 1);
      assert Pow2(a + b) == 2 * Pow2(a + b - 1);
      assert Pow2(a) * Pow2(b) == Pow2(a) * (2 * Pow2(b - 1));
    }
  }

  /** Appending binary digits shifts the value left by their number. */
  lemma {:induction false} BinValueConcat(a: string, b: string)
    requires IsBits(a) && IsBits(b)
    ensures IsBits(a + b) && BinValue(a + b) == BinValue(a) * Pow2(|b|) + BinValue(b)
    decreases |b|
  {
    if b == [] {
      assert a + b == a;
    } else {
      var b' := b[..|b| - 1];
      assert (a + b)[..|a + b| - 1] == a + b';
      assert (a + b)[|a + b| - 1] == b[|b| - 1];
      BinValueConcat(a, b');
      var d := if b[|b| - 1] == '1' then 1 else 0;
      assert BinValue(a + b) == BinValue(a + b') * 2 + d;
      assert BinValue(b) == BinValue(b') * 2 + d;
      assert Pow2(|b|) == 2 * Pow2(|b'|);
      ShiftOneMore(BinValue(a), Pow2(|b'|), BinValue(b'), d);
    }
  }

  lemma ShiftOneMore(x: nat, p: nat, y: nat, d: nat)
    ensures (x * p + y) * 2 + d == x * (2 * p) + (y * 2 + d)
  {
  }

  // ------------------------------------------------------------------ case

  /** Python's `str.lower()` on ASCII letters (other characters unchanged). */
  function Lower(s: string): (r: string)
    ensures |r| == |s|
    ensures forall i :: 0 <= i < |s| ==> !('A' <= r[i] <= 'Z')
    ensures forall i :: 0 <= i < |s| && !('A' <= s[i] <= 'Z') ==> r[i] == s[i]
  {
    seq(|s|, i requires 0 <= i < |s| => if 'A' <= s[i] <= 'Z' then (s[i] as int + 32) as char else s[i])
  }
}


=== FILE: wrappers.dfy ===
/** Failure-carrying datatypes shared by every module of the model.

  The modelled program is written in Python, so an operation can end in three
  ways: it returns a value, it returns a falsy sentinel (`False`, `None`,
  `-1`), or an exception escapes to its caller.  The first two are ordinary
  values of the operation's result type (often an `Option`); the third is
  `Raise` below, tagged with the kind of the exception.
*/
module Wrappers {

  datatype Option<+T> = None | Some(value: T)

  /** The Python exception classes the modelled code can let escape. */
  datatype PyException = ValueError | IndexError | TypeError | OverflowError | AttributeError
                       | UnboundLocalError

  /** Either the value an operation returned, or the exception it raised. */
  datatype Result<+T> = Ok(value: T) | Raise(error: PyException) {

    predicate IsFailure() {
      Raise?
    }

    function PropagateFailure<U>(): Result<U>
      requires Raise?
    {
      Raise(error)
    }

    function Extract(): T
      requires Ok?
    {
      value
    }
  }
}
